=== FILE: README.md ===
# users-api in Dafny

A model of the request-processing core of the users-api service: a Go HTTP
server offering CRUD over a `users` table, registration and login with JWT
tokens, and a chain of middlewares. The chain covers the request logger, panic
recovery, the access log, CORS, default security headers, a per-IP rate
limiter, two bearer-token authenticators and two role gates. The model also
covers the repository over the table and the money-transfer service.

Every handler and middleware is a pure function
`(Env, Request, World) -> Reply`:

- `World` holds the two pieces of shared state, the users table (`Repository.Store`) and the rate limiter's map (`Registry.Registry`).
- `Reply` lists the calls made on the `http.ResponseWriter` (set or delete a header, add a cookie, `WriteHeader`, `Write`), the log records, whether the handler panicked, and the new world.
- The status line the client receives is the first committing call (`Http.WireStatus`). The status a wrapping writer captures is the last `WriteHeader` (`MidLog.CapturedStatus`). The model keeps the two apart because the handlers sometimes write two errors.
- `Env` carries the answers of everything outside the core, one request at a time: the clock, the UUID generator, `net.SplitHostPort`, the token bucket's `Allow`, JWT parsing and signing, bcrypt, the JSON decoders and `validate.Struct`. It also carries the repository's logger, and the text that `zap.Any` and `debug.Stack` give for a recovered panic.
- Log records keep their logger, level, message and fields in order. The repository's records are threaded through every repository call, so a handler's reply lists them before its own.

Modules follow the source files:

| module | source |
|---|---|
| `Http`, `Json`, `Logs`, `Strings`, `Strconv`, `Wrappers` | the parts of the standard library and its neighbours that the core relies on |
| `Config` | `config/config.go` |
| `Model` | `internal/model/model.go` |
| `Repository` | `internal/repository/repository.go` |
| `Service` | `internal/service/service.go` |
| `Registry`, `RateLimiter` | `internal/middleware/rate_limiter.go` (state and request handling) |
| `WithLogger`, `Recover`, `MidLog`, `Logging`, `Cors`, `DefaultHeaders`, `Roles`, `MwAuth` | `internal/middleware/*.go` |
| `Auth` | `internal/auth/middleware.go` |
| `Handlers` | the handlers and helpers of `internal/server/server.go` |
| `Server` | `SetupRoutes` and `StartServer` |

Behaviour of the code that its swagger annotations and comments do not
lead one to expect; the model follows the code:

- A PUT or PATCH on a missing id is answered with 500, although server.go:343 and :425 announce 404 for it. The repository's not-found errors do not wrap `sql.ErrNoRows` (`Handlers.PutMissingUserIs500`, `Handlers.PatchFailureIs500`).
- A request holding the role "admin" does not pass the protected routes. The subrouter (server.go:94-96) stacks `AdminOnly` and `EditorOnly`, so no role passes both (`Roles.StackedGatesUnsatisfiable`, `Server.WritesRefused`).
- Login tokens carry the empty role, because the e-mail lookup does not read the role column (`Handlers.LoginSuccess`).
- The public `GET /users/{id}` answers with the stored password hash (`Handlers.GetUserByIdExposesHash`).
- The rate limiter is the outermost stage (server.go:59), so a throttled request gets no default headers and no access-log record (`Server.ServingShape`, `Server.ThrottledRequest`).
- `GET /me` is documented (server.go:560) as reading the id a middleware put in the context, but no authenticator is in front of it, so it always fails with 500 (`Server.MeRequestFails`).
- The package `internal/server` does not compile as written. server.go:508, :538 and :570 each declare a `log` variable that is never used, and Go rejects unused variables. The model describes the handlers as if those three declarations were absent; they have no other effect.
- After a failed commit the deferred rollback always fails with `sql.ErrTxDone`, so a failed commit is always followed by a "rollback transaction error" record (`Service.TransferFunds`).

## Model

| member | source | states |
|---|---|---|
| Strings.TrimPrefix | internal/auth/middleware.go:30 | removes one leading prefix when present (prefix + result is the input), else returns the input unchanged |
| Strings.ContainsPiece | internal/server/server.go:184 | a string built as a + sub + b contains sub, so the marker test of the POST handlers finds an embedded marker |
| Strings.ShorterNotContained | internal/server/server.go:184 | a string shorter than the marker never contains it |
| Strconv.DigitChar | internal/repository/repository.go:99 | each digit character denotes its value |
| Strconv.NatToDigits | internal/repository/repository.go:99 | the shortest decimal spelling: non-empty, all digits, no leading zero, denoting n |
| Strconv.Itoa | internal/repository/repository.go:99 | `%d` of an int is a non-empty string |
| Strconv.Atoi | internal/server/server.go:690-693 | accepts only an optional sign followed by digits; the result lies in the int64 range; the empty string is a syntax error |
| Strconv.AtoiItoa | internal/server/server.go:682-695 | every int64 printed in decimal is read back unchanged |
| Strconv.AtoiRejectsNonDigit | internal/server/server.go:690-693 | a non-digit after the first character makes Atoi fail |
| Json.TruncToInt | internal/auth/middleware.go:64 | `int(f)` truncates toward zero: within one unit of x, on the side of zero |
| Json.TruncOfWhole | internal/auth/middleware.go:64 | a whole number survives the float64 `sub` claim's trip back to int |
| Model.StrPtr | internal/model/model.go:45-47 | yields a supplied field holding exactly s |
| Model.LoginPasswordHasNoMinimum | internal/model/model.go:23-33 | a password shorter than 8 passes the login tags but fails the registration tags |
| Http.Canonical | internal/middleware/withlogger.go:36 | `textproto.CanonicalMIMEHeaderKey` changes only the case of letters, keeps every hyphen in place, and leaves a name with a non-token byte as it is |
| Http.CanonicalLoop | internal/middleware/withlogger.go:36 | the library's byte loop, which upper-cases the letter after each hyphen, computes the canonical form |
| Http.CanonicalIdempotent | internal/middleware/default_headers.go:11-16 | a canonical name is its own canonical form |
| Http.CanonicalIgnoresCase | internal/middleware/withlogger.go:36 | two token names that differ only in letter case share one canonical form |
| Http.RequestIdKey | internal/middleware/withlogger.go:36 | the name "X-Request-ID" the code asks for is the key "X-Request-Id" net/http stores |
| Http.HeaderGet | internal/auth/middleware.go:22 | `Header.Get` is the value stored under the canonical form of the name, or "" when there is none |
| Http.WithContext | internal/auth/middleware.go:68 | the request with only its context replaced |
| Http.WireStatus | internal/server/server.go:351-361 | a trace that never commits answers 200; the first committing call fixes the status |
| Http.WireBody | internal/server/server.go:199 | the body has no more writes than the trace has calls |
| Http.WireBodyAppend | internal/server/server.go:195-199 | the body of two traces in a row is the first body followed by the second; a single `Write` contributes its bytes and any other call nothing |
| Http.ErrorEvents | internal/middleware/recover.go:25 | `http.Error` sends the given code as the status line, and the body is exactly the message followed by a newline |
| Http.KeyfuncError | internal/auth/middleware.go:34-41 | an error returned by the key function reaches the caller behind jwt's "token is unverifiable: error while executing keyfunc: " prefix |
| Http.ToResponse | internal/server/server.go:195-199 | the response's status is the trace's wire status |
| Http.ErrorSetsWireStatus | internal/middleware/recover.go:25 | `http.Error` after uncommitted header changes sends its own code, whatever follows |
| Http.WireStatusFixedOnceCommitted | internal/server/server.go:351-361 | once a status line is sent, later calls do not change it |
| Http.WireStatusAfterNoCommit | internal/middleware/default_headers.go:11-19 | header changes written in front of a trace leave its status line unchanged |
| Http.Respond | internal/middleware/cors.go:8-18 | a reply that performs exactly the given calls and changes nothing |
| Http.Reject | internal/middleware/roles.go:15-16 | `http.Error(...); return` answers with the given code and leaves the world as it was |
| Http.Prepend | internal/middleware/default_headers.go:11-19 | calls made before `next` come first in the trace; `next`'s logs, panic and world are kept |
| Repository.Wrap | internal/repository/repository.go:107 | `%w` wrapping keeps the `sql.ErrNoRows` chain and prefixes the context |
| Repository.GetUserByID | internal/repository/repository.go:82-112 | succeeds exactly for a stored id, returning the id, name, age, e-mail and hash with empty role and zero balance, with no log record; a missing id gives "user with id N not found", which does not wrap `sql.ErrNoRows`, and one Info "user not found" record with the id |
| Repository.FindEmail | internal/repository/repository.go:115-123 | the lowest id in the range holding the e-mail, or None when no row in the range holds it |
| Repository.GetUserByEmail | internal/repository/repository.go:114-143 | succeeds exactly when some row holds the e-mail, returning that row's hash with an empty role; the failure text and the Info "user not found" record both carry the empty user's e-mail |
| Repository.ListRange | internal/repository/repository.go:28-80 | lists stored rows of the range in ascending id order, without hash, role or balance |
| Repository.ListRangeComplete | internal/repository/repository.go:28-80 | no stored row of the range is left out of the listing |
| Repository.GetAllUsers | internal/repository/repository.go:28-80 | each stored row listed once, without hash, role or balance; an empty table lists nothing |
| Repository.PostUser | internal/repository/repository.go:145-182 | a missing name, e-mail or hash, or an age not above 0, is refused before the INSERT with an Info "not all fields filled" record; otherwise it succeeds exactly when the e-mail is free, storing the row under the next SERIAL id, which was free before, with no record; a taken e-mail gives pgx's unique-violation error, wrapped, and an Error "failed to insert user" record carrying it; validity (`Repository.Valid`: ids below the SERIAL counter, e-mails unique) is kept |
| Repository.PutUser | internal/repository/repository.go:184-224 | succeeds exactly for a stored id whose new e-mail is free, replacing name, age and e-mail only, with no record; a missing id gives the lookup's Info record and an Error "user not found by ID", and does not wrap `sql.ErrNoRows`; a taken e-mail gives pgx's unique-violation error and an Error "failed to update user"; validity is kept |
| Repository.BuildSetClause | internal/repository/repository.go:227-247 | one `column = $i` fragment per supplied field, in the order name, age, e-mail, numbered from 1, with matching arguments |
| Repository.PatchStatement | internal/repository/repository.go:251-266 | no statement when no field is supplied; otherwise the arguments are the supplied values followed by the id |
| Repository.SamplePatchStatement | internal/model/model.go:39-42 | the sample PATCH body updates only `email = $1`, for row `$2` |
| Repository.FullPatchStatement | internal/repository/repository.go:231-266 | a body supplying all three fields numbers them $1..$3 and the id $4 |
| Repository.ApplyPatch | internal/repository/repository.go:260-268 | the UPDATE changes the supplied columns and keeps every other column |
| Repository.PatchUser | internal/repository/repository.go:226-289 | with nothing to set it returns GetUserByID's answer and records; a taken e-mail gives pgx's unique-violation error and an Error "failed to update user"; otherwise it is the update and re-read; every error leaves the table unchanged and none wraps `sql.ErrNoRows` |
| Repository.UpdateAndReread | internal/repository/repository.go:258-289 | for a stored id exactly the supplied columns change and the re-read row is returned with no record; a missing id changes nothing and logs the lookup's Info record and an Error "user not found by ID"; validity is kept |
| Repository.DeleteUser | internal/repository/repository.go:291-317 | succeeds exactly when the id is stored, removing only that row with no record; a missing id changes nothing and logs one Info "user not found" with the id |
| Repository.WithdrawBalance | internal/repository/repository.go:324-364 | a missing sender gives `sql.ErrNoRows` and an Error "user not found" record; otherwise succeeds exactly when the balance covers the amount, lowering it by the amount with no record, and a short balance logs Info "user has no enough founds" |
| Repository.DepositBalance | internal/repository/repository.go:366-395 | succeeds exactly when the receiver exists, raising its balance by the amount with no record; failure wraps `sql.ErrNoRows` and logs an Error "user not found" |
| Repository.BalanceSumSet | internal/repository/repository.go:324-395 | changing one row's balance changes the table's total by the same amount |
| Service.RollbackRecords | internal/service/service.go:57-63 | nothing when the rollback succeeds; one Error "rollback transaction error" record carrying its error when it fails |
| Service.Finish | internal/service/service.go:54-65 | the deferred function of a failing transfer rolls back, keeping the table and the error; its record, if any, follows the repository's records |
| Service.Fail | internal/service/service.go:51-79 | transfer errors carry the "users.service.TransferFunds: <step>: " prefix and keep the cause's chain |
| Service.TransferFunds | internal/service/service.go:48-83 | commits exactly when begin and commit succeed and the data admits withdraw then deposit, moving the amount with no record; a failed transfer leaves the table unchanged and ends with a rollback; its records are the failing repository step's record followed by the rollback's; after a failed commit the rollback fails with `sql.ErrTxDone` and is logged |
| Service.TransferStepOrder | internal/service/service.go:67-80 | a failed withdraw stops before the deposit, a failed deposit before the commit, and a commit follows a withdraw and a deposit the data admits |
| Service.TransferRollbackLast | internal/service/service.go:54-80 | a rollback happens exactly when a started transfer fails, and only as the last step |
| Service.TransferErrorNamesStep | internal/service/service.go:67-80 | each error names the step that failed and wraps that step's error |
| Service.TransferPreservesTotal | internal/service/service.go:48-83 | the total balance is the same after any transfer, committed or not |
| Service.CommittedTransferMovesAmount | internal/service/service.go:67-76 | a committed transfer moves exactly the amount from sender to receiver and touches no other row |
| Registry.GetLimiter | internal/middleware/rate_limiter.go:98-113 | a known address keeps its limiter; a new one gets a fresh 5/s, burst-10 limiter unlike every stored one; the address's entry is stamped with now and no other entry changes |
| Registry.Sweep | internal/middleware/rate_limiter.go:83-95 | keeps exactly the entries idle for at most three minutes (`Registry.Keep`), unchanged |
| Registry.CleanupClients | internal/middleware/rate_limiter.go:87-93 | the delete-while-ranging loop computes the sweep |
| Registry.SweepKeepsBoundary | internal/middleware/rate_limiter.go:89 | an entry exactly three minutes idle survives (the comparison is strict) |
| Registry.SweepIdempotent | internal/middleware/rate_limiter.go:83-95 | sweeping twice at the same moment is sweeping once |
| Registry.SweptClientGetsFreshLimiter | internal/middleware/rate_limiter.go:83-113 | after its entry is swept, an address's next request gets a new, equally configured limiter |
| Registry.KnownClientKeepsLimiter | internal/middleware/rate_limiter.go:110-112 | a second lookup returns the same limiter and only moves its last-seen time |
| RateLimiter.Serve | internal/middleware/rate_limiter.go:33-80 | an unsplittable address gets 500 with the registry untouched; otherwise the entry is looked up or created, and a refusal gets the JSON 429 body with one Error record whose fields are component, event and ip, never calling next; an admitted request reaches next with the updated registry |
| RateLimiter.ThrottledClientStaysFresh | internal/middleware/rate_limiter.go:60-75 | a refused request still refreshes its address's last-seen time |
| RateLimiter.RefusalIgnoresNext | internal/middleware/rate_limiter.go:46-57 | a refusal does not depend on the next handler |
| WithLogger.GenerateRequestId | internal/middleware/withlogger.go:35-41 | a non-empty request id sent by the client, which net/http keeps under "X-Request-Id", is used as it is; otherwise a fresh UUID; never empty |
| WithLogger.LoggerFromContext | internal/middleware/withlogger.go:43-49 | the stored logger, or the no-op logger |
| WithLogger.Bind | internal/middleware/withlogger.go:19-30 | the forwarded request adds only the logger key to the context |
| WithLogger.Serve | internal/middleware/withlogger.go:15-33 | calls next exactly once with the bound request, unchanged writer and world |
| WithLogger.ForwardedLogger | internal/middleware/withlogger.go:21-30 | downstream, LoggerFromContext yields the base logger extended with `WithLogger.RequestFields`: trace id, method, path and client address |
| Recover.Serve | internal/middleware/recover.go:10-32 | never panics; a non-panicking reply passes through; a panic adds one Error "panic recovered" record carrying the recovered value and the stack, and `http.Error` 500 after what was written |
| Recover.PanicBeforeWriteIs500 | internal/middleware/recover.go:16-29 | a panic before any commit reaches the client as 500 |
| MidLog.CapturedStatus | internal/middleware/midlog.go:17-33 | 200 when the handler never calls WriteHeader, else the code of one of its WriteHeader calls |
| MidLog.LastStatus | internal/middleware/midlog.go:17-20 | the initial code when there is no WriteHeader, else the code of one of them |
| MidLog.CaptureStatus | internal/middleware/midlog.go:17-20 | overwriting the stored code at each WriteHeader computes the captured status |
| MidLog.LastWriteHeaderWins | internal/middleware/midlog.go:17-20 | the last WriteHeader decides the captured status |
| MidLog.CapturedMayDifferFromWire | internal/middleware/midlog.go:17-44 | after any uncommitted calls and two `http.Error` calls, the client sees the first code and the access log the second, so the two differ whenever the codes do |
| MidLog.Completed | internal/middleware/midlog.go:50-78 | the "HTTP request completed" record by the request's logger: Error from 500, Warn from 400 to 499, with the status code as its first field |
| MidLog.LevelFor | internal/middleware/midlog.go:50-78 | Error from 500, Warn from 400 to 499, Info below 400 |
| MidLog.Serve | internal/middleware/midlog.go:28-81 | calls next once, then adds one "HTTP request completed" record at the level of the captured status (200 if never set) |
| Logging.Serve | internal/middleware/logging.go:19-42 | calls next once, then prints one "Completed" line with the captured status |
| Logging.LineRecordsStatus | internal/middleware/logging.go:39 | `Logging.Line` starts with "Completed <method> <path> with ", and the digits that follow read back as the captured code |
| Logging.LineDistinguishesStatus | internal/middleware/logging.go:39 | two lines for the same request and duration are equal only when the codes are |
| Cors.Serve | internal/middleware/cors.go:8-18 | a preflight (`Cors.IsPreflight`: OPTIONS with Access-Control-Request-Method) is answered with 204 without calling next; any other request goes to next unchanged |
| DefaultHeaders.Events | internal/middleware/default_headers.go:11-16 | six header settings, none of them commits |
| DefaultHeaders.KeysCanonical | internal/middleware/default_headers.go:11-16 | each of the six names the code spells is stored under its canonical key |
| DefaultHeaders.XssKey | internal/middleware/default_headers.go:15 | "X-XSS-Protection" goes out as "X-Xss-Protection" |
| DefaultHeaders.SetDefaults | internal/middleware/default_headers.go:11-16 | the six canonical keys carry their fixed values, and every other header is kept |
| DefaultHeaders.SetDefaultsIdempotent | internal/middleware/default_headers.go:11-16 | setting the defaults twice is setting them once |
| DefaultHeaders.EventsSetDefaults | internal/middleware/default_headers.go:11-16 | replaying the stage's calls on a header state is the update |
| DefaultHeaders.Serve | internal/middleware/default_headers.go:6-22 | the six settings come before next's reply, and next runs once |
| Auth.Check | internal/auth/middleware.go:20-70 | refuses a header not starting with "Bearer "; otherwise accepts exactly a verified token with HMAC signing, a `sub` claim holding a number; the id is `int(sub)` and the role claim is passed as is; each refusal has its own 401 body and printed line, and a non-HMAC token's error carries jwt's keyfunc prefix |
| Auth.Forwarded | internal/auth/middleware.go:64-68 | the forwarded request holds the id and the raw role, and keeps every other context entry |
| Auth.Refusal | internal/auth/middleware.go:25-58 | a refusal is a 401 that leaves the world unchanged |
| Auth.Serve | internal/auth/middleware.go:20-70 | refusals are 401 without calling next; acceptance calls next with the forwarded request |
| Auth.GetUserIdFromContext | internal/auth/middleware.go:73-77 | (v, true) exactly when an int v is stored under this package's key, else (0, false) |
| Auth.ForwardedIdReadBack | internal/auth/middleware.go:64-77 | the id stored by the authenticator is the id the handler reads back |
| Auth.LowerCaseSchemeRefused | internal/auth/middleware.go:25-28 | "bearer " in lower case is refused |
| Auth.VerifiedTokenIsHeaderRest | internal/auth/middleware.go:30 | the token verified is the header minus one "Bearer " |
| Auth.NonHmacRefused | internal/auth/middleware.go:34-46 | a token signed with a non-HMAC algorithm is refused with "токен невалидный" |
| MwAuth.Check | internal/middleware/auth.go:20-95 | the second authenticator makes the same checks, in the same order; each refusal names its own record message ("missing or invalid token", "processing token error", "claims token error", "invalid sub-field") and error |
| MwAuth.Forwarded | internal/middleware/auth.go:89-91 | forwards the id under this package's own key and the role under "role"; every other context entry, the logger among them, is kept, and no other key is added |
| MwAuth.Serve | internal/middleware/auth.go:20-95 | every refusal is the same 401 "access denied" with one Error record; acceptance calls next |
| MwAuth.GetUserIdFromContext | internal/middleware/auth.go:98-101 | (v, true) exactly when an int v is stored under this package's key |
| MwAuth.AuthenticatorsAgree | internal/middleware/auth.go:20-95 | both authenticators accept the same requests and extract the same id and role |
| MwAuth.ForwardedAgree | internal/middleware/auth.go:89-91 | the two authenticators' forwarded requests differ only in the key the id is stored under |
| MwAuth.ServesAgree | internal/middleware/auth.go:20-95 | both refuse the same requests with 401, and on acceptance call next with requests whose contexts agree outside the two id keys |
| MwAuth.KeysDoNotMeet | internal/middleware/auth.go:15-17 | an id stored by one package's authenticator cannot be read with the other's accessor |
| Roles.RoleOf | internal/middleware/roles.go:13 | a role exactly when a string is stored under "role" |
| Roles.Gate | internal/middleware/roles.go:11-31 | forwards unchanged when the role is the required string, else 403 without calling next |
| Roles.GatesForwardIff | internal/middleware/roles.go:11-31 | `Roles.AdminOnly` forwards unchanged for the role "admin" and otherwise refuses with 403, changing nothing; `Roles.EditorOnly` likewise for "editor" |
| Roles.NoStringRoleRejected | internal/middleware/roles.go:13-16 | an absent, null or non-string role, and the role "user", fail both gates |
| Roles.StackedGatesUnsatisfiable | internal/middleware/roles.go:11-31 | stacked in either order, the two gates refuse every request with 403 |
| Handlers.Answer | internal/server/server.go:195-199 | a JSON answer is sent with its own status |
| Handlers.Complain | internal/server/server.go:351-361 | `http.Error` after earlier writes: the status is the new code unless something was already committed |
| Handlers.ParseId | internal/server/server.go:682-695 | a missing `{id}` and a non-numeric one give their two messages; otherwise the value Atoi reads |
| Handlers.ParseIdReadsDecimal | internal/server/server.go:682-695 | an int64 written in decimal in the path is read back |
| Handlers.UnixSeconds | internal/server/server.go:702 | `Unix()` rounds nanoseconds down to whole seconds |
| Handlers.TokensDifferOnlyInExpiry | internal/server/server.go:697-725 | access and refresh tokens carry the same sub, e-mail and role, expire 15 minutes and 1200 hours after now, and the access token expires first |
| Handlers.RefreshCookie | internal/server/server.go:648-656 | the refresh cookie is HttpOnly, SameSite=Strict, not Secure, path "/", and its max age equals the refresh TTL |
| Handlers.Ready | internal/server/server.go:144-148 | always 200 and changes nothing |
| Handlers.InsertFailure | internal/server/server.go:182-191 | 422 exactly when the store error's text contains the "обязательны для заполнения" marker, else 500; the missing-fields error gets 500 |
| Handlers.MarkedErrorIs422 | internal/server/server.go:184-186 | an error text carrying the marker is passed through with 422 |
| Handlers.PostUser | internal/server/server.go:161-215 | a body that does not decode gets 400 and changes nothing; the registry is never touched |
| Handlers.PostMissingFieldIs500 | internal/server/server.go:181-191 | the store's missing-fields error does not carry the marker, so it is answered with 500 and nothing is stored |
| Handlers.PostCreates | internal/server/server.go:181-199 | a successful POST answers 201 with the new user under the next id and stores exactly that row |
| Handlers.Register | internal/server/server.go:229-294 | a body that does not decode gets 400 and changes nothing |
| Handlers.Hash | internal/server/server.go:248-251 | the bcrypt hash, or a 500 error with an empty hash when hashing fails |
| Handlers.Insert | internal/server/server.go:181-199 | a user missing a required field gets the insert-failure 500 after what was written, with the repository's "not all fields filled" record; any store refusal logs only the repository's records, a success adds the handler's own record after them |
| Handlers.RegisterHashFailure | internal/server/server.go:248-269 | a failed hash writes 500, the handler carries on, and the store refuses the empty hash with a second 500; nothing is stored |
| Handlers.RegisterAgeZeroIs500 | internal/server/server.go:253-269 | age 0 passes the registration tags but the store refuses it: 500 and nothing stored |
| Handlers.RegisterCreates | internal/server/server.go:253-278 | when the store accepts the user, registration stores the bcrypt hash with the default role and balance, and answers 201 without the hash |
| Handlers.GetUsers | internal/server/server.go:304-331 | always 200 and changes nothing |
| Handlers.GetUsersDocument | internal/server/server.go:312-317 | an empty table is sent as JSON null; otherwise every user is listed, without hash or role |
| Handlers.PathId | internal/server/server.go:351-354 | a bad path id writes a 400 and the handler carries on with id 0; a good one writes nothing |
| Handlers.PutUser | internal/server/server.go:346-413 | never touches the rate limiter's registry |
| Handlers.PutMissingUserIs500 | internal/server/server.go:384-393 | a PUT on a missing id is answered with 500, not 404, changes nothing, and logs the repository's Info "user not found" and Error "user not found by ID" |
| Handlers.PutBadPathIdContinues | internal/server/server.go:351-393 | a non-numeric path id sends 400, yet a body with id 0 reaches the store and writes a second error, 500 |
| Handlers.PutUpdates | internal/server/server.go:384-398 | an accepted PUT answers 200 with the record as sent and replaces only name, age and e-mail of that row |
| Handlers.PutAnswer | internal/server/server.go:384-412 | whatever the store answers, the world after a PUT is the store after the update, with the registry untouched; a refusal logs only the repository's records, a success adds the handler's record after them |
| Handlers.PatchUser | internal/server/server.go:428-494 | never touches the rate limiter's registry |
| Handlers.PatchErrorsUnmapped | internal/repository/repository.go:226-289 | no error of the store's PatchUser carries the no-fields text or wraps `sql.ErrNoRows` |
| Handlers.PatchFailureIs500 | internal/server/server.go:461-474 | every store error of PATCH is answered with 500 and changes nothing |
| Handlers.PatchBadPathIdContinues | internal/server/server.go:428-474 | a non-numeric path id sends 400, yet a body with id 0 reaches the store and a second error, 500, follows; nothing changes |
| Handlers.PatchNothingReturnsCurrent | internal/server/server.go:461-479 | a body with no field to set answers 200 with the current row, hash included, and changes nothing |
| Handlers.PatchUpdates | internal/server/server.go:461-479 | an accepted PATCH answers 200 with the re-read row and changes exactly the supplied columns |
| Handlers.PatchAnswer | internal/server/server.go:461-493 | whatever the store answers, the world after a PATCH is the store after the update, with the registry untouched; a refusal logs only the repository's records, a success adds the handler's record after them |
| Handlers.DeleteUser | internal/server/server.go:505-523 | a bad id gets 400; a stored id gets a bare 204 and only that row is removed, with no record; any other id gets 404, changes nothing and logs the repository's Info "user not found" |
| Handlers.GetUserById | internal/server/server.go:535-556 | a bad id gets 400 and a missing one 404 with the repository's "user not found" record; nothing changes |
| Handlers.GetUserByIdExposesHash | internal/server/server.go:546-554 | the public lookup answers 200 with the stored password hash |
| Handlers.Me | internal/server/server.go:567-589 | with no id in the context: 500, and nothing changes |
| Handlers.MeAnswers | internal/server/server.go:572-587 | with an id in the context: that user with 200, or, when there is no such row, a panic after nothing but the repository's "user not found" record |
| Handlers.Login | internal/server/server.go:603-680 | never changes the world |
| Handlers.LoginRejectsUnknownOrWrong | internal/server/server.go:621-631 | an unknown e-mail and a wrong password are both answered with 401 |
| Handlers.LoginSuccess | internal/server/server.go:621-664 | success requires the stored user and matching password; the refresh cookie and the access token are signed from that user's claims, and the role claim is empty |
| Handlers.AccessTokenAuthenticates | internal/server/server.go:697-710 | an access token presented as "Bearer <token>" authenticates its user's id with its role |
| Handlers.LoginTokenFailsGates | internal/server/server.go:603-710 | a login token passes the authenticator but neither role gate: 403 |
| Handlers.ValidatorPanicWritesNothing | internal/server/server.go:175 | when the validator panics, nothing has been written and nothing changed |
| Server.PathVars | internal/server/server.go:99-114 | a literal pattern matches only its path; a prefix pattern matches any path with that prefix; `{id}` binds exactly one non-empty segment |
| Server.IdSegmentRoundTrip | internal/server/server.go:101 | every segment after "/users/" is matched and bound to `id` |
| Server.RouteTable | internal/server/server.go:93-122 | `Server.Routes` has eleven routes with distinct handlers; a route is guarded exactly when it serves POST /users or PUT, PATCH or DELETE /users/{id} |
| Server.FirstMatch | internal/server/server.go:85-122 | the first route matching method and path, or None exactly when none matches |
| Server.RoutesDisjoint | internal/server/server.go:93-114 | no request matches two routes |
| Server.RouteChosen | internal/server/server.go:93-114 | the route a request matches is the one the router picks |
| Server.Dispatch | internal/server/server.go:85-122 | a known path with the wrong method gets a bare 405, an unknown path gets 404, and neither changes anything |
| Server.ProtectRefuses | internal/server/server.go:93-96 | `Server.Protect` puts the authenticator and the two stacked gates in front of a handler, which is then never reached: 401 or 403, nothing changed |
| Server.GuardedRouteRefuses | internal/server/server.go:93-111 | a protected route refuses every request with 401 or 403 and changes nothing |
| Server.GuardedRoutesAreWrites | internal/server/server.go:93-111 | the protected routes are exactly POST /users and PUT, PATCH and DELETE on /users/{id} |
| Server.Reverse | internal/server/server.go:54-59 | reverses a sequence element by element |
| Server.NestSnoc | internal/server/server.go:54-59 | the stage listed last in an outermost-first list is the innermost |
| Server.AssembleIsNest | internal/server/server.go:52-59 | wrapping stage by stage puts the last stage outermost |
| Server.ServingShape | internal/server/server.go:52-59 | `Server.Serving`, the server's handler, is RateLimiter(DefaultHeaders(Cors(MidLog(Recover(WithLogger(router)))))) |
| Server.NestOutermostFirst | internal/server/server.go:54-59 | the six stages listed from the outside in nest as rate limiter, default headers, CORS, access log, recovery, request logger |
| Server.ThrottledRequest | internal/server/server.go:54-59 | a throttled request gets only the bare 429, with no default headers and no access-log record, and the table is unchanged |
| Server.InnerStages | internal/server/server.go:54-56 | inside CORS: the router's reply, recovered, followed by one access-log record of its captured status |
| Server.OuterStages | internal/server/server.go:57-59 | outside MidLog: an admitted non-preflight request gets the six default headers before the inner reply |
| Server.AdmittedRequest | internal/server/server.go:52-59 | an admitted request gets the default headers, then the recovered router reply, then an access-log record of its captured status |
| Server.PreflightRequest | internal/server/server.go:57-58 | a preflight gets the default headers and 204, without reaching the router |
| Server.PreflightStages | internal/server/server.go:57-59 | an admitted preflight gets the default headers and the bare 204; the handler inside CORS is not called |
| Server.WriteRouted | internal/server/server.go:93-111 | the router sends every write on /users and /users/{id} to a protected route, which refuses it |
| Server.WriteDispatched | internal/server/server.go:93-96 | a write on /users or /users/{id} matches a protected route and is refused with 401 or 403, nothing changed |
| Server.WritesRefused | internal/server/server.go:93-111 | every write to the table through the server is refused with 401 or 403 and the table is unchanged |
| Server.MeRouted | internal/server/server.go:102 | the router hands GET /me to the context lookup, which finds no id: 500, with nothing changed |
| Server.MeDispatched | internal/server/server.go:102 | /me with no user id in the context is answered with 500 by its handler, nothing changed |
| Server.MeRequestFails | internal/server/server.go:102 | GET /me through the server always gets 500 |

## Left out

- `main.go`, `cmd/main.go`, `internal/client/client.go`, `internal/database/postgres.go` and `internal/logger/logger.go` are process start-up, an HTTP client and database or logger construction, outside the request-processing core.
- `runServer` (ListenAndServe, signal handling, graceful shutdown) and `waitForServer` are process I/O and polling.
- `InitLogger` and `InitValidator`: their effect enters as `Env` (the validator's answers). The package logger `errorsLogger` is modelled as unset, as in production, so using it panics.
- The swagger handler behind `/swagger/` is a foreign package. Its route is matched, and the calls it makes come from `Env`.
- JSON decoding, `validate.Struct`, bcrypt, JWT parsing and signing, UUID generation, `net.SplitHostPort` and `rate.Limiter.Allow` are library calls. Their answers come from `Env`, one per request.
- The validator panics on the tag "required, email" (note the space), which every struct with an e-mail carries. The model keeps `validate.Struct` as an oracle with a `Panic` answer, so both the panicking and the non-panicking cases stay covered.
- The token bucket arithmetic of `golang.org/x/time/rate` is left out; only its configuration (5 per second, burst 10) is modelled.
- Concurrency is left out: the mutex, the cleanup goroutine and its one-minute sleep. A sweep is one atomic step at a given time.
- The JSON encoding error branches are left out; encoding a user or a map never fails in the model.
- The database error branch of `GetUsersHandler` (server.go:306-309) is left out, along with connectivity errors of every query. Only the data-dependent outcomes are modelled: not found, unique e-mail and NOT NULL. The records those connectivity branches log (repository.go:35-75, 102-105, 134-137, 353-357, 385-389 and the `Exec` error of 298-302) are left out with them.
- The table is assumed to have the production schema: `role`, `password` and `balance` columns with their defaults. The test schema of test/setup_test.go:34-39 has only id, name, age and e-mail.
- The second `sql.ErrNoRows` branch of PutUser's UPDATE (repository.go:206-211) is left out: in a sequential model the row the lookup just found is still there.
- SERIAL advancing on a failed INSERT is not modelled; the next id moves only on success.
- Json.TruncToInt: truncates every real exactly; Go's `int(f)` is implementation-defined for |f| ≥ 2^63 (math.MinInt64 on amd64), so an id that large is forwarded here as an unbounded integer.
- Float64 values are modelled as reals, and balances and amounts as integers. Float64 rounding, the 2^53 limit on ids passing through the `sub` claim, and the int64 overflow of `int(f)` for |sub| ≥ 2^63 (implementation-defined in Go) are left out.
- rs/cors is modelled only as the preflight short-circuit. The Access-Control-* headers it adds, and its origin and method checks, are left out.
- gorilla/mux path cleaning, HEAD handling and trailing-slash redirects are left out. A request's header map holds canonical names, as the net/http server builds it.
- Handlers.PutUser: its own contract states only that the rate limiter's registry is untouched. Its outcomes are stated by PutMissingUserIs500, PutBadPathIdContinues and PutUpdates.
- Handlers.PatchUser: its own contract states only that the rate limiter's registry is untouched. Its outcomes are stated by PatchFailureIs500, PatchNothingReturnsCurrent, PatchUpdates and PatchBadPathIdContinues.
- Handlers.Login: its own contract states only that the world is unchanged. Its outcomes are stated by LoginRejectsUnknownOrWrong, LoginSuccess and LoginTokenFailsGates.
- Handlers.PostUser: its own contract covers the decode failure and the registry. The other outcomes are stated by MarkedErrorIs422, PostMissingFieldIs500, PostCreates and ValidatorPanicWritesNothing.
- Handlers.Register: its own contract covers the decode failure and the registry. The other outcomes are stated by RegisterHashFailure, RegisterAgeZeroIs500 and RegisterCreates.
- Repository.ListRange: rows are listed in ascending id order, but the SELECT of repository.go:29-32 has no ORDER BY, so the real order is unspecified; GetAllUsers and GetUsersDocument inherit the choice. ListRangeComplete states the order-free part: every stored row of the range is listed.
- Logging.Serve: the duration is passed in already formatted, because Go's `time.Duration` formatting is not modelled.
- Handlers.TokensDifferOnlyInExpiry: both tokens use one clock reading, while server.go:702 and :716 call `time.Now()` twice; the two expiries may differ by the time between the calls, which is not modelled.

=== FILE: auth.dfy ===
/** internal/auth/middleware.go: the bearer-token authenticator the router
    installs on its protected routes, and GetUserIDFromContext. */
module Auth {
  import opened Wrappers
  import opened Json
  import opened Logs
  import opened Http
  import Strings

  /** `contextKey("userID")` of this package. */
  const UserIdKey: CtxKey := AuthKey("userID")

  /** The plain string key both authenticators store the role under. */
  const RoleKey: CtxKey := PlainKey("role")

  /** The standard library's default logger. */
  const StdLog: Logger := Std("")

  const BearerPrefix: string := "Bearer "

  /** Why a request was turned away: the body of the 401 and the line
      printed to the standard logger, if any. */
  datatype Rejection = Rejection(msg: string, printed: Option<string>)

  /** The checks, in the order the code makes them. On success: the id
      (`int(sub)`, truncating) and the raw role claim (JSON null when the
      claim is absent). */
  function Check(env: Env, r: Request): (res: Result<(int, Json), Rejection>)
    ensures !Strings.HasPrefix(HeaderGet(r, "Authorization"), BearerPrefix) ==>
      res == Failure(Rejection("Unauthorized: missing or invalid token", None))
    ensures res.Success? <==>
      var v := env.verify(Strings.TrimPrefix(HeaderGet(r, "Authorization"), BearerPrefix));
      && Strings.HasPrefix(HeaderGet(r, "Authorization"), BearerPrefix)
      && v.Parsed? && IsHmac(v.alg) && v.signatureError.None?
      && "sub" in v.claims && v.claims["sub"].JNumber?
    ensures res.Success? ==>
      var v := env.verify(Strings.TrimPrefix(HeaderGet(r, "Authorization"), BearerPrefix));
      && res.value.0 == TruncToInt(v.claims["sub"].n)
      && res.value.1 == (if "role" in v.claims then v.claims["role"] else JNull)
    // each refusal after the prefix check, with its body and printed line
    ensures Strings.HasPrefix(HeaderGet(r, "Authorization"), BearerPrefix) ==>
      var v := env.verify(Strings.TrimPrefix(HeaderGet(r, "Authorization"), BearerPrefix));
      && (v.Unparsable? ==>
            res == Failure(Rejection("токен невалидный", Some("[AUTH] ошибка разбора токена: " + v.err))))
      && (v.Parsed? && !IsHmac(v.alg) ==>
            res == Failure(Rejection("токен невалидный",
                     Some("[AUTH] ошибка разбора токена: " + KeyfuncError("неожиданный метод подписи " + v.alg)))))
      && (v.Parsed? && IsHmac(v.alg) && v.signatureError.Some? ==>
            res == Failure(Rejection("токен невалидный", Some("[AUTH] ошибка разбора токена: " + v.signatureError.value))))
      && (v.Parsed? && IsHmac(v.alg) && v.signatureError.None? && "sub" !in v.claims ==>
            res == Failure(Rejection("поле sub отсутствует", Some("[AUTH] ошибка в claims токена: <nil>"))))
      && (v.Parsed? && IsHmac(v.alg) && v.signatureError.None? && "sub" in v.claims && !v.claims["sub"].JNumber? ==>
            res == Failure(Rejection("поле sub имеет неверный тип", None)))
  {
    var header := HeaderGet(r, "Authorization");
    if header == "" || !Strings.HasPrefix(header, BearerPrefix) then
      Failure(Rejection("Unauthorized: missing or invalid token", None))
    else
      match env.verify(Strings.TrimPrefix(header, BearerPrefix))
      case Unparsable(e) =>
        Failure(Rejection("токен невалидный", Some("[AUTH] ошибка разбора токена: " + e)))
      case Parsed(alg, sigErr, claims) =>
        if !IsHmac(alg) then
          Failure(Rejection("токен невалидный", Some("[AUTH] ошибка разбора токена: " + Http.KeyfuncError("неожиданный метод подписи " + alg))))
        else if sigErr.Some? then
          Failure(Rejection("токен невалидный", Some("[AUTH] ошибка разбора токена: " + sigErr.value)))
        else if "sub" !in claims then
          Failure(Rejection("поле sub отсутствует", Some("[AUTH] ошибка в claims токена: <nil>")))
        else if !claims["sub"].JNumber? then
          Failure(Rejection("поле sub имеет неверный тип", None))
        else
          Success((TruncToInt(claims["sub"].n), if "role" in claims then claims["role"] else JNull))
  }

  /** The request passed on: the id under this package's key, the raw role
      claim under the plain key "role". */
  function Forwarded(r: Request, id: int, role: Json): (r': Request)
    ensures r'.(ctx := r.ctx) == r
    ensures UserIdKey in r'.ctx && r'.ctx[UserIdKey] == IntVal(id)
    ensures RoleKey in r'.ctx && r'.ctx[RoleKey] == ClaimVal(role)
    ensures forall k :: k in r.ctx && k != UserIdKey && k != RoleKey ==> k in r'.ctx && r'.ctx[k] == r.ctx[k]
  {
    WithContext(r, r.ctx[UserIdKey := IntVal(id)][RoleKey := ClaimVal(role)])
  }

  function Refusal(rej: Rejection, w: World): (rep: Reply)
    ensures WireStatus(rep.events) == StatusUnauthorized && rep.world == w && !rep.panicked
  {
    var logs := if rej.printed.Some? then [LogEntry(StdLog, Print, rej.printed.value, [])] else [];
    Reject(rej.msg, StatusUnauthorized, w).(logs := logs)
  }

  /** AuthMiddleware(next): a refusal is a 401 that never calls next; an
      accepted token calls next exactly once with the forwarded request. */
  function Serve(next: Handler, env: Env, r: Request, w: World): (rep: Reply)
    ensures Check(env, r).Failure? ==> rep == Refusal(Check(env, r).error, w)
    ensures Check(env, r).Failure? ==> WireStatus(rep.events) == StatusUnauthorized && rep.world == w
    ensures Check(env, r).Success? ==>
      rep == next(env, Forwarded(r, Check(env, r).value.0, Check(env, r).value.1), w)
  {
    match Check(env, r)
    case Failure(rej) => Refusal(rej, w)
    case Success((id, role)) => next(env, Forwarded(r, id, role), w)
  }

  function Stage(next: Handler): Handler {
    (env, r, w) => Serve(next, env, r, w)
  }

  /** GetUserIDFromContext: (v, true) exactly when an int v is stored under
      this package's key, (0, false) otherwise. */
  function GetUserIdFromContext(r: Request): (res: (int, bool))
    ensures res.1 <==> UserIdKey in r.ctx && r.ctx[UserIdKey].IntVal?
    ensures res.1 ==> res.0 == r.ctx[UserIdKey].i
    ensures !res.1 ==> res.0 == 0
  {
    if UserIdKey in r.ctx && r.ctx[UserIdKey].IntVal? then (r.ctx[UserIdKey].i, true) else (0, false)
  }

  /** What an authenticated handler reads back is the id the token carried. */
  lemma ForwardedIdReadBack(r: Request, id: int, role: Json)
    ensures GetUserIdFromContext(Forwarded(r, id, role)) == (id, true)
  {
  }

  /** The scheme match is case-sensitive: "bearer " is refused although
      auth-schemes are case-insensitive by section 2.1 of RFC 7235. */
  lemma LowerCaseSchemeRefused(env: Env, r: Request, token: string)
    requires HeaderGet(r, "Authorization") == "bearer " + token
    ensures Check(env, r) == Failure(Rejection("Unauthorized: missing or invalid token", None))
  {
    assert HeaderGet(r, "Authorization")[0] == 'b';
  }

  /** The token verified is the header minus one leading "Bearer ". */
  lemma VerifiedTokenIsHeaderRest(env: Env, r: Request, token: string)
    requires HeaderGet(r, "Authorization") == BearerPrefix + token
    ensures Strings.TrimPrefix(HeaderGet(r, "Authorization"), BearerPrefix) == token
  {
    assert (BearerPrefix + token)[..|BearerPrefix|] == BearerPrefix;
  }

  /** Whatever its claims, a token signed with a non-HMAC algorithm is
      refused. */
  lemma NonHmacRefused(env: Env, r: Request)
    requires Strings.HasPrefix(HeaderGet(r, "Authorization"), BearerPrefix)
    requires var v := env.verify(Strings.TrimPrefix(HeaderGet(r, "Authorization"), BearerPrefix));
      v.Parsed? && !IsHmac(v.alg)
    ensures Check(env, r).Failure? && Check(env, r).error.msg == "токен невалидный"
  {
  }
}

=== FILE: config.dfy ===
/** The three settings of config/config.go. Durations are in nanoseconds,
    like Go's time.Duration. */
module Config {

  const Second: nat := 1_000_000_000
  const Minute: nat := 60 * Second
  const Hour: nat := 60 * Minute

  /** Shared HMAC secret used to sign and verify both tokens. */
  const JwtSecret: string := "super-secret-key"

  /** Lifetime of the access token (15 minutes). */
  const AccessTokenTtl: nat := 15 * Minute

  /** Lifetime of the refresh token (1200 hours, about seven weeks). */
  const RefreshTokenTtl: nat := 1200 * Hour
}

=== FILE: cors.dfy ===
/** internal/middleware/cors.go hands a static configuration to rs/cors.
    Only the library's routing decision is modelled: a preflight request is
    answered on the spot, every other request goes on. */
module Cors {
  import opened Http

  /** The configured allow-lists. */
  const AllowedOrigins: seq<string> := ["http://localhost:3000", "https://example.com", "https://anotherdomain.com"]
  const AllowedMethods: seq<string> := ["GET", "POST", "PUT", "PATCH", "DELETE", "OPTIONS"]
  const AllowedHeaders: seq<string> := ["Content-Type", "Authorization"]
  const AllowCredentials: bool := true

  /** A CORS preflight: OPTIONS carrying Access-Control-Request-Method. */
  predicate IsPreflight(r: Request) {
    r.verb == MethodOptions && HeaderGet(r, "Access-Control-Request-Method") != ""
  }

  function Serve(next: Handler, env: Env, r: Request, w: World): (rep: Reply)
    ensures IsPreflight(r) ==> rep == Respond([WriteHeader(StatusNoContent)], w)
    ensures !IsPreflight(r) ==> rep == next(env, r, w)
  {
    if IsPreflight(r) then Respond([WriteHeader(StatusNoContent)], w) else next(env, r, w)
  }

  function Stage(next: Handler): Handler {
    (env, r, w) => Serve(next, env, r, w)
  }
}

=== FILE: default_headers.dfy ===
/** internal/middleware/default_headers.go: six response headers set before
    anything else runs. */
module DefaultHeaders {
  import opened Http

  /** The six names and their values, in the order they are set. */
  const Names: seq<string> :=
    ["Content-Type", "X-Frame-Options", "X-Content-Type-Options", "Referrer-Policy", "X-XSS-Protection", "Cache-Control"]
  const Values: seq<string> :=
    ["application/json", "DENY", "nosniff", "no-referrer", "1; mode=block", "no-store"]

  function Events(): (es: seq<Event>)
    ensures |es| == 6 && NoCommit(es)
    ensures forall i :: 0 <= i < 6 ==> es[i] == SetHeader(Names[i], Values[i])
  {
    [ SetHeader("Content-Type", "application/json"),
      SetHeader("X-Frame-Options", "DENY"),
      SetHeader("X-Content-Type-Options", "nosniff"),
      SetHeader("Referrer-Policy", "no-referrer"),
      SetHeader("X-XSS-Protection", "1; mode=block"),
      SetHeader("Cache-Control", "no-store") ]
  }

  /** The keys `Header.Set` stores them under: the canonical forms of the
      names, so "X-XSS-Protection" goes out as "X-Xss-Protection". */
  const Keys: seq<string> :=
    ["Content-Type", "X-Frame-Options", "X-Content-Type-Options", "Referrer-Policy", "X-Xss-Protection", "Cache-Control"]

  // One lemma per name keeps each literal computation on its own; the
  // longer names are checked a few bytes at a time.
  lemma Key0() ensures Canonical(Names[0]) == Keys[0] {
    assert RuleFrom("Content-Type", "Content-Type", 8);
    CanonicalByRule("Content-Type", "Content-Type");
  }
  lemma Key1() ensures Canonical(Names[1]) == Keys[1] {
    assert RuleFrom("X-Frame-Options", "X-Frame-Options", 8);
    CanonicalByRule("X-Frame-Options", "X-Frame-Options");
  }
  lemma Key2() ensures Canonical(Names[2]) == Keys[2] {
    assert RuleFrom("X-Content-Type-Options", "X-Content-Type-Options", 15);
    assert RuleFrom("X-Content-Type-Options", "X-Content-Type-Options", 7);
    CanonicalByRule("X-Content-Type-Options", "X-Content-Type-Options");
  }
  lemma Key3() ensures Canonical(Names[3]) == Keys[3] {
    assert RuleFrom("Referrer-Policy", "Referrer-Policy", 8);
    CanonicalByRule("Referrer-Policy", "Referrer-Policy");
  }
  lemma Key5() ensures Canonical(Names[5]) == Keys[5] {
    assert RuleFrom("Cache-Control", "Cache-Control", 6);
    CanonicalByRule("Cache-Control", "Cache-Control");
  }

  /** The one name the code spells in a form net/http does not keep. */
  lemma XssKey()
    ensures Canonical("X-XSS-Protection") == "X-Xss-Protection" && Canonical(Names[4]) == Keys[4]
  {
    assert RuleFrom("X-XSS-Protection", "X-Xss-Protection", 8);
    CanonicalByRule("X-XSS-Protection", "X-Xss-Protection");
  }

  /** Setting the six headers stores them under the six keys. */
  lemma KeysCanonical()
    ensures forall i :: 0 <= i < 6 ==> Canonical(Names[i]) == Keys[i]
  {
    Key0(); Key1(); Key2(); Key3(); XssKey(); Key5();
  }

  /** Applying the update twice is applying it once. */
  lemma SetDefaultsIdempotent(h: map<string, string>)
    ensures SetDefaults(SetDefaults(h)) == SetDefaults(h)
  {
  }

  /** The header update on its own. */
  function SetDefaults(h: map<string, string>): (h': map<string, string>)
    ensures forall i :: 0 <= i < 6 ==> Keys[i] in h' && h'[Keys[i]] == Values[i]
    ensures forall n :: n !in Keys ==> (n in h' <==> n in h) && (n in h ==> h'[n] == h[n])
    ensures h'.Keys == h.Keys + set i | 0 <= i < 6 :: Keys[i]
  {
    h["Content-Type" := "application/json"]
     ["X-Frame-Options" := "DENY"]
     ["X-Content-Type-Options" := "nosniff"]
     ["Referrer-Policy" := "no-referrer"]
     ["X-Xss-Protection" := "1; mode=block"]
     ["Cache-Control" := "no-store"]
  }

  /** Replaying the stage's events on a header state is the update. */
  lemma EventsSetDefaults(h: HeaderState)
    ensures WireHeader(h, Events()) == h.(fields := SetDefaults(h.fields))
  {
    KeysCanonical();
    var es := Events();
    var h1 := ApplyHeader(h, es[0]);
    var h2 := ApplyHeader(h1, es[1]);
    var h3 := ApplyHeader(h2, es[2]);
    var h4 := ApplyHeader(h3, es[3]);
    var h5 := ApplyHeader(h4, es[4]);
    var h6 := ApplyHeader(h5, es[5]);
    assert WireHeader(h5, es[5..]) == WireHeader(h6, []) == h6;
    assert WireHeader(h4, es[4..]) == WireHeader(h5, es[5..]);
    assert WireHeader(h3, es[3..]) == WireHeader(h4, es[4..]);
    assert WireHeader(h2, es[2..]) == WireHeader(h3, es[3..]);
    assert WireHeader(h1, es[1..]) == WireHeader(h2, es[2..]);
    assert WireHeader(h, es) == WireHeader(h1, es[1..]);
    assert h6.fields == SetDefaults(h.fields);
  }

  /** DefaultHeaders()(next): never short-circuits; next runs once with the
      unchanged request, after the six headers are set. */
  function Serve(next: Handler, env: Env, r: Request, w: World): (rep: Reply)
    ensures var inner := next(env, r, w);
      rep.events == Events() + inner.events && rep.logs == inner.logs
      && rep.world == inner.world && rep.panicked == inner.panicked
  {
    Prepend(Events(), next(env, r, w))
  }

  function Stage(next: Handler): Handler {
    (env, r, w) => Serve(next, env, r, w)
  }
}

=== FILE: handlers.dfy ===
/** The request handlers of internal/server/server.go, the id parsing they
    share, and the claims of the two tokens the login mints.

    A handler reads the table from the world it is given and returns the
    table after its one store operation. JSON encoding into the response
    cannot fail here (writer errors are not modelled), so the "encoding
    error" branches are absent. */
module Handlers {
  import opened Wrappers
  import opened Json
  import opened Logs
  import opened Model
  import opened Http
  import Repository
  import Strconv
  import Strings
  import Config
  import WithLogger
  import Auth
  import Roles

  const JsonContentType: Event := SetHeader("Content-Type", "application/json")

  /** The text whose presence in a store error would make POST /users and
      /register answer 422. */
  const UnprocessableMarker: string := "обязательны для заполнения"

  const InvalidJson: string := "[SERVER] неверный формат JSON"
  const ValidationFailed: string := "[SERVER] JSON не прошел валидацию по полям: "
  const InsertFailed: string := "[SERVER] ошибка при добавлении нового пользователя в БД"

  /** The status, JSON content type and document of a successful answer. */
  function Answer(code: int, doc: Doc): (es: seq<Event>)
    ensures WireStatus(es) == code
  {
    [JsonContentType, WriteHeader(code), Write(Encoded(doc))]
  }

  function UserFields(event: string, u: User): seq<Field> {
    [Field("event", Str(event)), Field("user.id", Num(u.id)), Field("user.email", Str(u.email))]
  }

  /** `http.Error` after `pre` was written: the status line is the one `pre`
      committed, if any, else `code`. */
  function Complain(pre: seq<Event>, msg: string, code: int, w: World): (r: Reply)
    ensures r.events == pre + ErrorEvents(msg, code) && r.logs == [] && !r.panicked && r.world == w
    ensures WireStatus(r.events) == if NoCommit(pre) then code else WireStatus(pre)
  {
    if NoCommit(pre) then
      ErrorSetsWireStatus(pre, msg, code, []);
      assert pre + ErrorEvents(msg, code) + [] == pre + ErrorEvents(msg, code);
      Respond(pre + ErrorEvents(msg, code), w)
    else
      WireStatusFixedOnceCommitted(pre, ErrorEvents(msg, code));
      Respond(pre + ErrorEvents(msg, code), w)
  }

  // -------------------------------------------------------------------
  // parseIDFromRequest

  /** parseIDFromRequest: the `{id}` path variable read as a decimal int. */
  function ParseId(r: Request): (res: Result<int, string>)
    ensures "id" !in r.vars ==> res == Failure("ID пользователя не указан в ссылке")
    ensures "id" in r.vars ==> (res.Success? <==> Strconv.Atoi(r.vars["id"]).Success?)
    ensures res.Success? ==> res.value == Strconv.Atoi(r.vars["id"]).value
    ensures "id" in r.vars && res.Failure? ==> res.error == "ID не является числом"
  {
    if "id" !in r.vars then Failure("ID пользователя не указан в ссылке")
    else match Strconv.Atoi(r.vars["id"])
      case Success(n) => Success(n)
      case Failure(_) => Failure("ID не является числом")
  }

  /** Every int64 written in decimal in the path is read back. */
  lemma ParseIdReadsDecimal(r: Request, n: int)
    requires Strconv.MinInt64 <= n <= Strconv.MaxInt64
    requires "id" in r.vars && r.vars["id"] == Strconv.Itoa(n)
    ensures ParseId(r) == Success(n)
  {
    Strconv.AtoiItoa(n);
  }

  // -------------------------------------------------------------------
  // Tokens

  /** `time.Now().Add(d).Unix()`: whole seconds, rounded down. */
  function UnixSeconds(ns: int): (s: int)
    ensures s * Config.Second <= ns < (s + 1) * Config.Second
  {
    ns / Config.Second
  }

  /** The claims of a token for `u` that expires `ttl` after `now`. */
  function Claims(u: User, now: int, ttl: nat): map<string, Json> {
    map["sub" := JNumber(u.id as real),
        "email" := JString(u.email),
        "role" := JString(u.role),
        "exp" := JNumber(UnixSeconds(now + ttl) as real)]
  }

  /** getAccessToken's claims. */
  function AccessClaims(u: User, now: int): map<string, Json> {
    Claims(u, now, Config.AccessTokenTtl)
  }

  /** getRefreshToken's claims. */
  function RefreshClaims(u: User, now: int): map<string, Json> {
    Claims(u, now, Config.RefreshTokenTtl)
  }

  /** The two tokens carry the same subject, e-mail and role and differ only
      in their expiry, the refresh token's being later. */
  lemma TokensDifferOnlyInExpiry(u: User, now: int)
    ensures AccessClaims(u, now).Keys == RefreshClaims(u, now).Keys == {"sub", "email", "role", "exp"}
    ensures forall k :: k in AccessClaims(u, now) && k != "exp" ==> AccessClaims(u, now)[k] == RefreshClaims(u, now)[k]
    ensures AccessClaims(u, now)["exp"].n < RefreshClaims(u, now)["exp"].n
    ensures AccessClaims(u, now)["exp"] == JNumber(UnixSeconds(now + 15 * Config.Minute) as real)
  {
    var a := UnixSeconds(now + Config.AccessTokenTtl);
    var b := UnixSeconds(now + Config.RefreshTokenTtl);
    assert a * Config.Second <= now + Config.AccessTokenTtl;
    assert now + Config.RefreshTokenTtl < (b + 1) * Config.Second;
    assert a < b;
  }

  /** The refresh cookie: HttpOnly, SameSite=Strict, path "/", not Secure,
      living as long as the refresh token, in seconds. */
  function RefreshCookie(token: string): (c: Cookie)
    ensures c.name == "refresh-token" && c.value == token && c.path == "/"
    ensures c.httpOnly && !c.secure && c.sameSite == SameSiteStrict
    ensures c.maxAge == 4_320_000 && c.maxAge * Config.Second == Config.RefreshTokenTtl
  {
    Cookie("refresh-token", token, "/", false, true, SameSiteStrict, Config.RefreshTokenTtl / Config.Second)
  }

  // -------------------------------------------------------------------
  // GET /ready

  function Ready(env: Env, r: Request, w: World): (rep: Reply)
    ensures WireStatus(rep.events) == StatusOK && rep.world == w
  {
    Respond([WriteHeader(StatusOK), Write(Encoded(StringMapDoc(map["status" := "ok"])))], w)
  }

  // -------------------------------------------------------------------
  // POST /users

  /** The answer to a failed insert: 422 only when the error text carries
      the marker. */
  function InsertFailure(e: Repository.StoreError): (es: seq<Event>)
    ensures WireStatus(es) == if Strings.Contains(e.text, UnprocessableMarker) then StatusUnprocessableEntity
                              else StatusInternalServerError
    // the store's own complaint about a missing field is not the one meant
    ensures e == Repository.NotAllFieldsFilled ==> es == ErrorEvents(InsertFailed, StatusInternalServerError)
  {
    Strings.ShorterNotContained(Repository.NotAllFieldsFilled.text, UnprocessableMarker);
    if Strings.Contains(e.text, UnprocessableMarker) then ErrorEvents(e.text, StatusUnprocessableEntity)
    else ErrorEvents(InsertFailed, StatusInternalServerError)
  }

  /** An error text carrying the marker anywhere is passed to the client
      verbatim with 422. */
  lemma MarkedErrorIs422(before: string, after: string, noRows: bool)
    ensures var e := Repository.StoreError(before + UnprocessableMarker + after, noRows);
      && InsertFailure(e) == ErrorEvents(e.text, StatusUnprocessableEntity)
      && WireStatus(InsertFailure(e)) == StatusUnprocessableEntity
  {
    Strings.ContainsPiece(before, UnprocessableMarker, after);
  }

  function PostUser(env: Env, r: Request, w: World): (rep: Reply)
    ensures rep.world.registry == w.registry
    ensures env.decodeUser(r.body).Failure? ==> rep == Reject(InvalidJson, StatusBadRequest, w)
  {
    var log := WithLogger.LoggerFromContext(r.ctx);
    match env.decodeUser(r.body)
    case Failure(_) => Reject(InvalidJson, StatusBadRequest, w)
    case Success(u) =>
      match env.validateUser(u)
      case Fail(m) => Reject(ValidationFailed + m, StatusBadRequest, w)
      case Panic => Reply([], [], true, w)
      case Pass => Insert([], u, log, env.repoLog, w)
  }

  /** A body missing a field the store requires is answered with 500, never
      422: the store's own error text does not carry the marker. */
  lemma PostMissingFieldIs500(env: Env, r: Request, w: World)
    requires env.decodeUser(r.body).Success? && env.validateUser(env.decodeUser(r.body).value) == Pass
    requires Repository.MissingRequired(env.decodeUser(r.body).value)
    ensures WireStatus(PostUser(env, r, w).events) == StatusInternalServerError
    ensures PostUser(env, r, w).world == w
  {
    var u := env.decodeUser(r.body).value;
    var rep := PostUser(env, r, w);
    assert rep == Insert([], u, WithLogger.LoggerFromContext(r.ctx), env.repoLog, w);
    assert [] + ErrorEvents(InsertFailed, StatusInternalServerError) == ErrorEvents(InsertFailed, StatusInternalServerError);
  }

  /** A successful POST creates exactly the posted user under the next id
      and answers 201 with it, the hash blanked. */
  lemma PostCreates(env: Env, r: Request, w: World)
    requires env.decodeUser(r.body).Success? && env.validateUser(env.decodeUser(r.body).value) == Pass
    requires Repository.PostUser(env.repoLog, w.store, env.decodeUser(r.body).value).result.Success?
    ensures var u := env.decodeUser(r.body).value;
      var rep := PostUser(env, r, w);
      && WireStatus(rep.events) == StatusCreated
      && rep.events[2] == Write(Encoded(UserDoc(User(w.store.nextId, u.name, u.age, u.email, "", "", 0))))
      && rep.world.store.rows == w.store.rows[w.store.nextId := Repository.Row(u.name, u.age, u.email, "", u.hashedPassword, 0)]
  {
  }

  // -------------------------------------------------------------------
  // POST /register

  function Register(env: Env, r: Request, w: World): (rep: Reply)
    ensures rep.world.registry == w.registry
    ensures env.decodeRegister(r.body).Failure? ==> rep == Reject(InvalidJson, StatusBadRequest, w)
  {
    match env.decodeRegister(r.body)
    case Failure(_) => Reject(InvalidJson, StatusBadRequest, w)
    case Success(q) =>
      match env.validateRegister(q)
      case Fail(m) => Reject(ValidationFailed + m, StatusBadRequest, w)
      case Panic => Reply([], [], true, w)
      case Pass =>
        var (hash, pre) := Hash(env, q.password);
        Insert(pre, User(0, q.name, q.age, q.email, "", hash, 0), WithLogger.LoggerFromContext(r.ctx), env.repoLog, w)
  }

  /** The bcrypt hash of the password; a hashing error is answered with 500
      but does not stop the handler, which goes on with an empty hash. */
  function Hash(env: Env, password: string): (res: (string, seq<Event>))
    ensures env.hashPassword(password).Success? ==> res == (env.hashPassword(password).value, [])
    ensures env.hashPassword(password).Failure? ==>
      res == ("", ErrorEvents("[SERVER] ошибка при хешировании пароля:" + env.hashPassword(password).error, StatusInternalServerError))
  {
    match env.hashPassword(password)
    case Success(h) => (h, [])
    case Failure(e) => ("", ErrorEvents("[SERVER] ошибка при хешировании пароля:" + e, StatusInternalServerError))
  }

  /** The insert both POST handlers end with, after `pre` was written: the
      repository's records come first, the handler's success record last. */
  function Insert(pre: seq<Event>, u: User, log: Logger, repoLog: Logger, w: World): (rep: Reply)
    ensures rep.world.registry == w.registry
    ensures Repository.MissingRequired(u) ==>
      rep == Reply(pre + ErrorEvents(InsertFailed, StatusInternalServerError),
                   [LogEntry(repoLog, Info, "not all fields filled",
                      [Field("component", Str("repository")), Field("event", Str("PostUser"))])], false, w)
    ensures var o := Repository.PostUser(repoLog, w.store, u);
      && (o.result.Failure? ==> rep.logs == o.logs)
      && (o.result.Success? ==>
            rep.logs == [LogEntry(log, Info, "user added successfully", UserFields("UserCreated", o.result.value))])
  {
    var o := Repository.PostUser(repoLog, w.store, u);
    var w' := w.(store := o.store);
    match o.result
    case Failure(e) => Reply(pre + InsertFailure(e), o.logs, false, w')
    case Success(created) =>
      Reply(pre + Answer(StatusCreated, UserDoc(created)),
            o.logs + [LogEntry(log, Info, "user added successfully", UserFields("UserCreated", created))], false, w')
  }

  /** When hashing fails the handler writes a 500 and goes on; the store
      then refuses the empty hash and a second 500 follows. No user is
      created. */
  lemma RegisterHashFailure(env: Env, r: Request, w: World)
    requires env.decodeRegister(r.body).Success?
    requires env.validateRegister(env.decodeRegister(r.body).value) == Pass
    requires env.hashPassword(env.decodeRegister(r.body).value.password).Failure?
    ensures var rep := Register(env, r, w);
      && rep.world == w
      && WireStatus(rep.events) == StatusInternalServerError
      && |rep.events| == 10 && rep.events[3] == WriteHeader(500) && rep.events[8] == WriteHeader(500)
  {
    var q := env.decodeRegister(r.body).value;
    var msg := "[SERVER] ошибка при хешировании пароля:" + env.hashPassword(q.password).error;
    var pre := ErrorEvents(msg, StatusInternalServerError);
    var u := User(0, q.name, q.age, q.email, "", "", 0);
    assert Hash(env, q.password) == ("", pre);
    assert Repository.MissingRequired(u);
    var rep := Insert(pre, u, WithLogger.LoggerFromContext(r.ctx), env.repoLog, w);
    assert Register(env, r, w) == rep;
    assert rep.events == pre + ErrorEvents(InsertFailed, StatusInternalServerError) && rep.world == w;
    assert pre[3] == WriteHeader(StatusInternalServerError);
    WireStatusFixedOnceCommitted(pre, ErrorEvents(InsertFailed, StatusInternalServerError));
  }

  /** The registration tags admit age 0, the store does not: a valid
      registration at age 0 fails with 500. */
  lemma RegisterAgeZeroIs500(env: Env, r: Request, w: World)
    requires env.decodeRegister(r.body).Success?
    requires env.decodeRegister(r.body).value.age == 0 && RegisterTagsHold(env.decodeRegister(r.body).value)
    requires env.validateRegister(env.decodeRegister(r.body).value) == Pass
    requires env.hashPassword(env.decodeRegister(r.body).value.password).Success?
    ensures WireStatus(Register(env, r, w).events) == StatusInternalServerError && Register(env, r, w).world == w
  {
    var q := env.decodeRegister(r.body).value;
    var u := User(0, q.name, q.age, q.email, "", env.hashPassword(q.password).value, 0);
    assert Repository.MissingRequired(u);
    var rep := Register(env, r, w);
    assert rep == Insert([], u, WithLogger.LoggerFromContext(r.ctx), env.repoLog, w);
    assert [] + ErrorEvents(InsertFailed, StatusInternalServerError) == ErrorEvents(InsertFailed, StatusInternalServerError);
  }

  /** A registration that succeeds stores the bcrypt hash, with the default
      role and balance, and answers 201 without the hash. */
  lemma RegisterCreates(env: Env, r: Request, w: World)
    requires env.decodeRegister(r.body).Success?
    requires env.validateRegister(env.decodeRegister(r.body).value) == Pass
    requires env.hashPassword(env.decodeRegister(r.body).value.password).Success?
    requires var q := env.decodeRegister(r.body).value;
      Repository.PostUser(env.repoLog, w.store, User(0, q.name, q.age, q.email, "", env.hashPassword(q.password).value, 0)).result.Success?
    ensures var q := env.decodeRegister(r.body).value;
      var rep := Register(env, r, w);
      && WireStatus(rep.events) == StatusCreated
      && rep.world.store.rows == w.store.rows[w.store.nextId :=
           Repository.Row(q.name, q.age, q.email, "", env.hashPassword(q.password).value, 0)]
      && rep.events[2] == Write(Encoded(UserDoc(User(w.store.nextId, q.name, q.age, q.email, "", "", 0))))
  {
  }

  // -------------------------------------------------------------------
  // GET /users

  function GetUsers(env: Env, r: Request, w: World): (rep: Reply)
    ensures rep.world == w && WireStatus(rep.events) == StatusOK
  {
    var users := Repository.GetAllUsers(w.store);
    var doc := if |users| == 0 then NullDoc else UserListDoc(users);
    Reply(Answer(StatusOK, doc), [LogEntry(WithLogger.LoggerFromContext(r.ctx), Info, "users got successfully",
                                             [Field("event", Str("GetUsers"))])], false, w)
  }

  /** An empty table is listed as JSON null, not as an empty array; a
      non-empty one lists every user without password, role or balance. */
  lemma GetUsersDocument(env: Env, r: Request, w: World)
    requires Repository.Valid(w.store)
    ensures w.store.rows == map[] ==> GetUsers(env, r, w).events[2] == Write(Encoded(NullDoc))
    ensures w.store.rows != map[] ==>
      var d := GetUsers(env, r, w).events[2].body.doc;
      && d.UserListDoc?
      && (forall k :: k in w.store.rows ==> exists i :: 0 <= i < |d.users| && d.users[i].id == k)
      && (forall i :: 0 <= i < |d.users| ==> d.users[i].hashedPassword == "" && d.users[i].role == "")
  {
    var users := Repository.GetAllUsers(w.store);
    var doc := if |users| == 0 then NullDoc else UserListDoc(users);
    assert GetUsers(env, r, w).events[2] == Write(Encoded(doc));
    if w.store.rows != map[] {
      var k :| k in w.store.rows;
      assert exists i :: 0 <= i < |users| && users[i].id == k;
      assert doc == UserListDoc(users);
    }
  }

  // -------------------------------------------------------------------
  // PUT /users/{id}

  /** The path id and what was written about it: a bad path id is answered
      with 400 but the handler goes on with id 0. */
  function PathId(r: Request): (res: (int, seq<Event>))
    ensures ParseId(r).Success? ==> res == (ParseId(r).value, [])
    ensures ParseId(r).Failure? ==> res == (0, ErrorEvents("[SERVER]" + ParseId(r).error, StatusBadRequest))
    ensures NoCommit(res.1) <==> ParseId(r).Success?
    ensures ParseId(r).Failure? ==> WireStatus(res.1) == StatusBadRequest
  {
    match ParseId(r)
    case Success(id) => (id, [])
    case Failure(m) =>
      var es := ErrorEvents("[SERVER]" + m, StatusBadRequest);
      assert Commits(es[3]);
      ErrorSetsWireStatus([], "[SERVER]" + m, StatusBadRequest, []);
      assert [] + es + [] == es;
      (0, es)
  }

  function PutUser(env: Env, r: Request, w: World): (rep: Reply)
    ensures rep.world.registry == w.registry
  {
    var log := WithLogger.LoggerFromContext(r.ctx);
    var (id, pre) := PathId(r);
    match env.decodeUser(r.body)
    case Failure(_) => Complain(pre, InvalidJson, StatusBadRequest, w)
    case Success(u) =>
      if u.id != id then Complain(pre, "[SERVER] ID из URL и тела запроса не совпадают", StatusBadRequest, w)
      else if u.name == "" || u.email == "" || u.age == 0 then
        Complain(pre, "некорректные данные: пустые поля", StatusBadRequest, w)
      else match env.validateUser(u)
        case Fail(m) => Complain(pre, ValidationFailed + m, StatusBadRequest, w)
        case Panic => Reply(pre, [], true, w)
        case Pass => PutAnswer(pre, u.id, Repository.PutUser(env.repoLog, w.store, u), log, w)
  }

  /** The answer to the store's PutUser outcome for `id`, after `pre`; the
      repository's records precede the handler's. */
  function PutAnswer(pre: seq<Event>, id: int, o: Repository.Outcome<User>, log: Logger, w: World): (rep: Reply)
    ensures rep.world == w.(store := o.store)
    ensures o.result.Failure? ==> rep.logs == o.logs
    ensures o.result.Success? ==>
      rep.logs == o.logs + [LogEntry(log, Info, "user added successfully", UserFields("UserPut", o.result.value))]
  {
    var w' := w.(store := o.store);
    match o.result
    case Failure(e) =>
      if e.noRows then Complain(pre, "пользователь с ID " + Strconv.Itoa(id) + " не найден", StatusNotFound, w').(logs := o.logs)
      else Complain(pre, "внутренняя ошибка сервера", StatusInternalServerError, w').(logs := o.logs)
    case Success(updated) =>
      Reply(pre + Answer(StatusOK, UserDoc(updated)),
            o.logs + [LogEntry(log, Info, "user added successfully", UserFields("UserPut", updated))], false, w')
  }

  /** PUT on an id with no row is answered with 500, not the documented 404:
      the store's not-found error does not wrap sql.ErrNoRows. The
      repository logs the miss twice. */
  lemma PutMissingUserIs500(env: Env, r: Request, w: World)
    requires ParseId(r).Success? && env.decodeUser(r.body).Success?
    requires var u := env.decodeUser(r.body).value;
      u.id == ParseId(r).value && u.name != "" && u.email != "" && u.age != 0 && env.validateUser(u) == Pass
    requires env.decodeUser(r.body).value.id !in w.store.rows
    ensures WireStatus(PutUser(env, r, w).events) == StatusInternalServerError
    ensures PutUser(env, r, w).world == w
    // the lookup's Info record, then PutUser's Error record
    ensures var id := env.decodeUser(r.body).value.id;
      PutUser(env, r, w).logs
        == [ LogEntry(env.repoLog, Info, "user not found",
               [Field("id", Num(id)), Field("component", Str("repository")), Field("event", Str("GetUserByID"))]),
             LogEntry(env.repoLog, Error, "user not found by ID",
               [Field("error", Str(Repository.NotFoundById(id).text)), Field("component", Str("repository")), Field("event", Str("PutUser"))]) ]
  {
  }

  /** A path id that is not a number is answered with 400, yet the handler
      carries on with id 0; with a body id of 0 it reaches the store, which
      has no row 0, and writes a second, superfluous error. The client sees
      400 while a status-capturing wrapper records 500. */
  lemma PutBadPathIdContinues(env: Env, r: Request, w: World)
    requires Repository.Valid(w.store)
    requires ParseId(r).Failure? && env.decodeUser(r.body).Success?
    requires var u := env.decodeUser(r.body).value;
      u.id == 0 && u.name != "" && u.email != "" && u.age != 0 && env.validateUser(u) == Pass
    ensures var es := PutUser(env, r, w).events;
      && WireStatus(es) == StatusBadRequest
      && es[3] == WriteHeader(StatusBadRequest) && es[|es| - 2] == WriteHeader(StatusInternalServerError)
      && PutUser(env, r, w).world == w
  {
    assert 0 !in w.store.rows;
  }

  /** A PUT the store accepts answers 200 with the record as sent (no hash,
      role or balance) and replaces name, age and e-mail of that row only. */
  lemma PutUpdates(env: Env, r: Request, w: World)
    requires ParseId(r).Success? && env.decodeUser(r.body).Success?
    requires var u := env.decodeUser(r.body).value;
      u.id == ParseId(r).value && u.name != "" && u.email != "" && u.age != 0 && env.validateUser(u) == Pass
    requires Repository.PutUser(env.repoLog, w.store, env.decodeUser(r.body).value).result.Success?
    ensures var u := env.decodeUser(r.body).value;
      var rep := PutUser(env, r, w);
      && rep.events == Answer(StatusOK, UserDoc(User(u.id, u.name, u.age, u.email, "", "", 0)))
      && rep.world.store.rows.Keys == w.store.rows.Keys
      && rep.world.store.rows[u.id] == w.store.rows[u.id].(name := u.name, age := u.age, email := u.email)
      && (forall k :: k in w.store.rows && k != u.id ==> rep.world.store.rows[k] == w.store.rows[k])
  {
  }

  // -------------------------------------------------------------------
  // PATCH /users/{id}

  const NoFieldsText: string := "нет полей для обновления"

  function PatchUser(env: Env, r: Request, w: World): (rep: Reply)
    ensures rep.world.registry == w.registry
  {
    var log := WithLogger.LoggerFromContext(r.ctx);
    var (id, pre) := PathId(r);
    match env.decodePartial(r.body)
    case Failure(_) => Complain(pre, "Некорректный JSON", StatusBadRequest, w)
    case Success(p) =>
      if p.id != id then Complain(pre, "[SERVER] ID в URL не соответствует ID в теле PATCH-запроса", StatusBadRequest, w)
      else match env.validatePartial(p)
        case Fail(m) => Complain(pre, ValidationFailed + m, StatusBadRequest, w)
        case Panic => Reply(pre, [], true, w)
        case Pass => PatchAnswer(pre, Repository.PatchUser(env.repoLog, w.store, p), log, w)
  }

  /** The answer to the store's PatchUser outcome, after `pre`; the
      repository's records precede the handler's. */
  function PatchAnswer(pre: seq<Event>, o: Repository.Outcome<User>, log: Logger, w: World): (rep: Reply)
    ensures rep.world == w.(store := o.store)
    ensures o.result.Failure? ==> rep.logs == o.logs
    ensures o.result.Success? ==>
      rep.logs == o.logs + [LogEntry(log, Info, "user added successfully", UserFields("UserPatch", o.result.value))]
  {
    var w' := w.(store := o.store);
    match o.result
    case Failure(e) =>
      if e.text == NoFieldsText then
        Complain(pre, "[SERVER] необходимо передать хотя бы одно поле для обновления", StatusBadRequest, w').(logs := o.logs)
      else if e.noRows then Complain(pre, "[SERVER] пользователь с таким ID не найден", StatusNotFound, w').(logs := o.logs)
      else Complain(pre, "[SERVER] ошибка при PATCH-обновлении пользователя в БД", StatusInternalServerError, w').(logs := o.logs)
    case Success(updated) =>
      Reply(pre + Answer(StatusOK, UserDoc(updated)),
            o.logs + [LogEntry(log, Info, "user added successfully", UserFields("UserPatch", updated))], false, w')
  }

  /** No error of the store's PatchUser has the text the handler maps to 400
      or wraps sql.ErrNoRows: the no-field error starts with "user", every
      other one with "repository/". */
  lemma PatchErrorsUnmapped(log: Logger, st: Repository.Store, p: PartialUser)
    ensures var o := Repository.PatchUser(log, st, p);
      o.result.Failure? ==> o.result.error.text != NoFieldsText && !o.result.error.noRows
  {
    var o := Repository.PatchUser(log, st, p);
    if o.result.Failure? {
      if Repository.PatchStatement(p).None? {
        assert o.result.error.text[0] == 'u';
      } else {
        assert o.result.error.text[0] == 'r';
      }
    }
  }

  /** Hence each error of the store's PatchUser is answered with 500. */
  lemma PatchFailureIs500(env: Env, r: Request, w: World)
    requires ParseId(r).Success? && env.decodePartial(r.body).Success?
    requires var p := env.decodePartial(r.body).value;
      p.id == ParseId(r).value && env.validatePartial(p) == Pass
    requires Repository.PatchUser(env.repoLog, w.store, env.decodePartial(r.body).value).result.Failure?
    ensures WireStatus(PatchUser(env, r, w).events) == StatusInternalServerError
    ensures PatchUser(env, r, w).world == w
  {
    PatchErrorsUnmapped(env.repoLog, w.store, env.decodePartial(r.body).value);
  }

  /** As with PUT, a path id that is not a number is answered with 400 and
      the handler carries on with id 0; a body with id 0 reaches the store,
      which has no row 0, and a second error, 500, is written after the
      first. */
  lemma PatchBadPathIdContinues(env: Env, r: Request, w: World)
    requires Repository.Valid(w.store)
    requires ParseId(r).Failure? && env.decodePartial(r.body).Success?
    requires var p := env.decodePartial(r.body).value;
      p.id == 0 && env.validatePartial(p) == Pass
    ensures PatchUser(env, r, w).events
      == ErrorEvents("[SERVER]" + ParseId(r).error, StatusBadRequest)
         + ErrorEvents("[SERVER] ошибка при PATCH-обновлении пользователя в БД", StatusInternalServerError)
    ensures WireStatus(PatchUser(env, r, w).events) == StatusBadRequest
    ensures PatchUser(env, r, w).world == w
  {
    assert 0 !in w.store.rows;
    var p := env.decodePartial(r.body).value;
    var o := Repository.PatchUser(env.repoLog, w.store, p);
    assert o.result.Failure? && o.store == w.store;
    PatchErrorsUnmapped(env.repoLog, w.store, p);
    var pre := PathId(r).1;
    assert PatchUser(env, r, w)
      == Complain(pre, "[SERVER] ошибка при PATCH-обновлении пользователя в БД", StatusInternalServerError, w).(logs := o.logs);
  }

  /** A PATCH body with no field to set changes nothing and answers 200
      with the current record, hash included. */
  lemma PatchNothingReturnsCurrent(env: Env, r: Request, w: World)
    requires ParseId(r).Success? && env.decodePartial(r.body).Success?
    requires var p := env.decodePartial(r.body).value;
      p.id == ParseId(r).value && env.validatePartial(p) == Pass
      && p.name.None? && p.age.None? && p.email.None?
    requires env.decodePartial(r.body).value.id in w.store.rows
    ensures var id := ParseId(r).value;
      && PatchUser(env, r, w).world == w
      && PatchUser(env, r, w).events == Answer(StatusOK, UserDoc(Repository.SelectedUser(id, w.store.rows[id])))
  {
  }

  /** A PATCH the store accepts answers 200 with the re-read row and changes
      exactly the supplied columns of that row. */
  lemma PatchUpdates(env: Env, r: Request, w: World)
    requires ParseId(r).Success? && env.decodePartial(r.body).Success?
    requires var p := env.decodePartial(r.body).value;
      p.id == ParseId(r).value && env.validatePartial(p) == Pass
    requires Repository.PatchUser(env.repoLog, w.store, env.decodePartial(r.body).value).result.Success?
    ensures var p := env.decodePartial(r.body).value;
      var rep := PatchUser(env, r, w);
      && p.id in w.store.rows
      && rep.world.store.rows == w.store.rows[p.id := Repository.ApplyPatch(w.store.rows[p.id], p)]
      && rep.events == Answer(StatusOK, UserDoc(Repository.SelectedUser(p.id, rep.world.store.rows[p.id])))
  {
  }

  // -------------------------------------------------------------------
  // DELETE /users/{id}

  function DeleteUser(env: Env, r: Request, w: World): (rep: Reply)
    ensures rep.world.registry == w.registry
    ensures ParseId(r).Failure? ==> rep == Reject("[SERVER]" + ParseId(r).error, StatusBadRequest, w)
    // any store error is 404; success is a bare 204
    ensures ParseId(r).Success? ==>
      && (ParseId(r).value in w.store.rows <==> rep.events == [WriteHeader(StatusNoContent)])
      && (ParseId(r).value !in w.store.rows ==> WireStatus(rep.events) == StatusNotFound && rep.world == w)
      && (ParseId(r).value in w.store.rows ==> rep.world.store.rows == w.store.rows - {ParseId(r).value})
    // only the repository logs, and only a missing row
    ensures ParseId(r).Success? && ParseId(r).value !in w.store.rows ==>
      rep.logs == [LogEntry(env.repoLog, Info, "user not found",
                      [Field("id", Num(ParseId(r).value)), Field("component", Str("repository")), Field("event", Str("DeleteUser"))])]
    ensures ParseId(r).Success? && ParseId(r).value in w.store.rows ==> rep.logs == []
  {
    match ParseId(r)
    case Failure(m) => Reject("[SERVER]" + m, StatusBadRequest, w)
    case Success(id) =>
      var o := Repository.DeleteUser(env.repoLog, w.store, id);
      match o.result
      case Failure(_) => Reject("[SERVER] ID пользователя не найден в БД", StatusNotFound, w.(store := o.store)).(logs := o.logs)
      case Success(_) => Respond([WriteHeader(StatusNoContent)], w.(store := o.store))
  }

  // -------------------------------------------------------------------
  // GET /users/{id}

  function GetUserById(env: Env, r: Request, w: World): (rep: Reply)
    ensures rep.world == w
    ensures ParseId(r).Failure? ==> WireStatus(rep.events) == StatusBadRequest
    ensures ParseId(r).Success? && ParseId(r).value !in w.store.rows ==>
      && WireStatus(rep.events) == StatusNotFound
      && rep.logs == Repository.GetUserByID(env.repoLog, w.store, ParseId(r).value).logs
  {
    match ParseId(r)
    case Failure(m) => Reject("[SERVER]" + m, StatusBadRequest, w)
    case Success(id) =>
      var o := Repository.GetUserByID(env.repoLog, w.store, id);
      match o.result
      case Failure(_) => Reject("[SERVER] не удалось найти пользователя в БД по ID", StatusNotFound, w).(logs := o.logs)
      case Success(u) => Respond(Answer(StatusOK, UserDoc(u)), w)
  }

  /** The public lookup answers with the stored password hash: the field has
      no JSON tag, so it is encoded under its Go name. */
  lemma GetUserByIdExposesHash(env: Env, r: Request, w: World)
    requires ParseId(r).Success? && ParseId(r).value in w.store.rows
    ensures var rep := GetUserById(env, r, w);
      && WireStatus(rep.events) == StatusOK
      && rep.events[2].body.doc.user.hashedPassword == w.store.rows[ParseId(r).value].hashedPassword
  {
  }

  // -------------------------------------------------------------------
  // GET /me

  /** GetUserByIDFromContextHandler. Its lookup-failure branch prints
      through a package logger that production never sets, which panics. */
  function Me(env: Env, r: Request, w: World): (rep: Reply)
    ensures rep.world == w
    ensures !Auth.GetUserIdFromContext(r).1 ==>
      rep == Reject("[SERVER] ID не был передан с контекстом из middleware", StatusInternalServerError, w)
  {
    var (id, ok) := Auth.GetUserIdFromContext(r);
    if !ok then Reject("[SERVER] ID не был передан с контекстом из middleware", StatusInternalServerError, w)
    else
      var o := Repository.GetUserByID(env.repoLog, w.store, id);
      match o.result
      case Failure(_) => Reply([], o.logs, true, w)
      case Success(u) => Respond(Answer(StatusOK, UserDoc(u)), w)
  }

  /** With an id in the context, /me answers with that user, or panics when
      there is none, after the repository's not-found record. */
  lemma MeAnswers(env: Env, r: Request, w: World, id: int)
    requires Auth.UserIdKey in r.ctx && r.ctx[Auth.UserIdKey] == IntVal(id)
    ensures id in w.store.rows ==>
      Me(env, r, w).events == Answer(StatusOK, UserDoc(Repository.SelectedUser(id, w.store.rows[id])))
    ensures id !in w.store.rows ==>
      Me(env, r, w) == Reply([], [LogEntry(env.repoLog, Info, "user not found",
                                  [Field("id", Num(id)), Field("component", Str("repository")), Field("event", Str("GetUserByID"))])],
                             true, w)
  {
  }

  // -------------------------------------------------------------------
  // POST /login

  function Login(env: Env, r: Request, w: World): (rep: Reply)
    ensures rep.world == w
  {
    var log := WithLogger.LoggerFromContext(r.ctx);
    match env.decodeLogin(r.body)
    case Failure(e) => Reject("[SERVER]" + e, StatusBadRequest, w)
    case Success(q) =>
      match env.validateLogin(q)
      case Fail(_) => Reject("[SERVER] логин или пароль были введены некорректно", StatusBadRequest, w)
      case Panic => Reply([], [], true, w)
      case Pass =>
        var o := Repository.GetUserByEmail(env.repoLog, w.store, q.email);
        match o.result
        case Failure(_) => Reject("[SERVER] не удалось найти пользователя по e-mail", StatusUnauthorized, w).(logs := o.logs)
        case Success(u) =>
          if !env.passwordMatches(u.hashedPassword, q.password) then
            Reject("[SERVER] неправильный пароль", StatusUnauthorized, w)
          else match env.sign(AccessClaims(u, env.now))
            case Failure(e) => Reject("ошибка при создании токена" + e, StatusInternalServerError, w)
            case Success(access) =>
              match env.sign(RefreshClaims(u, env.now))
              case Failure(e) => Reject("ошибка при создании токена" + e, StatusInternalServerError, w)
              case Success(refresh) =>
                var body := StringMapDoc(map["message" := "Успешная авторизация", "access-token" := access]);
                Reply([AddCookie(RefreshCookie(refresh))] + Answer(StatusOK, body),
                      [LogEntry(log, Info, "user added successfully", UserFields("UserLogin", u))], false, w)
  }

  /** An unknown e-mail and a wrong password are both answered with 401. */
  lemma LoginRejectsUnknownOrWrong(env: Env, r: Request, w: World)
    requires Repository.Valid(w.store)
    requires env.decodeLogin(r.body).Success? && env.validateLogin(env.decodeLogin(r.body).value) == Pass
    requires var q := env.decodeLogin(r.body).value;
      (forall k :: k in w.store.rows ==> w.store.rows[k].email != q.email)
      || (forall k :: k in w.store.rows && w.store.rows[k].email == q.email ==>
            !env.passwordMatches(w.store.rows[k].hashedPassword, q.password))
    ensures WireStatus(Login(env, r, w).events) == StatusUnauthorized
  {
  }

  /** A successful login sets the refresh cookie and returns the access
      token; both are signed from claims of the stored user, whose role the
      e-mail lookup does not read, so it is always empty. */
  lemma LoginSuccess(env: Env, r: Request, w: World)
    requires Login(env, r, w).events != [] && WireStatus(Login(env, r, w).events) == StatusOK
    ensures var q := env.decodeLogin(r.body).value;
      var u := Repository.GetUserByEmail(env.repoLog, w.store, q.email).result.value;
      var es := Login(env, r, w).events;
      && u.email == q.email && u.role == ""
      && env.passwordMatches(u.hashedPassword, q.password)
      && es[0] == AddCookie(RefreshCookie(env.sign(RefreshClaims(u, env.now)).value))
      && es[3] == Write(Encoded(StringMapDoc(map["message" := "Успешная авторизация",
                                                 "access-token" := env.sign(AccessClaims(u, env.now)).value])))
      && AccessClaims(u, env.now)["role"] == JString("")
  {
  }
  /** The access token a login hands out authenticates its holder: the
      middleware reads back the user's id, and the role the token carries. */
  lemma AccessTokenAuthenticates(env: Env, r: Request, u: User, token: string)
    requires HeaderGet(r, "Authorization") == Auth.BearerPrefix + token
    requires env.verify(token) == Parsed("HS256", None, AccessClaims(u, env.now))
    ensures Auth.Check(env, r) == Success((u.id, JString(u.role)))
    ensures var (id, role) := Auth.Check(env, r).value;
      Auth.GetUserIdFromContext(Auth.Forwarded(r, id, role)) == (u.id, true)
  {
    Auth.VerifiedTokenIsHeaderRest(env, r, token);
    TruncOfWhole(u.id);
  }

  /** A token from /login carries the empty role, so it passes the
      authenticator but neither role gate: the protected routes refuse it
      with 403. */
  lemma LoginTokenFailsGates(env: Env, r: Request, w: World, token: string, next: Handler)
    requires Repository.Valid(w.store)
    requires Login(env, r, w).events != [] && WireStatus(Login(env, r, w).events) == StatusOK
    requires var u := Repository.GetUserByEmail(env.repoLog, w.store, env.decodeLogin(r.body).value.email).result.value;
      && HeaderGet(r, "Authorization") == Auth.BearerPrefix + token
      && env.verify(token) == Parsed("HS256", None, AccessClaims(u, env.now))
    ensures Auth.Check(env, r).Success? && Auth.Check(env, r).value.1 == JString("")
    ensures var (id, role) := Auth.Check(env, r).value;
      && Roles.AdminOnly(next)(env, Auth.Forwarded(r, id, role), w) == Reject(Roles.ForbiddenMessage, StatusForbidden, w)
      && Roles.EditorOnly(next)(env, Auth.Forwarded(r, id, role), w) == Reject(Roles.ForbiddenMessage, StatusForbidden, w)
  {
    var u := Repository.GetUserByEmail(env.repoLog, w.store, env.decodeLogin(r.body).value.email).result.value;
    LoginSuccess(env, r, w);
    AccessTokenAuthenticates(env, r, u, token);
  }

  /** When the validator panics, the handler has written nothing and
      changed nothing; the panic is left to the recoverer. */
  lemma ValidatorPanicWritesNothing(env: Env, r: Request, w: World)
    requires env.decodeUser(r.body).Success? && env.validateUser(env.decodeUser(r.body).value) == Panic
    ensures PostUser(env, r, w) == Reply([], [], true, w)
  {
  }
}

=== FILE: http.dfy ===
/** The parts of net/http, and of the libraries around it, that the service's
    request handling observes.

    A handler does not return a response: it performs calls on an
    `http.ResponseWriter`. Those calls are recorded, in order, as a trace of
    `Event`s, and `ToResponse` says what a client receives from a trace.
    Everything the code asks of the outside world during one request (the
    clock, the UUID generator, JWT, bcrypt, the validator, the JSON decoder,
    the token bucket) is an `Env` field whose answer the model takes as
    given. */
module Http {
  import opened Wrappers
  import opened Json
  import opened Logs
  import opened Model
  import Repository
  import Registry

  const MethodGet: string := "GET"
  const MethodPost: string := "POST"
  const MethodPut: string := "PUT"
  const MethodPatch: string := "PATCH"
  const MethodDelete: string := "DELETE"
  const MethodOptions: string := "OPTIONS"

  const StatusOK: int := 200
  const StatusCreated: int := 201
  const StatusNoContent: int := 204
  const StatusBadRequest: int := 400
  const StatusUnauthorized: int := 401
  const StatusForbidden: int := 403
  const StatusNotFound: int := 404
  const StatusMethodNotAllowed: int := 405
  const StatusUnprocessableEntity: int := 422
  const StatusTooManyRequests: int := 429
  const StatusInternalServerError: int := 500

  // -------------------------------------------------------------------
  // Requests and their context

  /** The keys of `context.WithValue` the service uses. Go compares context
      keys by type and value, so the `contextKey("userID")` of the auth
      package (`AuthKey`), the one of the middleware package (`MwKey`), a
      plain string key (`PlainKey`) and the logger's struct key differ. */
  datatype CtxKey = AuthKey(name: string) | MwKey(name: string) | PlainKey(name: string) | LoggerKey

  /** What is stored under a key: an `int`, a raw JWT claim, or a logger. */
  datatype CtxValue = IntVal(i: int) | ClaimVal(claim: Json) | LoggerVal(logger: Logger)

  type Context = map<CtxKey, CtxValue>

  /** A request as the handlers see it. Header names are canonical; `vars`
      holds the router's path variables (`mux.Vars`). */
  datatype Request = Request(
    verb: string,                  // the HTTP method
    path: string,
    header: map<string, string>,
    remoteAddr: string,
    body: string,
    ctx: Context,
    vars: map<string, string>)

  /** The bytes `textproto` accepts in a header name. */
  predicate IsTokenChar(c: char) {
    || ('a' <= c <= 'z') || ('A' <= c <= 'Z') || ('0' <= c <= '9')
    || c == '!' || c == '#' || c == '$' || c == '%' || c == '&' || c == '\'' || c == '*'
    || c == '+' || c == '-' || c == '.' || c == '^' || c == '_' || c == '`' || c == '|' || c == '~'
  }

  function UpperAscii(c: char): char {
    if 'a' <= c <= 'z' then (c as int - 32) as char else c
  }

  function LowerAscii(c: char): char {
    if 'A' <= c <= 'Z' then (c as int + 32) as char else c
  }

  /** Whether position i of a header name starts a word: the first byte, or
      the byte after a hyphen. */
  predicate StartsWord(s: string, i: int)
    requires 0 <= i < |s|
  {
    i == 0 || s[i - 1] == '-'
  }

  /** The loop of `textproto.CanonicalMIMEHeaderKey`: `upper` says whether
      the next letter is upper-cased, and a hyphen sets it for the byte
      after it. */
  function CanonicalFrom(s: string, upper: bool): (c: string)
    ensures |c| == |s|
    decreases |s|
  {
    if |s| == 0 then []
    else [if upper then UpperAscii(s[0]) else LowerAscii(s[0])] + CanonicalFrom(s[1..], s[0] == '-')
  }

  lemma {:induction false} CanonicalFromAt(s: string, upper: bool)
    ensures forall i :: 0 <= i < |s| ==>
      CanonicalFrom(s, upper)[i]
        == if (i == 0 && upper) || (i > 0 && s[i - 1] == '-') then UpperAscii(s[i]) else LowerAscii(s[i])
    decreases |s|
  {
    if |s| > 0 {
      CanonicalFromAt(s[1..], s[0] == '-');
      var c := CanonicalFrom(s, upper);
      forall i | 0 < i < |s|
        ensures c[i] == if s[i - 1] == '-' then UpperAscii(s[i]) else LowerAscii(s[i])
      {
        assert c[i] == CanonicalFrom(s[1..], s[0] == '-')[i - 1];
        assert s[1..][i - 1] == s[i];
        if i > 1 { assert s[1..][i - 2] == s[i - 1]; }
      }
    }
  }

  /** `textproto.CanonicalMIMEHeaderKey`, the key `Header.Get` and
      `Header.Set` use: the first letter and every letter after a hyphen in
      upper case, the other letters in lower case. A name holding a byte
      that is not a token byte is used as given. */
  function Canonical(name: string): (c: string)
    ensures |c| == |name|
    ensures !(forall i :: 0 <= i < |name| ==> IsTokenChar(name[i])) ==> c == name
    ensures forall i :: 0 <= i < |name| ==> LowerAscii(c[i]) == LowerAscii(name[i])
    ensures forall i :: 0 <= i < |name| ==> (c[i] == '-' <==> name[i] == '-')
  {
    if forall i :: 0 <= i < |name| ==> IsTokenChar(name[i]) then
      seq(|name|, i requires 0 <= i < |name| => CanonicalByte(name, i))
    else name
  }

  /** Byte i of the canonical form of a token name. */
  function CanonicalByte(name: string, i: int): (d: char)
    requires 0 <= i < |name|
    ensures LowerAscii(d) == LowerAscii(name[i])
    ensures d == '-' <==> name[i] == '-'
  {
    if StartsWord(name, i) then UpperAscii(name[i]) else LowerAscii(name[i])
  }

  /** The byte loop of the library computes the canonical form. */
  lemma CanonicalLoop(name: string)
    requires forall i :: 0 <= i < |name| ==> IsTokenChar(name[i])
    ensures CanonicalFrom(name, true) == Canonical(name)
  {
    CanonicalFromAt(name, true);
  }

  /** Canonicalizing a canonical name changes nothing. */
  lemma CanonicalIdempotent(name: string)
    ensures Canonical(Canonical(name)) == Canonical(name)
  {
    var c := Canonical(name);
    if forall i :: 0 <= i < |name| ==> IsTokenChar(name[i]) {
      assert forall i :: 0 <= i < |c| ==> IsTokenChar(c[i]);
      assert forall i :: 0 <= i < |c| ==> (StartsWord(c, i) <==> StartsWord(name, i));
    }
  }

  /** Two names that differ only in the case of their letters have the same
      canonical form, so `Header.Get` finds a header whatever case the code
      spells its name in. (A name with a non-token byte is left as it is,
      case included.) */
  lemma CanonicalIgnoresCase(a: string, b: string)
    requires |a| == |b|
    requires forall i :: 0 <= i < |a| ==> IsTokenChar(a[i])
    requires forall i :: 0 <= i < |a| ==> LowerAscii(a[i]) == LowerAscii(b[i])
    ensures Canonical(a) == Canonical(b)
  {
    assert forall i :: 0 <= i < |a| ==> (IsTokenChar(a[i]) <==> IsTokenChar(b[i]));
    assert forall i :: 0 <= i < |a| ==> UpperAscii(a[i]) == UpperAscii(b[i]);
    assert forall i :: 0 <= i < |a| ==> (StartsWord(a, i) <==> StartsWord(b, i));
    assert forall i :: 0 <= i < |a| ==> Canonical(a)[i] == Canonical(b)[i];
  }

  /** The request-id header as the code spells it, and the key net/http
      stores it under. */
  lemma RequestIdKey()
    ensures Canonical("X-Request-ID") == "X-Request-Id"
  {
    CanonicalByRule("X-Request-ID", "X-Request-Id");
  }

  /** A name whose letters already follow the rule, byte by byte, is the
      canonical form of `name`. */
  lemma CanonicalIs(name: string, c: string)
    requires |c| == |name| && forall i :: 0 <= i < |name| ==> IsTokenChar(name[i])
    requires forall i :: 0 <= i < |name| ==>
      c[i] == if StartsWord(name, i) then UpperAscii(name[i]) else LowerAscii(name[i])
    ensures Canonical(name) == c
  {
  }

  /** The rule of `CanonicalIs` checked from byte i on, one byte at a time,
      so that on a literal name every index is a constant. */
  predicate RuleFrom(name: string, c: string, i: int)
    requires |c| == |name| && 0 <= i
    decreases |name| - i
  {
    if i >= |name| then true
    else
      && IsTokenChar(name[i])
      && c[i] == (if StartsWord(name, i) then UpperAscii(name[i]) else LowerAscii(name[i]))
      && RuleFrom(name, c, i + 1)
  }

  lemma {:induction false} RuleFromAll(name: string, c: string, i: int)
    requires |c| == |name| && 0 <= i && RuleFrom(name, c, i)
    ensures forall j :: i <= j < |name| ==>
      IsTokenChar(name[j]) && c[j] == if StartsWord(name, j) then UpperAscii(name[j]) else LowerAscii(name[j])
    decreases |name| - i
  {
    if i < |name| {
      RuleFromAll(name, c, i + 1);
    }
  }

  /** `CanonicalIs` for a name checked byte by byte. */
  lemma CanonicalByRule(name: string, c: string)
    requires |c| == |name| && RuleFrom(name, c, 0)
    ensures Canonical(name) == c
  {
    RuleFromAll(name, c, 0);
    CanonicalIs(name, c);
  }

  /** `r.Header.Get(name)`: the value stored under the canonical form of
      `name`, or the empty string when there is none. */
  function HeaderGet(r: Request, name: string): (v: string)
    ensures Canonical(name) !in r.header ==> v == ""
    ensures Canonical(name) in r.header ==> v == r.header[Canonical(name)]
  {
    if Canonical(name) in r.header then r.header[Canonical(name)] else ""
  }

  /** `r.WithContext(ctx)`: the same request with another context. */
  function WithContext(r: Request, ctx: Context): (r': Request)
    ensures r'.ctx == ctx && r'.(ctx := r.ctx) == r
  {
    r.(ctx := ctx)
  }

  // -------------------------------------------------------------------
  // Responses as traces of ResponseWriter calls

  datatype SameSite = SameSiteDefault | SameSiteLax | SameSiteStrict | SameSiteNone

  datatype Cookie = Cookie(
    name: string,
    value: string,
    path: string,
    secure: bool,
    httpOnly: bool,
    sameSite: SameSite,
    maxAge: int)

  /** A value handed to `json.NewEncoder(w).Encode`. A nil slice of users is
      encoded as `null`, which is `NullDoc`. */
  datatype Doc = UserDoc(user: User) | UserListDoc(users: seq<User>) | NullDoc | StringMapDoc(entries: map<string, string>)

  /** What one `Write` sends: raw text, or a JSON document followed by the
      newline the encoder appends. */
  datatype Body = Text(text: string) | Encoded(doc: Doc)

  datatype Event =
    | SetHeader(name: string, value: string)   // w.Header().Set
    | DelHeader(name: string)                  // w.Header().Del
    | AddCookie(cookie: Cookie)                // http.SetCookie
    | WriteHeader(code: int)                   // w.WriteHeader
    | Write(body: Body)                        // w.Write, fmt.Fprintln(w, ...), Encode

  /** The events of `http.Error(w, msg, code)`. */
  function ErrorEvents(msg: string, code: int): (es: seq<Event>)
    ensures WireStatus(es) == code
    ensures WireBody(es) == [Text(msg + "\n")]
  {
    var es := [ DelHeader("Content-Length"),
                SetHeader("Content-Type", "text/plain; charset=utf-8"),
                SetHeader("X-Content-Type-Options", "nosniff"),
                WriteHeader(code),
                Write(Text(msg + "\n")) ];
    assert WireStatus(es[3..]) == code;
    assert WireStatus(es[1..]) == WireStatus(es[2..]) == WireStatus(es[3..]);
    assert WireBody(es[4..]) == [Text(msg + "\n")] by {
      assert es[4..][1..] == [];
    }
    assert WireBody(es[3..]) == WireBody(es[4..]) by { assert es[3..][1..] == es[4..]; }
    assert WireBody(es[2..]) == WireBody(es[3..]) by { assert es[2..][1..] == es[3..]; }
    assert WireBody(es[1..]) == WireBody(es[2..]) by { assert es[1..][1..] == es[2..]; }
    es
  }

  /** True for the calls that send the status line: the first `WriteHeader`,
      or a `Write` before any `WriteHeader` (which sends 200). */
  predicate Commits(e: Event) {
    e.WriteHeader? || e.Write?
  }

  predicate NoCommit(es: seq<Event>) {
    forall i :: 0 <= i < |es| ==> !Commits(es[i])
  }

  /** The status line the client receives: set by the first committing call;
      200 when the handler returns without writing anything. Later
      `WriteHeader` calls are superfluous and change nothing. */
  function WireStatus(es: seq<Event>): (code: int)
    ensures NoCommit(es) ==> code == StatusOK
    decreases |es|
  {
    if |es| == 0 then StatusOK
    else match es[0]
      case WriteHeader(c) => c
      case Write(_) => StatusOK
      case _ => WireStatus(es[1..])
  }

  /** The header map and cookies in force when the status line is sent:
      header changes after that point are lost. */
  datatype HeaderState = HeaderState(fields: map<string, string>, cookies: seq<Cookie>)

  function ApplyHeader(h: HeaderState, e: Event): HeaderState {
    match e
    case SetHeader(n, v) => h.(fields := h.fields[Canonical(n) := v])
    case DelHeader(n) => h.(fields := h.fields - {Canonical(n)})
    case AddCookie(c) => h.(cookies := h.cookies + [c])
    case _ => h
  }

  function WireHeader(h: HeaderState, es: seq<Event>): HeaderState
    decreases |es|
  {
    if |es| == 0 || Commits(es[0]) then h else WireHeader(ApplyHeader(h, es[0]), es[1..])
  }

  /** Everything written, in order. */
  function WireBody(es: seq<Event>): (b: seq<Body>)
    ensures |b| <= |es|
    decreases |es|
  {
    if |es| == 0 then []
    else (if es[0].Write? then [es[0].body] else []) + WireBody(es[1..])
  }

  /** The body is the concatenation of what each call writes: a Write
      contributes its bytes, every other call nothing. */
  lemma {:induction false} WireBodyAppend(a: seq<Event>, b: seq<Event>)
    ensures WireBody(a + b) == WireBody(a) + WireBody(b)
    ensures |a| == 1 ==> WireBody(a) == (if a[0].Write? then [a[0].body] else [])
    decreases |a|
  {
    if |a| == 1 {
      assert a[1..] == [];
    }
    if |a| > 0 {
      assert (a + b)[1..] == a[1..] + b;
      WireBodyAppend(a[1..], b);
    } else {
      assert a + b == b;
    }
  }

  datatype Response = Response(status: int, header: map<string, string>, cookies: seq<Cookie>, body: seq<Body>)

  /** What the client receives for a trace. */
  function ToResponse(es: seq<Event>): (resp: Response)
    ensures resp.status == WireStatus(es)
  {
    var h := WireHeader(HeaderState(map[], []), es);
    Response(WireStatus(es), h.fields, h.cookies, WireBody(es))
  }

  /** Whatever was set before, `http.Error` answers with its own code, as
      long as nothing had been committed yet. */
  lemma {:induction false} ErrorSetsWireStatus(pre: seq<Event>, msg: string, code: int, post: seq<Event>)
    requires NoCommit(pre)
    ensures WireStatus(pre + ErrorEvents(msg, code) + post) == code
    decreases |pre|
  {
    var es := pre + ErrorEvents(msg, code) + post;
    if |pre| == 0 {
      var e1, e2, e3 := es[1..], es[2..], es[3..];
      assert es[0] == DelHeader("Content-Length") && e1 == es[1..];
      assert e1[0] == SetHeader("Content-Type", "text/plain; charset=utf-8") && e2 == e1[1..];
      assert e2[0] == SetHeader("X-Content-Type-Options", "nosniff") && e3 == e2[1..];
      assert e3[0] == WriteHeader(code);
      assert WireStatus(e3) == code;
      assert WireStatus(e2) == WireStatus(e3);
      assert WireStatus(e1) == WireStatus(e2);
      assert WireStatus(es) == WireStatus(e1);
    } else {
      assert !Commits(pre[0]);
      assert es[1..] == pre[1..] + ErrorEvents(msg, code) + post;
      ErrorSetsWireStatus(pre[1..], msg, code, post);
    }
  }

  /** Once committed, nothing appended changes the status line. */
  lemma {:induction false} WireStatusFixedOnceCommitted(es: seq<Event>, post: seq<Event>)
    requires !NoCommit(es)
    ensures WireStatus(es + post) == WireStatus(es)
    decreases |es|
  {
    if !Commits(es[0]) {
      assert (es + post)[1..] == es[1..] + post;
      assert !NoCommit(es[1..]) by {
        var i :| 0 <= i < |es| && Commits(es[i]);
        assert es[1..][i - 1] == es[i];
      }
      WireStatusFixedOnceCommitted(es[1..], post);
    }
  }

  /** Header changes in front of a trace do not change its status line. */
  lemma {:induction false} WireStatusAfterNoCommit(pre: seq<Event>, es: seq<Event>)
    requires NoCommit(pre)
    ensures WireStatus(pre + es) == WireStatus(es)
    decreases |pre|
  {
    if |pre| > 0 {
      assert !Commits(pre[0]);
      assert (pre + es)[1..] == pre[1..] + es;
      WireStatusAfterNoCommit(pre[1..], es);
    } else {
      assert pre + es == es;
    }
  }

  // -------------------------------------------------------------------
  // The outside world of one request

  /** `validate.Struct`: passes, fails with the validator's message, or
      panics (the validator panics on a tag it cannot parse). */
  datatype Verdict = Pass | Fail(msg: string) | Panic

  /** What `jwt.ParseWithClaims` finds in a token string: either it cannot
      be parsed, or its header names a signing algorithm, its signature and
      registered claims are checked with the shared secret
      (`signatureError` is the library's complaint, if any), and its claims
      are decoded. */
  datatype TokenVerdict =
    | Unparsable(err: string)
    | Parsed(alg: string, signatureError: Option<string>, claims: map<string, Json>)

  /** `token.Method.(*jwt.SigningMethodHMAC)` holds for these algorithms. */
  predicate IsHmac(alg: string) {
    alg == "HS256" || alg == "HS384" || alg == "HS512"
  }

  /** How jwt.ParseWithClaims reports an error returned by the key function:
      ErrTokenUnverifiable, the fixed message, then the key function's own
      error. */
  function KeyfuncError(e: string): (t: string)
    ensures |t| == |KeyfuncPrefix| + |e| && t[..|KeyfuncPrefix|] == KeyfuncPrefix && t[|KeyfuncPrefix|..] == e
  {
    KeyfuncPrefix + e
  }

  const KeyfuncPrefix: string := "token is unverifiable: error while executing keyfunc: "

  /** The text form of a version-4 UUID. */
  type Uuid = s: string | |s| == 36 witness "00000000-0000-4000-8000-000000000000"

  datatype Env = Env(
    now: int,                                         // time.Now(), Unix nanoseconds
    elapsed: nat,                                     // time.Since(start) in the logging stages
    elapsedText: string,                              // the same duration printed with %v
    newUuid: Uuid,                                    // uuid.New().String()
    splitHost: string -> Result<string, string>,      // the host part of net.SplitHostPort, or its error
    allow: Registry.Limiter -> bool,                  // rate.Limiter.Allow()
    verify: string -> TokenVerdict,                   // jwt.ParseWithClaims
    sign: map<string, Json> -> Result<string, string>,// HS256 SignedString with the shared secret
    decodeUser: string -> Result<User, string>,       // json.Decoder.Decode into model.User
    decodePartial: string -> Result<PartialUser, string>,
    decodeRegister: string -> Result<RegisterRequest, string>,
    decodeLogin: string -> Result<LoginRequest, string>,
    validateUser: User -> Verdict,
    validatePartial: PartialUser -> Verdict,
    validateRegister: RegisterRequest -> Verdict,
    validateLogin: LoginRequest -> Verdict,
    hashPassword: string -> Result<string, string>,   // bcrypt.GenerateFromPassword
    passwordMatches: (string, string) -> bool,        // bcrypt.CompareHashAndPassword(hash, pw) == nil
    swagger: Request -> seq<Event>,                   // the documentation handler
    repoLog: Logger,                                  // the logger the repository was built with
    recovered: string,                                // the panic value recover() returns, as zap.Any renders it
    stack: string)                                    // debug.Stack()

  /** The two pieces of shared state: the users table and the rate limiter
      registry. */
  datatype World = World(store: Repository.Store, registry: Registry.Registry)

  /** What serving a request leaves behind: the ResponseWriter calls, the log
      records, whether a panic is still unwinding, and the shared state. */
  datatype Reply = Reply(events: seq<Event>, logs: seq<LogEntry>, panicked: bool, world: World)

  type Handler = (Env, Request, World) -> Reply

  /** A handler that only performs `events`. */
  function Respond(events: seq<Event>, w: World): (r: Reply)
    ensures r.events == events && r.logs == [] && !r.panicked && r.world == w
  {
    Reply(events, [], false, w)
  }

  /** `http.Error(w, msg, code); return`. */
  function Reject(msg: string, code: int, w: World): (r: Reply)
    ensures WireStatus(r.events) == code && r.world == w && !r.panicked
  {
    ErrorSetsWireStatus([], msg, code, []);
    assert [] + ErrorEvents(msg, code) + [] == ErrorEvents(msg, code);
    Respond(ErrorEvents(msg, code), w)
  }

  /** Events written before a reply of `next`, for the stages that act
      before calling it. */
  function Prepend(events: seq<Event>, r: Reply): (r': Reply)
    ensures r'.events == events + r.events && r'.logs == r.logs
    ensures r'.panicked == r.panicked && r'.world == r.world
  {
    r.(events := events + r.events)
  }
}

=== FILE: json.dfy ===
/** JSON values as the JWT library hands them back in a claims map
    (`jwt.MapClaims`, a `map[string]any` filled by encoding/json). Every JSON
    number arrives as a Go float64; it is modelled here as an exact `real`. */
module Json {

  datatype Json =
    | JNull
    | JBool(b: bool)
    | JNumber(n: real)
    | JString(s: string)
    | JComposite   // an array or an object; the core never looks inside one

  /** Go's conversion `int(f)` of a float64: truncation toward zero. */
  function TruncToInt(x: real): (n: int)
    ensures 0.0 <= x ==> n as real <= x < n as real + 1.0
    ensures x < 0.0 ==> n as real - 1.0 < x <= n as real
  {
    if x >= 0.0 then x.Floor else -((-x).Floor)
  }

  /** A whole number survives the float64 round trip the `sub` claim takes. */
  lemma TruncOfWhole(n: int)
    ensures TruncToInt(n as real) == n
  {
  }
}

=== FILE: logging.dfy ===
/** internal/middleware/logging.go: the older access log, writing one line
    to a standard-library logger. */
module Logging {
  import opened Logs
  import opened Http
  import MidLog
  import Strconv
  import Wrappers

  /** The line `Completed <method> <path> with <code> in <duration>`. */
  function Line(r: Request, code: int, elapsedText: string): string {
    "Completed " + r.verb + " " + r.path + " with " + Strconv.Itoa(code) + " in " + elapsedText
  }

  /** Logging(logger)(next): calls next once with the unchanged request and
      prints the status the wrapper captured (200 when none was set). */
  function Serve(logger: Logger, next: Handler, env: Env, r: Request, w: World): (rep: Reply)
    ensures var inner := next(env, r, w);
      && rep.events == inner.events && rep.world == inner.world && rep.panicked == inner.panicked
      && (!inner.panicked ==>
            rep.logs == inner.logs + [LogEntry(logger, Print, Line(r, MidLog.CapturedStatus(inner.events), env.elapsedText), [])])
  {
    var inner := next(env, r, w);
    if inner.panicked then inner
    else inner.(logs := inner.logs + [LogEntry(logger, Print, Line(r, MidLog.CapturedStatus(inner.events), env.elapsedText), [])])
  }

  function Stage(logger: Logger, next: Handler): Handler {
    (env, r, w) => Serve(logger, next, env, r, w)
  }

  /** The status can be read back from the line: after the fixed head
      naming the method and path come the code's decimal digits, which parse
      to the code. */
  lemma LineRecordsStatus(r: Request, code: int, elapsedText: string)
    requires Strconv.MinInt64 <= code <= Strconv.MaxInt64
    ensures var s := Line(r, code, elapsedText);
      var head := "Completed " + r.verb + " " + r.path + " with ";
      && |s| > |head| + |Strconv.Itoa(code)|
      && s[..|head|] == head
      && Strconv.Atoi(s[|head|..|head| + |Strconv.Itoa(code)|]) == Wrappers.Success(code)
  {
    var s := Line(r, code, elapsedText);
    var d := Strconv.Itoa(code);
    var head := "Completed " + r.verb + " " + r.path + " with ";
    var tail := " in " + elapsedText;
    assert s == head + d + tail;
    assert (head + d + tail)[..|head|] == head;
    assert (head + d + tail)[|head|..|head| + |d|] == d;
    Strconv.AtoiItoa(code);
  }

  /** For one request and duration, the line determines the code: requests
      that ended with different codes print different lines. */
  lemma LineDistinguishesStatus(r: Request, c1: int, c2: int, elapsedText: string)
    requires Strconv.MinInt64 <= c1 <= Strconv.MaxInt64 && Strconv.MinInt64 <= c2 <= Strconv.MaxInt64
    ensures Line(r, c1, elapsedText) == Line(r, c2, elapsedText) ==> c1 == c2
  {
    var head := "Completed " + r.verb + " " + r.path + " with ";
    var tail := " in " + elapsedText;
    var d1, d2 := Strconv.Itoa(c1), Strconv.Itoa(c2);
    Strconv.AtoiItoa(c1);
    Strconv.AtoiItoa(c2);
    assert Line(r, c1, elapsedText) == head + d1 + tail;
    assert Line(r, c2, elapsedText) == head + d2 + tail;
    if Line(r, c1, elapsedText) == Line(r, c2, elapsedText) {
      assert |d1| == |d2|;
      assert (head + d1 + tail)[|head|..|head| + |d1|] == d1;
      assert (head + d2 + tail)[|head|..|head| + |d2|] == d2;
    }
  }
}

=== FILE: logs.dfy ===
/** Structured log records. A logger is a value: zap's `With` returns a new
    logger carrying extra fields, and `zap.NewNop()` is the logger that drops
    everything. The standard library logger of logging.go and of the auth
    package is `Std`. */
module Logs {

  datatype FieldValue = Str(s: string) | Num(i: int)

  datatype Field = Field(key: string, value: FieldValue)

  datatype Logger =
    | Nop                                   // zap.NewNop()
    | Root(name: string)                    // the *zap.Logger handed to StartServer
    | Std(name: string)                     // a *log.Logger of the standard library
    | With(parent: Logger, fields: seq<Field>)

  datatype Level = Info | Warn | Error | Print

  datatype LogEntry = LogEntry(logger: Logger, level: Level, msg: string, fields: seq<Field>)
}

=== FILE: midlog.dfy ===
/** internal/middleware/midlog.go: the access log. The wrapper around the
    ResponseWriter remembers the code of the last `WriteHeader` it saw. */
module MidLog {
  import opened Logs
  import opened Http
  import WithLogger

  /** The code a status-capturing wrapper holds after the calls `es`,
      starting from `initial`: the last `WriteHeader` wins. */
  function LastStatus(es: seq<Event>, initial: int): (code: int)
    ensures (forall i :: 0 <= i < |es| ==> !es[i].WriteHeader?) ==> code == initial
    ensures code == initial || exists i :: 0 <= i < |es| && es[i] == WriteHeader(code)
    decreases |es|
  {
    if |es| == 0 then initial
    else if es[|es| - 1].WriteHeader? then es[|es| - 1].code
    else LastStatus(es[..|es| - 1], initial)
  }

  /** The wrapper starts at 200, for handlers that never call WriteHeader. */
  function CapturedStatus(es: seq<Event>): (code: int)
    ensures (forall i :: 0 <= i < |es| ==> !es[i].WriteHeader?) ==> code == StatusOK
    ensures code == StatusOK || exists i :: 0 <= i < |es| && es[i] == WriteHeader(code)
  {
    LastStatus(es, StatusOK)
  }

  /** The wrapper itself: each WriteHeader overwrites the stored code (and is
      forwarded unchanged, so the events are the same). */
  method CaptureStatus(es: seq<Event>) returns (code: int)
    ensures code == CapturedStatus(es)
  {
    code := StatusOK;
    var i := 0;
    while i < |es|
      invariant 0 <= i <= |es|
      invariant code == LastStatus(es[..i], StatusOK)
    {
      assert es[..i + 1][..i] == es[..i];
      if es[i].WriteHeader? {
        code := es[i].code;
      }
      i := i + 1;
    }
    assert es[..|es|] == es;
  }

  /** A WriteHeader followed by calls that are not WriteHeader decides the
      captured code. */
  lemma {:induction false} LastWriteHeaderWins(pre: seq<Event>, code: int, post: seq<Event>)
    requires forall i :: 0 <= i < |post| ==> !post[i].WriteHeader?
    ensures CapturedStatus(pre + [WriteHeader(code)] + post) == code
    decreases |post|
  {
    var es := pre + [WriteHeader(code)] + post;
    if |post| > 0 {
      assert es[..|es| - 1] == pre + [WriteHeader(code)] + post[..|post| - 1];
      LastWriteHeaderWins(pre, code, post[..|post| - 1]);
    }
  }

  /** The access log can disagree with the wire: when a handler answers
      with `http.Error` twice, the client has the first code, but the wrapper
      keeps the second. */
  lemma CapturedMayDifferFromWire(pre: seq<Event>, m1: string, c1: int, m2: string, c2: int)
    requires NoCommit(pre)
    ensures var es := pre + ErrorEvents(m1, c1) + ErrorEvents(m2, c2);
      && WireStatus(es) == c1 && CapturedStatus(es) == c2
      && (c1 != c2 ==> WireStatus(es) != CapturedStatus(es))
  {
    var tail := ErrorEvents(m2, c2);
    var es := pre + ErrorEvents(m1, c1) + tail;
    ErrorSetsWireStatus(pre, m1, c1, tail);
    assert tail == tail[..3] + [WriteHeader(c2)] + [tail[4]];
    LastWriteHeaderWins(pre + ErrorEvents(m1, c1) + tail[..3], c2, [tail[4]]);
    assert pre + ErrorEvents(m1, c1) + tail[..3] + [WriteHeader(c2)] + [tail[4]] == es;
  }

  /** The level of the completion record: Error from 500, Warn from 400,
      Info below. */
  function LevelFor(code: int): (l: Level)
    ensures l == Error <==> code >= 500
    ensures l == Warn <==> 400 <= code < 500
    ensures l == Info <==> code < 400
  {
    if code >= 500 then Error else if code >= 400 then Warn else Info
  }

  /** The "HTTP request completed" record: Error for a server error, Warn for
      a client error, Info otherwise, always by the given logger and with the
      status code as its first field. */
  function Completed(log: Logger, code: int, r: Request, elapsed: nat): (e: LogEntry)
    ensures e.logger == log && e.msg == "HTTP request completed"
    ensures e.level == Error <==> code >= 500
    ensures e.level == Warn <==> 400 <= code < 500
    ensures |e.fields| == 6 && e.fields[0] == Field("http.status_code", Num(code))
    ensures e.fields[4] == Field("component", Str("middleware"))
  {
    LogEntry(log, LevelFor(code), "HTTP request completed",
      [ Field("http.status_code", Num(code)),
        Field("http.method", Str(r.verb)),
        Field("http.target", Str(r.path)),
        Field("duration", Num(elapsed)),
        Field("component", Str("middleware")),
        Field("operation", Str("response")) ])
  }

  /** MidLog()(next): calls next once with the unchanged request, then logs
      the captured status with the logger of its OWN incoming request. A
      panic unwinding through it skips the log. */
  function Serve(next: Handler, env: Env, r: Request, w: World): (rep: Reply)
    ensures var inner := next(env, r, w);
      && rep.events == inner.events && rep.world == inner.world && rep.panicked == inner.panicked
      && (inner.panicked ==> rep.logs == inner.logs)
      && (!inner.panicked ==>
            && rep.logs == inner.logs + [Completed(WithLogger.LoggerFromContext(r.ctx), CapturedStatus(inner.events), r, env.elapsed)]
            && rep.logs[|rep.logs| - 1].level == LevelFor(CapturedStatus(inner.events)))
  {
    var inner := next(env, r, w);
    if inner.panicked then inner
    else inner.(logs := inner.logs + [Completed(WithLogger.LoggerFromContext(r.ctx), CapturedStatus(inner.events), r, env.elapsed)])
  }

  function Stage(next: Handler): Handler {
    (env, r, w) => Serve(next, env, r, w)
  }
}

=== FILE: model.dfy ===
/** The request and entity shapes of internal/model/model.go. Go pointers that
    mean "field not supplied" become `Option`; float64 balances become `int`. */
module Model {
  import opened Wrappers

  datatype User = User(
    id: int,
    name: string,
    age: int,
    email: string,
    role: string,
    hashedPassword: string,
    balance: int)

  /** Body of a PATCH request: everything but the id is optional. */
  datatype PartialUser = PartialUser(
    id: int,
    name: Option<string>,
    age: Option<int>,
    email: Option<string>,
    hashedPassword: Option<string>,
    balance: Option<int>)

  datatype RegisterRequest = RegisterRequest(name: string, age: int, email: string, password: string)

  datatype LoginRequest = LoginRequest(email: string, password: string)

  /** Bounds carried by the `validate` struct tags. */
  const MinAge: int := 0
  const MaxAge: int := 130
  const MinPasswordLength: nat := 8

  predicate AgeInRange(age: int) {
    MinAge <= age <= MaxAge
  }

  /** What the tags of `RegisterRequest` demand. Only the registration
      password has a minimum length. */
  predicate RegisterTagsHold(q: RegisterRequest) {
    q.name != "" && AgeInRange(q.age) && q.email != "" && |q.password| >= MinPasswordLength
  }

  /** What the tags of `LoginRequest` demand: both fields present, no length. */
  predicate LoginTagsHold(q: LoginRequest) {
    q.email != "" && q.password != ""
  }

  /** StrPtr: a reference to a copy of `s`, i.e. a supplied string field. */
  function StrPtr(s: string): (p: Option<string>)
    ensures p.Some? && p.value == s
  {
    Some(s)
  }

  /** The sample PUT body of the package. */
  const UpdatedUserPut: User := User(2, "Marina", 23, "marina@gmail.com", "", "", 0)

  /** The sample PATCH body of the package: only the e-mail is supplied. */
  const UpdatedUserPatch: PartialUser := PartialUser(1, None, None, StrPtr("new@gmail.com"), None, None)

  /** The only difference the tags make between the two password-carrying
      requests: an 8-character minimum at registration, none at login. */
  lemma LoginPasswordHasNoMinimum(email: string, password: string)
    requires email != "" && 0 < |password| < MinPasswordLength
    ensures LoginTagsHold(LoginRequest(email, password))
    ensures !RegisterTagsHold(RegisterRequest("n", 1, email, password))
  {
  }
}

=== FILE: mw_auth.dfy ===
/** internal/middleware/auth.go: the second authenticator, `Auth`, with its
    own context key and structured logging; and its GetUserIDFromContext. */
module MwAuth {
  import opened Wrappers
  import opened Json
  import opened Logs
  import opened Http
  import Strings
  import WithLogger
  import Auth

  /** `contextKey("userID")` of the middleware package: a different Go type
      from the auth package's key, hence a different key. */
  const UserIdKey: CtxKey := MwKey("userID")

  const Denied: string := "access denied"

  /** The zap record of a refusal: its message and the error, if one is
      attached. */
  datatype Rejection = Rejection(logMsg: string, err: Option<string>)

  /** The checks, in the order the code makes them. */
  function Check(env: Env, r: Request): (res: Result<(int, Json), Rejection>)
    ensures !Strings.HasPrefix(HeaderGet(r, "Authorization"), Auth.BearerPrefix) ==>
      res == Failure(Rejection("missing or invalid token", None))
    // each refusal after the prefix check, with its record's message and error
    ensures Strings.HasPrefix(HeaderGet(r, "Authorization"), Auth.BearerPrefix) ==>
      var v := env.verify(Strings.TrimPrefix(HeaderGet(r, "Authorization"), Auth.BearerPrefix));
      && (v.Unparsable? ==> res == Failure(Rejection("processing token error", Some(v.err))))
      && (v.Parsed? && !IsHmac(v.alg) ==>
            res == Failure(Rejection("processing token error", Some(KeyfuncError("unexpected signing method: " + v.alg)))))
      && (v.Parsed? && IsHmac(v.alg) && v.signatureError.Some? ==>
            res == Failure(Rejection("processing token error", v.signatureError)))
      && (v.Parsed? && IsHmac(v.alg) && v.signatureError.None? && "sub" !in v.claims ==>
            res == Failure(Rejection("claims token error", None)))
      && (v.Parsed? && IsHmac(v.alg) && v.signatureError.None? && "sub" in v.claims && !v.claims["sub"].JNumber? ==>
            res == Failure(Rejection("invalid sub-field", None)))
  {
    var header := HeaderGet(r, "Authorization");
    if header == "" || !Strings.HasPrefix(header, "Bearer ") then
      Failure(Rejection("missing or invalid token", None))
    else
      var token := Strings.TrimPrefix(header, "Bearer ");
      var v := env.verify(token);
      if v.Unparsable? then Failure(Rejection("processing token error", Some(v.err)))
      else if !IsHmac(v.alg) then Failure(Rejection("processing token error", Some(KeyfuncError("unexpected signing method: " + v.alg))))
      else if v.signatureError.Some? then Failure(Rejection("processing token error", v.signatureError))
      else
        var sub := if "sub" in v.claims then Some(v.claims["sub"]) else None;
        match sub
        case None => Failure(Rejection("claims token error", None))
        case Some(s) =>
          if !s.JNumber? then Failure(Rejection("invalid sub-field", None))
          else Success((TruncToInt(s.n), if "role" in v.claims then v.claims["role"] else JNull))
  }

  function Forwarded(r: Request, id: int, role: Json): (r': Request)
    ensures r'.(ctx := r.ctx) == r
    ensures UserIdKey in r'.ctx && r'.ctx[UserIdKey] == IntVal(id)
    ensures Auth.RoleKey in r'.ctx && r'.ctx[Auth.RoleKey] == ClaimVal(role)
    ensures forall k :: k in r.ctx && k != UserIdKey && k != Auth.RoleKey ==> k in r'.ctx && r'.ctx[k] == r.ctx[k]
    ensures r'.ctx.Keys == r.ctx.Keys + {UserIdKey, Auth.RoleKey}
  {
    WithContext(r, r.ctx[UserIdKey := IntVal(id)][Auth.RoleKey := ClaimVal(role)])
  }

  function RecordFields(rej: Rejection): seq<Field> {
    (if rej.err.Some? then [Field("error", Str(rej.err.value))] else [])
    + [Field("component", Str("middleware")), Field("event", Str("auth"))]
  }

  /** Auth(next): every refusal is the same 401 "access denied" and an Error
      record; an accepted token calls next once with the forwarded request. */
  function Serve(next: Handler, env: Env, r: Request, w: World): (rep: Reply)
    ensures Check(env, r).Failure? ==>
      && rep.events == ErrorEvents(Denied, StatusUnauthorized)
      && WireStatus(rep.events) == StatusUnauthorized
      && rep.world == w && !rep.panicked
      && rep.logs == [LogEntry(WithLogger.LoggerFromContext(r.ctx), Error, Check(env, r).error.logMsg, RecordFields(Check(env, r).error))]
    ensures Check(env, r).Success? ==>
      rep == next(env, Forwarded(r, Check(env, r).value.0, Check(env, r).value.1), w)
  {
    match Check(env, r)
    case Failure(rej) =>
      Reject(Denied, StatusUnauthorized, w).(logs := [LogEntry(WithLogger.LoggerFromContext(r.ctx), Error, rej.logMsg, RecordFields(rej))])
    case Success((id, role)) => next(env, Forwarded(r, id, role), w)
  }

  function Stage(next: Handler): Handler {
    (env, r, w) => Serve(next, env, r, w)
  }

  function GetUserIdFromContext(r: Request): (res: (int, bool))
    ensures res.1 <==> UserIdKey in r.ctx && r.ctx[UserIdKey].IntVal?
    ensures res.1 ==> res.0 == r.ctx[UserIdKey].i
    ensures !res.1 ==> res.0 == 0
  {
    if UserIdKey in r.ctx && r.ctx[UserIdKey].IntVal? then (r.ctx[UserIdKey].i, true) else (0, false)
  }

  /** The two authenticators accept the same requests and pass on the same
      id and role. */
  lemma AuthenticatorsAgree(env: Env, r: Request)
    ensures Check(env, r).Success? <==> Auth.Check(env, r).Success?
    ensures Check(env, r).Success? ==> Check(env, r).value == Auth.Check(env, r).value
  {
  }

  /** The two forwarded requests differ only in the key the id is stored
      under: with both id keys removed, their contexts are equal, and so is
      everything else about them. */
  lemma ForwardedAgree(r: Request, id: int, role: Json)
    ensures Forwarded(r, id, role).ctx - {UserIdKey, Auth.UserIdKey}
      == Auth.Forwarded(r, id, role).ctx - {UserIdKey, Auth.UserIdKey}
    ensures Forwarded(r, id, role).(ctx := r.ctx) == Auth.Forwarded(r, id, role).(ctx := r.ctx)
  {
  }

  /** So they make the same decision for every request, and when they
      forward they call the same next with requests differing only in the
      key the id is stored under. */
  lemma ServesAgree(next: Handler, env: Env, r: Request, w: World)
    ensures Auth.Check(env, r).Failure? ==>
      && WireStatus(Serve(next, env, r, w).events) == StatusUnauthorized && Serve(next, env, r, w).world == w
      && WireStatus(Auth.Serve(next, env, r, w).events) == StatusUnauthorized && Auth.Serve(next, env, r, w).world == w
    ensures Auth.Check(env, r).Success? ==>
      var (id, role) := Auth.Check(env, r).value;
      && Serve(next, env, r, w) == next(env, Forwarded(r, id, role), w)
      && Auth.Serve(next, env, r, w) == next(env, Auth.Forwarded(r, id, role), w)
      && Forwarded(r, id, role).ctx - {UserIdKey, Auth.UserIdKey}
        == Auth.Forwarded(r, id, role).ctx - {UserIdKey, Auth.UserIdKey}
  {
    AuthenticatorsAgree(env, r);
    if Auth.Check(env, r).Success? {
      var (id, role) := Auth.Check(env, r).value;
      ForwardedAgree(r, id, role);
    }
  }

  /** An id stored by the auth package's authenticator is invisible to this
      package's GetUserIDFromContext, and the other way round. */
  lemma KeysDoNotMeet(r: Request, id: int, role: Json)
    requires UserIdKey !in r.ctx && Auth.UserIdKey !in r.ctx
    ensures GetUserIdFromContext(Auth.Forwarded(r, id, role)) == (0, false)
    ensures Auth.GetUserIdFromContext(Forwarded(r, id, role)) == (0, false)
  {
  }
}

=== FILE: rate_limiter.dfy ===
/** The request-handling half of internal/middleware/rate_limiter.go: find
    the client's limiter and let the request through, refuse it with 429, or
    fail with 500 when the client address cannot be split. */
module RateLimiter {
  import opened Wrappers
  import opened Logs
  import opened Http
  import WithLogger
  import Registry

  const TooManyBody: string := "{\"error\":\"too many requests\"}"

  /** The answer to a refused request: JSON content type, 429, a fixed body. */
  function TooManyEvents(): seq<Event> {
    [ SetHeader("Content-Type", "application/json"),
      WriteHeader(StatusTooManyRequests),
      Write(Text(TooManyBody)) ]
  }

  /** The component and event fields every record of this middleware
      carries, after `before` and before `after`. */
  function Fields(before: seq<Field>, after: seq<Field>): seq<Field> {
    before + [Field("component", Str("middleware")), Field("event", Str("rate_limiter"))] + after
  }

  /** RateLimiterMiddleware()(next). The limiter is looked up (and its
      last-seen time refreshed) before Allow is consulted. */
  function Serve(next: Handler, env: Env, r: Request, w: World): (rep: Reply)
    // an unparsable address: 500, registry untouched
    ensures env.splitHost(r.remoteAddr).Failure? ==>
      && rep.events == ErrorEvents("internal server error", StatusInternalServerError)
      && rep.world == w && !rep.panicked
      && rep.logs == [LogEntry(WithLogger.LoggerFromContext(r.ctx), Error, "unable to parse IP",
                        Fields([Field("error", Str(env.splitHost(r.remoteAddr).error))], []))]
    ensures env.splitHost(r.remoteAddr).Success? ==>
      var ip := env.splitHost(r.remoteAddr).value;
      var (limiter, reg) := Registry.GetLimiter(w.registry, ip, env.now);
      // refused: 429 with the JSON body, next not called
      && (!env.allow(limiter) ==>
            && rep.events == TooManyEvents()
            && rep.world == w.(registry := reg) && !rep.panicked
            && rep.logs == [LogEntry(WithLogger.LoggerFromContext(r.ctx), Error, "too many requests",
                              Fields([], [Field("ip", Str(ip))]))])
      // admitted: next runs once, with the same request and the updated registry
      && (env.allow(limiter) ==> rep == next(env, r, w.(registry := reg)))
  {
    var log := WithLogger.LoggerFromContext(r.ctx);
    match env.splitHost(r.remoteAddr)
    case Failure(e) =>
      Reply(ErrorEvents("internal server error", StatusInternalServerError),
            [LogEntry(log, Error, "unable to parse IP", Fields([Field("error", Str(e))], []))], false, w)
    case Success(ip) =>
      var (limiter, reg) := Registry.GetLimiter(w.registry, ip, env.now);
      if !env.allow(limiter) then
        Reply(TooManyEvents(), [LogEntry(log, Error, "too many requests", Fields([], [Field("ip", Str(ip))]))],
              false, w.(registry := reg))
      else next(env, r, w.(registry := reg))
  }

  function Stage(next: Handler): Handler {
    (env, r, w) => Serve(next, env, r, w)
  }

  /** Whether the limiter admits a request or not, the client's entry is
      seen at `now` with its limiter, and the store is untouched by the
      decision itself. */
  lemma ThrottledClientStaysFresh(next: Handler, env: Env, r: Request, w: World)
    requires env.splitHost(r.remoteAddr).Success?
    requires !env.allow(Registry.GetLimiter(w.registry, env.splitHost(r.remoteAddr).value, env.now).0)
    ensures var ip := env.splitHost(r.remoteAddr).value;
      var rep := Serve(next, env, r, w);
      && ip in rep.world.registry.clients
      && rep.world.registry.clients[ip].lastSeen == env.now
      && rep.world.store == w.store
      && WireStatus(rep.events) == StatusTooManyRequests
  {
  }

  /** A refusal does not depend on what the next handler would do. */
  lemma RefusalIgnoresNext(n1: Handler, n2: Handler, env: Env, r: Request, w: World)
    requires env.splitHost(r.remoteAddr).Failure?
      || !env.allow(Registry.GetLimiter(w.registry, env.splitHost(r.remoteAddr).value, env.now).0)
    ensures Serve(n1, env, r, w) == Serve(n2, env, r, w)
  {
  }
}

=== FILE: recover.dfy ===
/** internal/middleware/recover.go: turns a panic of the inner handler into
    a 500 answer and an error record. */
module Recover {
  import opened Logs
  import opened Http
  import WithLogger

  const PanicMessage: string := "Внутренняя ошибка сервера"

  /** zap.Any("error", recovered) and zap.ByteString("stack", debug.Stack()). */
  function PanicFields(env: Env): seq<Field> {
    [Field("error", Str(env.recovered)), Field("stack", Str(env.stack))]
  }

  /** Recoverer()(next): a reply that is not panicking passes through; a
      panicking one is stopped, logged with the logger of Recoverer's own
      request, and finished with http.Error(500). Whatever the inner handler
      had written stays in the trace. */
  function Serve(next: Handler, env: Env, r: Request, w: World): (rep: Reply)
    ensures !rep.panicked
    ensures var inner := next(env, r, w);
      && rep.world == inner.world
      && (!inner.panicked ==> rep == inner)
      && (inner.panicked ==>
            && rep.events == inner.events + ErrorEvents(PanicMessage, StatusInternalServerError)
            && rep.logs == inner.logs + [LogEntry(WithLogger.LoggerFromContext(r.ctx), Error, "panic recovered", PanicFields(env))])
  {
    var inner := next(env, r, w);
    if !inner.panicked then inner
    else Reply(inner.events + ErrorEvents(PanicMessage, StatusInternalServerError),
               inner.logs + [LogEntry(WithLogger.LoggerFromContext(r.ctx), Error, "panic recovered", PanicFields(env))],
               false, inner.world)
  }

  function Stage(next: Handler): Handler {
    (env, r, w) => Serve(next, env, r, w)
  }

  /** A panic before anything was written reaches the client as 500. */
  lemma PanicBeforeWriteIs500(next: Handler, env: Env, r: Request, w: World)
    requires next(env, r, w).panicked && NoCommit(next(env, r, w).events)
    ensures WireStatus(Serve(next, env, r, w).events) == StatusInternalServerError
  {
    ErrorSetsWireStatus(next(env, r, w).events, PanicMessage, StatusInternalServerError, []);
    assert next(env, r, w).events + ErrorEvents(PanicMessage, StatusInternalServerError) + []
        == Serve(next, env, r, w).events;
  }
}

=== FILE: registry.dfy ===
/** The per-IP state of internal/middleware/rate_limiter.go: a map from
    client address to its token-bucket limiter and the time it was last seen.

    A limiter is identified by a serial number that stands for the Go
    pointer: two lookups return "the same limiter" when the serials agree,
    and a limiter created later never shares a serial with an earlier one.
    The bucket arithmetic itself belongs to golang.org/x/time/rate and is not
    part of this model. Times are Unix nanoseconds. */
module Registry {
  import Config

  /** Every limiter admits 5 requests per second with bursts of 10. */
  const ReqPerSecond: nat := 5
  const BurstSize: nat := 10

  /** An entry idle for longer than this is swept away. */
  const IdleLimit: nat := 3 * Config.Minute

  /** The sweeping goroutine sleeps this long between sweeps. */
  const SweepInterval: nat := Config.Minute

  datatype Limiter = Limiter(rate: nat, burst: nat, serial: nat)

  datatype Client = Client(limiter: Limiter, lastSeen: int)

  datatype Registry = Registry(clients: map<string, Client>, nextSerial: nat)

  /** The registry when the process starts. */
  const Empty: Registry := Registry(map[], 0)

  predicate Configured(l: Limiter) {
    l.rate == ReqPerSecond && l.burst == BurstSize
  }

  /** Every stored limiter is configured alike and was created before
      `nextSerial` was handed out. */
  ghost predicate Valid(g: Registry) {
    forall ip :: ip in g.clients ==> Configured(g.clients[ip].limiter) && g.clients[ip].limiter.serial < g.nextSerial
  }

  /** getLimiter: the limiter of `ip`, created if the address is new; either
      way the entry is marked as seen at `now`. */
  function GetLimiter(g: Registry, ip: string, now: int): (r: (Limiter, Registry))
    ensures r.1.clients.Keys == g.clients.Keys + {ip}
    ensures ip in r.1.clients && r.1.clients[ip] == Client(r.0, now)
    ensures forall k :: k in g.clients && k != ip ==> r.1.clients[k] == g.clients[k]
    ensures ip in g.clients ==> r.0 == g.clients[ip].limiter && r.1.nextSerial == g.nextSerial
    ensures ip !in g.clients ==> Configured(r.0) && r.1.nextSerial == g.nextSerial + 1
    ensures ip !in g.clients && Valid(g) ==>
      forall k :: k in g.clients ==> g.clients[k].limiter.serial != r.0.serial
    ensures Valid(g) ==> Valid(r.1) && Configured(r.0)
  {
    if ip !in g.clients then
      var l := Limiter(ReqPerSecond, BurstSize, g.nextSerial);
      (l, Registry(g.clients[ip := Client(l, now)], g.nextSerial + 1))
    else
      var c := g.clients[ip];
      (c.limiter, g.(clients := g.clients[ip := c.(lastSeen := now)]))
  }

  /** Whether the sweep at `now` keeps an entry: only entries idle for
      strictly more than three minutes go. */
  predicate Keep(c: Client, now: int) {
    !(now - c.lastSeen > IdleLimit)
  }

  /** One pass of cleanupClients, taken atomically at time `now`. */
  function Sweep(g: Registry, now: int): (r: Registry)
    ensures forall ip :: ip in r.clients <==> ip in g.clients && now - g.clients[ip].lastSeen <= IdleLimit
    ensures forall ip :: ip in r.clients ==> r.clients[ip] == g.clients[ip]
    ensures r.nextSerial == g.nextSerial
    ensures Valid(g) ==> Valid(r)
  {
    Registry(map ip | ip in g.clients && Keep(g.clients[ip], now) :: g.clients[ip], g.nextSerial)
  }

  /** The loop of cleanupClients, deleting stale entries while ranging over
      the map, computes the sweep. */
  method CleanupClients(g: Registry, now: int) returns (r: Registry)
    ensures r == Sweep(g, now)
  {
    var m := g.clients;
    var pending := g.clients.Keys;
    while pending != {}
      invariant pending <= g.clients.Keys
      invariant forall ip :: ip in m <==> ip in g.clients && (ip in pending || Keep(g.clients[ip], now))
      invariant forall ip :: ip in m ==> m[ip] == g.clients[ip]
      decreases |pending|
    {
      var ip :| ip in pending;
      if now - m[ip].lastSeen > IdleLimit {
        m := m - {ip};
      }
      pending := pending - {ip};
    }
    r := Registry(m, g.nextSerial);
    assert m.Keys == Sweep(g, now).clients.Keys;
  }

  /** An entry exactly three minutes old survives the sweep. */
  lemma SweepKeepsBoundary(g: Registry, ip: string, now: int)
    requires ip in g.clients && now == g.clients[ip].lastSeen + IdleLimit
    ensures ip in Sweep(g, now).clients
  {
  }

  /** Sweeping twice at the same moment removes nothing more. */
  lemma SweepIdempotent(g: Registry, now: int)
    ensures Sweep(Sweep(g, now), now) == Sweep(g, now)
  {
    var once := Sweep(g, now);
    assert Sweep(once, now).clients.Keys == once.clients.Keys;
  }

  /** After its entry has been swept, an address's next request is served
      by a newly created limiter, configured like every other one. */
  lemma SweptClientGetsFreshLimiter(g: Registry, ip: string, now: int, later: int)
    requires Valid(g)
    requires ip in g.clients && now - g.clients[ip].lastSeen > IdleLimit
    ensures var (l, g') := GetLimiter(Sweep(g, now), ip, later);
      && Configured(l)
      && l.serial != g.clients[ip].limiter.serial
      && (forall k :: k in g.clients ==> g.clients[k].limiter.serial != l.serial)
      && g'.clients[ip] == Client(l, later)
  {
    var s := Sweep(g, now);
    assert ip !in s.clients;
  }

  /** A known address keeps its limiter: looking it up again only moves its
      last-seen time. */
  lemma KnownClientKeepsLimiter(g: Registry, ip: string, t1: int, t2: int)
    ensures var (l1, g1) := GetLimiter(g, ip, t1);
      var (l2, g2) := GetLimiter(g1, ip, t2);
      && l2 == l1
      && g2.clients.Keys == g1.clients.Keys
      && g2.nextSerial == g1.nextSerial
      && g2.clients[ip] == Client(l1, t2)
  {
  }
}

=== FILE: repository.dfy ===
/** internal/repository/repository.go over an abstract users table.

    The table is a map from the SERIAL id to the row's other columns, plus the
    next value of the id sequence. SQL is not modelled, except the text the
    PATCH operation builds. Where the Go code reads back only some columns,
    the columns it does not select come back as Go zero values.

    Every operation takes the logger the repository was constructed with and
    returns the records it wrote. */
module Repository {
  import opened Wrappers
  import opened Model
  import opened Logs
  import Strconv
  import Strings

  /** A stored row: every column of `users` except the id. */
  datatype Row = Row(name: string, age: int, email: string, role: string, hashedPassword: string, balance: int)

  datatype Store = Store(rows: map<int, Row>, nextId: int)

  /** A Go `error`: its text, and whether `errors.Is(err, sql.ErrNoRows)` holds. */
  datatype StoreError = StoreError(text: string, noRows: bool)

  /** The result of an operation, the table after it, and the records the
      repository's logger wrote, in order. */
  datatype Outcome<T> = Outcome(result: Result<T, StoreError>, store: Store, logs: seq<LogEntry>)

  /** Ids come from a sequence starting at 1; e-mails are UNIQUE. */
  ghost predicate Valid(st: Store) {
    && st.nextId >= 1
    && (forall id :: id in st.rows ==> 1 <= id < st.nextId)
    && UniqueEmails(st.rows)
  }

  ghost predicate UniqueEmails(rows: map<int, Row>) {
    forall a, b :: a in rows && b in rows && a != b ==> rows[a].email != rows[b].email
  }

  /** True when a row other than `self` already holds `email`. */
  predicate EmailHeldByOther(rows: map<int, Row>, email: string, self: int) {
    exists k :: k in rows && k != self && rows[k].email == email
  }

  const ErrNoRows: StoreError := StoreError("sql: no rows in result set", true)
  /** The error pgx reports for a second row with the same e-mail. */
  const UniqueViolation: StoreError :=
    StoreError("ERROR: duplicate key value violates unique constraint \"users_email_key\" (SQLSTATE 23505)", false)
  const NotAllFieldsFilled: StoreError := StoreError("not all fields fill", false)

  /** `fmt.Errorf("context: %w", e)`: new text, same chain. */
  function Wrap(context: string, e: StoreError): (w: StoreError)
    ensures w.noRows == e.noRows
    ensures Strings.HasPrefix(w.text, context + ": ")
  {
    var w := StoreError(context + ": " + e.text, e.noRows);
    assert w.text[..|context + ": "|] == context + ": ";
    w
  }

  /** `fmt.Errorf("context: %w", nil)`: fmt prints a marker and wraps nothing. */
  function WrapNil(context: string): StoreError {
    StoreError(context + ": %!w(<nil>)", false)
  }

  function NotFoundById(id: int): StoreError {
    StoreError("user with id " + Strconv.Itoa(id) + " not found", false)
  }

  /** The user a `SELECT id, name, age, email, password` scans. */
  function SelectedUser(id: int, row: Row): User {
    User(id, row.name, row.age, row.email, "", row.hashedPassword, 0)
  }

  /** GetUserByID: a found row is read silently; a missing one is an Info
      record naming the id. */
  function GetUserByID(log: Logger, st: Store, id: int): (o: Outcome<User>)
    ensures o.store == st
    ensures o.result.Success? <==> id in st.rows
    ensures o.result.Success? ==>
      && o.result.value.id == id
      && o.result.value.name == st.rows[id].name
      && o.result.value.age == st.rows[id].age
      && o.result.value.email == st.rows[id].email
      && o.result.value.hashedPassword == st.rows[id].hashedPassword
      && o.result.value.role == "" && o.result.value.balance == 0
      && o.logs == []
    ensures o.result.Failure? ==>
      && !o.result.error.noRows && o.result.error.text == "user with id " + Strconv.Itoa(id) + " not found"
      && o.logs == [LogEntry(log, Info, "user not found",
                      [Field("id", Num(id)), Field("component", Str("repository")), Field("event", Str("GetUserByID"))])]
  {
    if id in st.rows then Outcome(Success(SelectedUser(id, st.rows[id])), st, [])
    else Outcome(Failure(NotFoundById(id)), st, [LogEntry(log, Info, "user not found", [Field("id", Num(id)), Field("component", Str("repository")), Field("event", Str("GetUserByID"))])])
  }

  /** The lowest id in [lo, hi) whose row holds `email`. */
  function FindEmail(rows: map<int, Row>, email: string, lo: int, hi: int): (r: Option<int>)
    ensures r.Some? ==> lo <= r.value < hi && r.value in rows && rows[r.value].email == email
    ensures r.None? ==> forall k :: lo <= k < hi && k in rows ==> rows[k].email != email
    decreases hi - lo
  {
    if lo >= hi then None
    else if lo in rows && rows[lo].email == email then Some(lo)
    else FindEmail(rows, email, lo + 1, hi)
  }

  /** GetUserByEmail. The not-found message prints the e-mail of the empty
      record the scan left behind, so neither it nor the Info record names
      the address asked for. */
  function GetUserByEmail(log: Logger, st: Store, email: string): (o: Outcome<User>)
    ensures o.store == st
    ensures o.result.Success? ==> o.result.value.id in st.rows && o.result.value.email == email && o.result.value.role == ""
    ensures o.result.Success? ==> o.result.value.hashedPassword == st.rows[o.result.value.id].hashedPassword && o.logs == []
    ensures Valid(st) ==> (o.result.Success? <==> exists k :: k in st.rows && st.rows[k].email == email)
    ensures o.result.Failure? ==>
      && o.result.error == StoreError("user with email  not found", false)
      && o.logs == [LogEntry(log, Info, "user not found",
                      [Field("email", Str("")), Field("component", Str("repository")), Field("event", Str("GetUserByEmail"))])]
  {
    var scanned := "";
    match FindEmail(st.rows, email, 1, st.nextId)
    case Some(id) => Outcome(Success(SelectedUser(id, st.rows[id])), st, [])
    case None =>
      Outcome(Failure(StoreError("user with email " + scanned + " not found", false)), st,
              [LogEntry(log, Info, "user not found", [Field("email", Str(scanned)), Field("component", Str("repository")), Field("event", Str("GetUserByEmail"))])])
  }

  /** The user a `SELECT id, name, age, email` scans. */
  function ListedUser(id: int, row: Row): User {
    User(id, row.name, row.age, row.email, "", "", 0)
  }

  /** The rows with ids in [lo, hi), ascending. */
  function ListRange(rows: map<int, Row>, lo: int, hi: int): (r: seq<User>)
    ensures forall i :: 0 <= i < |r| ==> lo <= r[i].id < hi && r[i].id in rows
    ensures forall i :: 0 <= i < |r| ==> r[i] == ListedUser(r[i].id, rows[r[i].id])
    ensures forall i, j :: 0 <= i < j < |r| ==> r[i].id < r[j].id
    decreases hi - lo
  {
    if lo >= hi then []
    else
      var rest := ListRange(rows, lo + 1, hi);
      if lo in rows then [ListedUser(lo, rows[lo])] + rest else rest
  }

  /** No row in the range is missing from the listing. */
  lemma {:induction false} ListRangeComplete(rows: map<int, Row>, lo: int, hi: int, k: int)
    requires lo <= k < hi && k in rows
    ensures exists i :: 0 <= i < |ListRange(rows, lo, hi)| && ListRange(rows, lo, hi)[i].id == k
    decreases hi - lo
  {
    var r := ListRange(rows, lo, hi);
    if k == lo {
      assert r[0].id == k;
    } else {
      ListRangeComplete(rows, lo + 1, hi, k);
      var rest := ListRange(rows, lo + 1, hi);
      var i :| 0 <= i < |rest| && rest[i].id == k;
      if lo in rows {
        assert r[i + 1].id == k;
      } else {
        assert r[i].id == k;
      }
    }
  }

  /** GetAllUsers. SQL promises no order; ascending id is the admissible
      order chosen here. */
  function GetAllUsers(st: Store): (r: seq<User>)
    ensures forall i :: 0 <= i < |r| ==> r[i].id in st.rows && r[i] == ListedUser(r[i].id, st.rows[r[i].id])
    ensures forall i, j :: 0 <= i < j < |r| ==> r[i].id != r[j].id
    ensures Valid(st) ==> forall k :: k in st.rows ==> exists i :: 0 <= i < |r| && r[i].id == k
    ensures st.rows == map[] ==> r == []
  {
    var r := ListRange(st.rows, 1, st.nextId);
    assert |r| > 0 ==> r[0].id in st.rows;
    assert Valid(st) ==> forall k :: k in st.rows ==> exists i :: 0 <= i < |r| && r[i].id == k by {
      if Valid(st) {
        forall k | k in st.rows
          ensures exists i :: 0 <= i < |r| && r[i].id == k
        {
          ListRangeComplete(st.rows, 1, st.nextId, k);
        }
      }
    }
    r
  }

  /** The guard at the top of PostUser. */
  predicate MissingRequired(u: User) {
    u.name == "" || u.email == "" || u.age <= 0 || u.hashedPassword == ""
  }

  /** PostUser: INSERT name, age, email, password; the id comes from the
      sequence, role and balance from the column defaults. The read-back
      finds the new row, so a success writes no record. */
  function PostUser(log: Logger, st: Store, u: User): (o: Outcome<User>)
    ensures MissingRequired(u) ==>
      o == Outcome(Failure(NotAllFieldsFilled), st,
                   [LogEntry(log, Info, "not all fields filled",
                      [Field("component", Str("repository")), Field("event", Str("PostUser"))])])
    ensures !MissingRequired(u) && EmailHeldByOther(st.rows, u.email, st.nextId) ==>
      && o.result == Failure(Wrap("repository/PostUser", UniqueViolation))
      && o.logs == [LogEntry(log, Error, "failed to insert user",
                      [Field("error", Str(UniqueViolation.text)), Field("component", Str("repository")), Field("event", Str("PostUser"))])]
    ensures o.result.Failure? ==> o.store == st && !o.result.error.noRows
    ensures o.result.Success? <==> !MissingRequired(u) && !EmailHeldByOther(st.rows, u.email, st.nextId)
    ensures o.result.Success? ==>
      && o.result.value == User(st.nextId, u.name, u.age, u.email, "", "", 0)
      && o.store.rows == st.rows[st.nextId := Row(u.name, u.age, u.email, "", u.hashedPassword, 0)]
      && o.store.nextId == st.nextId + 1
    ensures Valid(st) ==> Valid(o.store)
    ensures Valid(st) && o.result.Success? ==> o.result.value.id !in st.rows
    ensures o.result.Success? ==> o.logs == []
  {
    if MissingRequired(u) then
      Outcome(Failure(NotAllFieldsFilled), st, [LogEntry(log, Info, "not all fields filled", [Field("component", Str("repository")), Field("event", Str("PostUser"))])])
    else if EmailHeldByOther(st.rows, u.email, st.nextId) then
      Outcome(Failure(Wrap("repository/PostUser", UniqueViolation)), st,
              [LogEntry(log, Error, "failed to insert user", [Field("error", Str(UniqueViolation.text)), Field("component", Str("repository")), Field("event", Str("PostUser"))])])
    else
      var id := st.nextId;
      var st' := Store(st.rows[id := Row(u.name, u.age, u.email, "", u.hashedPassword, 0)], id + 1);
      var back := GetUserByID(log, st', id);
      Outcome(Success(back.result.value.(hashedPassword := "")), st', back.logs)
  }

  /** PutUser: replaces name, age and email of an existing row. A missing
      row leaves GetUserByID's record followed by PutUser's own. */
  function PutUser(log: Logger, st: Store, u: User): (o: Outcome<User>)
    ensures u.id !in st.rows ==>
      && o.result.Failure? && !o.result.error.noRows && o.store == st
      && o.result.error.text == "repository/PutUser: " + NotFoundById(u.id).text
      && o.logs == GetUserByID(log, st, u.id).logs
                   + [LogEntry(log, Error, "user not found by ID",
                        [Field("error", Str(NotFoundById(u.id).text)), Field("component", Str("repository")), Field("event", Str("PutUser"))])]
    ensures u.id in st.rows && EmailHeldByOther(st.rows, u.email, u.id) ==>
      && o.result == Failure(Wrap("repository/PutUser", UniqueViolation))
      && o.logs == [LogEntry(log, Error, "failed to update user",
                      [Field("error", Str(UniqueViolation.text)), Field("component", Str("repository")), Field("event", Str("PutUser"))])]
    ensures o.result.Failure? ==> o.store == st
    ensures o.result.Success? <==> u.id in st.rows && !EmailHeldByOther(st.rows, u.email, u.id)
    ensures o.result.Success? ==>
      && o.result.value == User(u.id, u.name, u.age, u.email, "", "", 0)
      && o.store.nextId == st.nextId
      && o.store.rows.Keys == st.rows.Keys
      && o.store.rows[u.id].name == u.name
      && o.store.rows[u.id].age == u.age
      && o.store.rows[u.id].email == u.email
      && o.store.rows[u.id].hashedPassword == st.rows[u.id].hashedPassword
      && o.store.rows[u.id].role == st.rows[u.id].role
      && o.store.rows[u.id].balance == st.rows[u.id].balance
      && (forall k :: k in st.rows && k != u.id ==> o.store.rows[k] == st.rows[k])
      && o.logs == []
    ensures Valid(st) ==> Valid(o.store)
  {
    var found := GetUserByID(log, st, u.id);
    match found.result
    case Failure(e) =>
      Outcome(Failure(Wrap("repository/PutUser", e)), st,
              found.logs + [LogEntry(log, Error, "user not found by ID", [Field("error", Str(e.text)), Field("component", Str("repository")), Field("event", Str("PutUser"))])])
    case Success(_) =>
      if EmailHeldByOther(st.rows, u.email, u.id) then
        Outcome(Failure(Wrap("repository/PutUser", UniqueViolation)), st,
                [LogEntry(log, Error, "failed to update user", [Field("error", Str(UniqueViolation.text)), Field("component", Str("repository")), Field("event", Str("PutUser"))])])
      else
        var row := st.rows[u.id].(name := u.name, age := u.age, email := u.email);
        Outcome(Success(User(u.id, u.name, u.age, u.email, "", "", 0)), st.(rows := st.rows[u.id := row]), [])
  }

  // ---------------------------------------------------------------------
  // The PATCH statement builder

  datatype SqlArg = StrArg(s: string) | IntArg(i: int)

  /** The three locals of PatchUser: SET fragments, their arguments and the
      next placeholder number. */
  datatype SetClause = SetClause(parts: seq<string>, args: seq<SqlArg>, argIdx: int)

  datatype Statement = Statement(query: string, args: seq<SqlArg>)

  function AddColumn(c: SetClause, column: string, arg: SqlArg): SetClause {
    SetClause(c.parts + [column + " = $" + Strconv.Itoa(c.argIdx)], c.args + [arg], c.argIdx + 1)
  }

  /** The columns a PATCH body supplies, in the fixed order name, age, email. */
  function PresentColumns(p: PartialUser): seq<string> {
    (if p.name.Some? then ["name"] else [])
    + (if p.age.Some? then ["age"] else [])
    + (if p.email.Some? then ["email"] else [])
  }

  /** The values of those columns, in the same order. */
  function PresentArgs(p: PartialUser): seq<SqlArg> {
    (if p.name.Some? then [StrArg(p.name.value)] else [])
    + (if p.age.Some? then [IntArg(p.age.value)] else [])
    + (if p.email.Some? then [StrArg(p.email.value)] else [])
  }

  /** The three `if` blocks of PatchUser. */
  function BuildSetClause(p: PartialUser): (c: SetClause)
    ensures |c.parts| == |c.args| == |PresentColumns(p)|
    ensures c.args == PresentArgs(p)
    ensures c.argIdx == |c.parts| + 1
    ensures forall i :: 0 <= i < |c.parts| ==>
      c.parts[i] == PresentColumns(p)[i] + " = $" + Strconv.Itoa(i + 1)
  {
    var c0 := SetClause([], [], 1);
    var c1 := if p.name.Some? then AddColumn(c0, "name", StrArg(p.name.value)) else c0;
    var c2 := if p.age.Some? then AddColumn(c1, "age", IntArg(p.age.value)) else c1;
    if p.email.Some? then AddColumn(c2, "email", StrArg(p.email.value)) else c2
  }

  /** The UPDATE statement PatchUser sends, or None when it sends none. */
  function PatchStatement(p: PartialUser): (s: Option<Statement>)
    ensures s.None? <==> p.name.None? && p.age.None? && p.email.None?
    ensures s.Some? ==> s.value.args == PresentArgs(p) + [IntArg(p.id)]
    ensures s.Some? ==>
      var k := |PresentColumns(p)|;
      Strings.HasPrefix(s.value.query, "\n\tUPDATE users\n\tSET ")
      && s.value.query[|"\n\tUPDATE users\n\tSET "|..] ==
         Strings.Join(BuildSetClause(p).parts, ", ") + "\n\tWHERE id = $" + Strconv.Itoa(k + 1) + "\n"
  {
    var c := BuildSetClause(p);
    if |c.parts| == 0 then None
    else
      var head := "\n\tUPDATE users\n\tSET ";
      var rest := Strings.Join(c.parts, ", ") + "\n\tWHERE id = $" + Strconv.Itoa(c.argIdx) + "\n";
      Strings.PrefixSplit(head, rest);
      Some(Statement(head + rest, c.args + [IntArg(p.id)]))
  }

  /** The sample PATCH body updates only the e-mail, as `$1`, of row `$2`. */
  lemma SamplePatchStatement()
    ensures BuildSetClause(UpdatedUserPatch).parts == ["email = $1"]
    ensures BuildSetClause(UpdatedUserPatch).argIdx == 2
    ensures PatchStatement(UpdatedUserPatch).Some?
    ensures PatchStatement(UpdatedUserPatch).value.args == [StrArg("new@gmail.com"), IntArg(1)]
  {
    var p := UpdatedUserPatch;
    assert p == PartialUser(1, None, None, Some("new@gmail.com"), None, None);
    assert Strconv.Itoa(1) == "1";
    var c := AddColumn(SetClause([], [], 1), "email", StrArg("new@gmail.com"));
    assert c == BuildSetClause(p);
    assert "email" + " = $" + Strconv.Itoa(1) == "email = $1";
  }

  /** A body supplying all three columns numbers them 1, 2, 3 and the id 4. */
  lemma FullPatchStatement(id: int, name: string, age: int, email: string, hash: Option<string>, balance: Option<int>)
    ensures var p := PartialUser(id, Some(name), Some(age), Some(email), hash, balance);
      && BuildSetClause(p).parts == ["name = $1", "age = $2", "email = $3"]
      && BuildSetClause(p).argIdx == 4
      && PatchStatement(p).Some?
      && PatchStatement(p).value.args == [StrArg(name), IntArg(age), StrArg(email), IntArg(id)]
  {
    var p := PartialUser(id, Some(name), Some(age), Some(email), hash, balance);
    assert Strconv.Itoa(1) == "1" && Strconv.Itoa(2) == "2" && Strconv.Itoa(3) == "3";
    var c1 := AddColumn(SetClause([], [], 1), "name", StrArg(name));
    assert "name" + " = $" + Strconv.Itoa(1) == "name = $1";
    var c2 := AddColumn(c1, "age", IntArg(age));
    assert "age" + " = $" + Strconv.Itoa(2) == "age = $2";
    var c3 := AddColumn(c2, "email", StrArg(email));
    assert "email" + " = $" + Strconv.Itoa(3) == "email = $3";
    assert c3 == BuildSetClause(p);
  }

  /** The effect of the UPDATE on the row: the supplied columns change;
      password and balance are never part of the statement. */
  function ApplyPatch(row: Row, p: PartialUser): (r: Row)
    ensures r.name == p.name.GetOr(row.name)
    ensures r.age == p.age.GetOr(row.age)
    ensures r.email == p.email.GetOr(row.email)
    ensures r.role == row.role && r.hashedPassword == row.hashedPassword && r.balance == row.balance
  {
    row.(name := p.name.GetOr(row.name), age := p.age.GetOr(row.age), email := p.email.GetOr(row.email))
  }

  /** PatchUser. With nothing to set it returns GetUserByID's answer, and
      records, as is. An UPDATE that matches no row is not an error; the
      read-back is. */
  function PatchUser(log: Logger, st: Store, p: PartialUser): (o: Outcome<User>)
    ensures PatchStatement(p).None? ==> o == GetUserByID(log, st, p.id)
    ensures PatchStatement(p).Some? && p.id !in st.rows ==>
      && o.result.Failure?
      && o.result.error.text == "repository/PatchUser: " + NotFoundById(p.id).text
      && o.logs == GetUserByID(log, st, p.id).logs
                   + [LogEntry(log, Error, "user not found by ID",
                        [Field("error", Str(NotFoundById(p.id).text)), Field("component", Str("repository")), Field("event", Str("PatchUser"))])]
    ensures PatchStatement(p).Some? && p.id in st.rows && p.email.Some? && EmailHeldByOther(st.rows, p.email.value, p.id) ==>
      && o.result == Failure(Wrap("repository/PatchUser", UniqueViolation))
      && o.logs == [LogEntry(log, Error, "failed to update user",
                      [Field("error", Str(UniqueViolation.text)), Field("component", Str("repository")), Field("event", Str("PatchUser"))])]
    ensures o.result.Failure? ==> !o.result.error.noRows
    ensures o.result.Failure? ==> o.store == st
    ensures p.id !in st.rows ==> o.result.Failure? && o.store == st
    ensures o.result.Success? ==> p.id in st.rows
    ensures o.result.Success? ==>
      && o.store.rows == st.rows[p.id := ApplyPatch(st.rows[p.id], p)]
      && o.store.nextId == st.nextId
      && o.result.value == SelectedUser(p.id, o.store.rows[p.id])
      && o.logs == []
    ensures Valid(st) ==> Valid(o.store)
  {
    if PatchStatement(p).None? then GetUserByID(log, st, p.id)
    else if p.id in st.rows && p.email.Some? && EmailHeldByOther(st.rows, p.email.value, p.id) then
      Outcome(Failure(Wrap("repository/PatchUser", UniqueViolation)), st,
              [LogEntry(log, Error, "failed to update user", [Field("error", Str(UniqueViolation.text)), Field("component", Str("repository")), Field("event", Str("PatchUser"))])])
    else UpdateAndReread(log, st, p)
  }

  /** The UPDATE PatchUser sends once no other row holds the new e-mail,
      then the read-back. On a missing row the UPDATE changes nothing and
      the read-back fails, logged by GetUserByID and by PatchUser. */
  function UpdateAndReread(log: Logger, st: Store, p: PartialUser): (o: Outcome<User>)
    requires !(p.id in st.rows && p.email.Some? && EmailHeldByOther(st.rows, p.email.value, p.id))
    ensures p.id !in st.rows ==>
      && o.result.Failure? && !o.result.error.noRows && o.store == st
      && o.result.error.text == "repository/PatchUser: " + NotFoundById(p.id).text
      && o.logs == [LogEntry(log, Info, "user not found",
                       [Field("id", Num(p.id)), Field("component", Str("repository")), Field("event", Str("GetUserByID"))]),
                    LogEntry(log, Error, "user not found by ID",
                       [Field("error", Str(NotFoundById(p.id).text)), Field("component", Str("repository")), Field("event", Str("PatchUser"))])]
    ensures p.id in st.rows ==>
      && o.result.Success?
      && o.store.rows == st.rows[p.id := ApplyPatch(st.rows[p.id], p)]
      && o.store.nextId == st.nextId
      && o.result.value == SelectedUser(p.id, o.store.rows[p.id])
      && o.logs == []
    ensures Valid(st) ==> Valid(o.store)
  {
    var st' := if p.id in st.rows then st.(rows := st.rows[p.id := ApplyPatch(st.rows[p.id], p)]) else st;
    var back := GetUserByID(log, st', p.id);
    match back.result
    case Failure(e) =>
      Outcome(Failure(Wrap("repository/PatchUser", e)), st',
              back.logs + [LogEntry(log, Error, "user not found by ID", [Field("error", Str(e.text)), Field("component", Str("repository")), Field("event", Str("PatchUser"))])])
    case Success(u) => Outcome(Success(u), st', back.logs)
  }

  /** DeleteUser: an error, and an Info record naming the id, unless
      exactly the row `id` was removed. */
  function DeleteUser(log: Logger, st: Store, id: int): (o: Outcome<()>)
    ensures o.result.Success? <==> id in st.rows
    ensures o.result.Success? ==> o.store.rows == st.rows - {id} && o.store.nextId == st.nextId && o.logs == []
    ensures o.result.Failure? ==>
      && o.store == st && !o.result.error.noRows
      && o.logs == [LogEntry(log, Info, "user not found",
                      [Field("id", Num(id)), Field("component", Str("repository")), Field("event", Str("DeleteUser"))])]
    ensures Valid(st) ==> Valid(o.store)
  {
    if id in st.rows then Outcome(Success(()), st.(rows := st.rows - {id}), [])
    else Outcome(Failure(WrapNil("repository/DeleteUser")), st,
                 [LogEntry(log, Info, "user not found", [Field("id", Num(id)), Field("component", Str("repository")), Field("event", Str("DeleteUser"))])])
  }

  // ---------------------------------------------------------------------
  // Balance operations, run against the transaction's view of the table

  function SetBalance(st: Store, id: int, balance: int): Store
    requires id in st.rows
  {
    st.(rows := st.rows[id := st.rows[id].(balance := balance)])
  }

  /** WithdrawBalance: refuses when the balance is below the amount. A
      missing sender is an Error record, a poor one an Info record. */
  function WithdrawBalance(log: Logger, st: Store, sender: int, amount: int): (o: Outcome<()>)
    ensures o.result.Failure? ==> o.store == st
    ensures sender !in st.rows ==>
      && o.result.Failure? && o.result.error.noRows
      && o.logs == [LogEntry(log, Error, "user not found",
                      [Field("error", Str(ErrNoRows.text)), Field("id", Num(sender)),
                       Field("component", Str("repository")), Field("event", Str("WithdrawBalance"))])]
    ensures sender in st.rows ==> (o.result.Success? <==> st.rows[sender].balance >= amount)
    ensures sender in st.rows && st.rows[sender].balance < amount ==>
      && !o.result.error.noRows
      && o.logs == [LogEntry(log, Info, "user has no enough founds",
                      [Field("id", Num(sender)), Field("component", Str("repository")), Field("event", Str("WithdrawBalance"))])]
    ensures o.result.Success? ==> o.store == SetBalance(st, sender, st.rows[sender].balance - amount) && o.logs == []
    ensures o.result.Success? && Valid(st) ==> Valid(o.store)
  {
    if sender !in st.rows then
      Outcome(Failure(Wrap("repository/WithdrawBalance", ErrNoRows)), st,
              [LogEntry(log, Error, "user not found", [Field("error", Str(ErrNoRows.text)), Field("id", Num(sender)), Field("component", Str("repository")), Field("event", Str("WithdrawBalance"))])])
    else if st.rows[sender].balance < amount then
      Outcome(Failure(WrapNil("repository/WithdrawBalance: user has no enough founds")), st,
              [LogEntry(log, Info, "user has no enough founds", [Field("id", Num(sender)), Field("component", Str("repository")), Field("event", Str("WithdrawBalance"))])])
    else Outcome(Success(()), SetBalance(st, sender, st.rows[sender].balance - amount), [])
  }

  /** DepositBalance: fails, with an Error record, only when the receiver
      row does not exist. */
  function DepositBalance(log: Logger, st: Store, receiver: int, amount: int): (o: Outcome<()>)
    ensures o.result.Success? <==> receiver in st.rows
    ensures o.result.Failure? ==>
      && o.result.error.noRows && o.store == st
      && o.logs == [LogEntry(log, Error, "user not found",
                      [Field("error", Str(ErrNoRows.text)), Field("id", Num(receiver)),
                       Field("component", Str("repository")), Field("event", Str("DepositBalance"))])]
    ensures o.result.Success? ==> o.store == SetBalance(st, receiver, st.rows[receiver].balance + amount) && o.logs == []
    ensures o.result.Success? && Valid(st) ==> Valid(o.store)
  {
    if receiver !in st.rows then
      Outcome(Failure(Wrap("repository/DepositBalance", ErrNoRows)), st,
              [LogEntry(log, Error, "user not found", [Field("error", Str(ErrNoRows.text)), Field("id", Num(receiver)), Field("component", Str("repository")), Field("event", Str("DepositBalance"))])])
    else Outcome(Success(()), SetBalance(st, receiver, st.rows[receiver].balance + amount), [])
  }

  /** Sum of the balances of the rows with ids in [lo, hi). */
  function BalanceSum(rows: map<int, Row>, lo: int, hi: int): int
    decreases hi - lo
  {
    if lo >= hi then 0 else (if lo in rows then rows[lo].balance else 0) + BalanceSum(rows, lo + 1, hi)
  }

  /** Total money in the table. */
  function TotalBalance(st: Store): int {
    BalanceSum(st.rows, 1, st.nextId)
  }

  /** Changing one row's balance by d changes the sum over a range holding it by d. */
  lemma {:induction false} BalanceSumSet(rows: map<int, Row>, id: int, balance: int, lo: int, hi: int)
    requires id in rows
    ensures BalanceSum(rows[id := rows[id].(balance := balance)], lo, hi)
         == BalanceSum(rows, lo, hi) + (if lo <= id < hi then balance - rows[id].balance else 0)
    decreases hi - lo
  {
    if lo < hi {
      BalanceSumSet(rows, id, balance, lo + 1, hi);
    }
  }
}

=== FILE: roles.dfy ===
/** internal/middleware/roles.go: the two role gates. */
module Roles {
  import opened Json
  import opened Http
  import Auth

  const RoleAdmin: string := "admin"
  const RoleUser: string := "user"
  const RoleEditor: string := "editor"

  const ForbiddenMessage: string := "доступ запрещен, нужны повышенные права"

  /** `r.Context().Value("role").(string)`: the role when a string is stored
      under the plain key "role". */
  function RoleOf(ctx: Context): (role: Wrappers.Option<string>)
    ensures role.Some? <==> Auth.RoleKey in ctx && ctx[Auth.RoleKey].ClaimVal? && ctx[Auth.RoleKey].claim.JString?
    ensures role.Some? ==> ctx[Auth.RoleKey] == ClaimVal(JString(role.value))
  {
    if Auth.RoleKey in ctx && ctx[Auth.RoleKey].ClaimVal? && ctx[Auth.RoleKey].claim.JString?
    then Wrappers.Some(ctx[Auth.RoleKey].claim.s)
    else Wrappers.None
  }

  /** The shared shape of both gates: forward unchanged when the role is
      exactly `required`, otherwise 403 without calling next. */
  function Gate(required: string, next: Handler, env: Env, r: Request, w: World): (rep: Reply)
    ensures RoleOf(r.ctx) == Wrappers.Some(required) ==> rep == next(env, r, w)
    ensures RoleOf(r.ctx) != Wrappers.Some(required) ==>
      rep == Reject(ForbiddenMessage, StatusForbidden, w) && WireStatus(rep.events) == StatusForbidden
  {
    if RoleOf(r.ctx) != Wrappers.Some(required) then Reject(ForbiddenMessage, StatusForbidden, w)
    else next(env, r, w)
  }

  function AdminOnly(next: Handler): Handler {
    (env, r, w) => Gate(RoleAdmin, next, env, r, w)
  }

  function EditorOnly(next: Handler): Handler {
    (env, r, w) => Gate(RoleEditor, next, env, r, w)
  }

  /** AdminOnly forwards exactly when the role is the string "admin";
      EditorOnly exactly when it is "editor". */
  lemma GatesForwardIff(next: Handler, env: Env, r: Request, w: World)
    ensures RoleOf(r.ctx) == Wrappers.Some(RoleAdmin) ==> AdminOnly(next)(env, r, w) == next(env, r, w)
    ensures RoleOf(r.ctx) == Wrappers.Some(RoleEditor) ==> EditorOnly(next)(env, r, w) == next(env, r, w)
    ensures RoleOf(r.ctx) != Wrappers.Some(RoleAdmin) ==>
      WireStatus(AdminOnly(next)(env, r, w).events) == StatusForbidden && AdminOnly(next)(env, r, w).world == w
    ensures RoleOf(r.ctx) != Wrappers.Some(RoleEditor) ==>
      WireStatus(EditorOnly(next)(env, r, w).events) == StatusForbidden && EditorOnly(next)(env, r, w).world == w
  {
  }

  /** An absent role, a null role, a non-string role and RoleUser pass
      neither gate. */
  lemma NoStringRoleRejected(next: Handler, env: Env, r: Request, w: World)
    requires Auth.RoleKey !in r.ctx || r.ctx[Auth.RoleKey] == ClaimVal(JNull)
      || r.ctx[Auth.RoleKey] == ClaimVal(JString(RoleUser))
      || (r.ctx[Auth.RoleKey].ClaimVal? && !r.ctx[Auth.RoleKey].claim.JString?)
    ensures AdminOnly(next)(env, r, w) == Reject(ForbiddenMessage, StatusForbidden, w)
    ensures EditorOnly(next)(env, r, w) == Reject(ForbiddenMessage, StatusForbidden, w)
  {
  }

  /** Stacked in either order, the two gates let no request through: the
      answer is the 403 whatever next would do. */
  lemma StackedGatesUnsatisfiable(next: Handler, env: Env, r: Request, w: World)
    ensures AdminOnly(EditorOnly(next))(env, r, w) == Reject(ForbiddenMessage, StatusForbidden, w)
    ensures EditorOnly(AdminOnly(next))(env, r, w) == Reject(ForbiddenMessage, StatusForbidden, w)
  {
    if RoleOf(r.ctx) == Wrappers.Some(RoleAdmin) {
      assert EditorOnly(next)(env, r, w) == Reject(ForbiddenMessage, StatusForbidden, w);
    }
    if RoleOf(r.ctx) == Wrappers.Some(RoleEditor) {
      assert AdminOnly(next)(env, r, w) == Reject(ForbiddenMessage, StatusForbidden, w);
    }
  }
}

=== FILE: server.dfy ===
/** The router of SetupRoutes and the middleware pipeline of StartServer in
    internal/server/server.go.

    The router is the part of gorilla/mux the service relies on: routes are
    tried in order, a route matches when its path pattern and its method do,
    a request whose path some route accepts but whose method none does gets
    405, anything else 404. The protected subrouter only admits the methods
    of its own routes, so its routes can be listed first, each behind the
    three middlewares the subrouter installs. */
module Server {
  import opened Wrappers
  import opened Logs
  import opened Http
  import Strings
  import Registry
  import Handlers
  import Auth
  import Roles
  import WithLogger
  import Recover
  import MidLog
  import Cors
  import DefaultHeaders
  import RateLimiter

  // -------------------------------------------------------------------
  // Path patterns

  /** A literal path, a literal prefix followed by the `{id}` variable, or a
      path prefix (`PathPrefix`). */
  datatype Pattern = Literal(path: string) | IdUnder(prefix: string) | Under(prefix: string)

  /** What mux's default `{id}` pattern `[^/]+` accepts. */
  predicate IsSegment(s: string) {
    s != [] && forall i :: 0 <= i < |s| ==> s[i] != '/'
  }

  /** The path variables of a matching path, or None. */
  function PathVars(p: Pattern, path: string): (vars: Option<map<string, string>>)
    ensures p.Literal? ==> (vars.Some? <==> path == p.path) && (vars.Some? ==> vars.value == map[])
    ensures p.Under? ==> (vars.Some? <==> Strings.HasPrefix(path, p.prefix)) && (vars.Some? ==> vars.value == map[])
    ensures p.IdUnder? && vars.Some? ==>
      && vars.value.Keys == {"id"} && IsSegment(vars.value["id"]) && path == p.prefix + vars.value["id"]
  {
    match p
    case Literal(s) => if path == s then Some(map[]) else None
    case Under(s) => if Strings.HasPrefix(path, s) then Some(map[]) else None
    case IdUnder(s) =>
      if Strings.HasPrefix(path, s) && IsSegment(path[|s|..]) then
        assert path == s + path[|s|..];
        Some(map["id" := path[|s|..]])
      else None
  }

  /** Every segment after the prefix is matched and read back as `id`. */
  lemma IdSegmentRoundTrip(prefix: string, id: string)
    requires IsSegment(id)
    ensures PathVars(IdUnder(prefix), prefix + id) == Some(map["id" := id])
  {
    assert (prefix + id)[..|prefix|] == prefix;
    assert (prefix + id)[|prefix|..] == id;
  }

  // -------------------------------------------------------------------
  // The route table

  datatype Target =
    | ReadyPage | UserList | UserById | CurrentUser | Registration | SignIn
    | CreateUser | ReplaceUser | ModifyUser | RemoveUser | Docs

  /** A route: its method (None for any), its pattern, its handler, and
      whether it sits in the protected subrouter. */
  datatype Route = Route(verb: Option<string>, pattern: Pattern, target: Target, guarded: bool)

  const Routes: seq<Route> := [
    Route(Some(MethodPost), Literal("/users"), CreateUser, true),
    Route(Some(MethodPut), IdUnder("/users/"), ReplaceUser, true),
    Route(Some(MethodPatch), IdUnder("/users/"), ModifyUser, true),
    Route(Some(MethodDelete), IdUnder("/users/"), RemoveUser, true),
    Route(Some(MethodGet), Literal("/ready"), ReadyPage, false),
    Route(Some(MethodGet), Literal("/users"), UserList, false),
    Route(Some(MethodGet), IdUnder("/users/"), UserById, false),
    Route(Some(MethodGet), Literal("/me"), CurrentUser, false),
    Route(Some(MethodPost), Literal("/register"), Registration, false),
    Route(Some(MethodPost), Literal("/login"), SignIn, false),
    Route(None, Under("/swagger/"), Docs, false)
  ]

  /** Each handler is mounted once, and the protected subrouter holds
      exactly the four writes: POST /users and PUT, PATCH, DELETE
      /users/{id}. */
  lemma RouteTable()
    ensures |Routes| == 11
    ensures forall i, j :: 0 <= i < j < |Routes| ==> Routes[i].target != Routes[j].target
    ensures forall i :: 0 <= i < |Routes| ==>
      (Routes[i].guarded <==> Routes[i].target in {CreateUser, ReplaceUser, ModifyUser, RemoveUser})
    ensures forall i :: 0 <= i < |Routes| && Routes[i].guarded ==>
      Routes[i].verb.Some? && Routes[i].verb.value != MethodGet
      && (Routes[i].pattern == Literal("/users") || Routes[i].pattern == IdUnder("/users/"))
  {
  }

  predicate Matches(rt: Route, r: Request) {
    (rt.verb.None? || rt.verb.value == r.verb) && PathVars(rt.pattern, r.path).Some?
  }

  /** Some route accepts the path, whatever its method. */
  predicate PathKnown(path: string) {
    exists j :: 0 <= j < |Routes| && PathVars(Routes[j].pattern, path).Some?
  }

  /** The index of the first route that matches. */
  function FirstMatch(routes: seq<Route>, r: Request): (i: Option<nat>)
    ensures i.Some? ==> i.value < |routes| && Matches(routes[i.value], r)
    ensures i.Some? ==> forall j :: 0 <= j < i.value ==> !Matches(routes[j], r)
    ensures i.None? <==> forall j :: 0 <= j < |routes| ==> !Matches(routes[j], r)
    decreases |routes|
  {
    if |routes| == 0 then None
    else if Matches(routes[0], r) then Some(0)
    else
      var rest := FirstMatch(routes[1..], r);
      assert forall j :: 1 <= j < |routes| ==> routes[j] == routes[1..][j - 1];
      match rest
      case Some(k) => Some(k + 1)
      case None => None
  }

  /** No request matches two routes, so the order of the table decides
      nothing. */
  lemma RoutesDisjoint(r: Request)
    ensures forall i, j :: 0 <= i < j < |Routes| ==> !(Matches(Routes[i], r) && Matches(Routes[j], r))
  {
    var p := r.path;
    var literal := p == "/users" || p == "/ready" || p == "/me" || p == "/register" || p == "/login";
    var byId := PathVars(IdUnder("/users/"), p).Some?;
    var docs := Strings.HasPrefix(p, "/swagger/");
    if docs {
      assert p[..9] == "/swagger/";
      assert p[1] == 's' && |p| >= 9;
      assert !literal && !byId;
    }
    if byId {
      assert p[..7] == "/users/";
      assert p[1] == 'u' && |p| > 7;
      assert !literal;
    }
  }

  /** The route a request matches is the one the router picks. */
  lemma RouteChosen(r: Request, i: nat)
    requires i < |Routes| && Matches(Routes[i], r)
    ensures FirstMatch(Routes, r) == Some(i)
  {
    RoutesDisjoint(r);
  }

  function Endpoint(t: Target): Handler {
    match t
    case ReadyPage => Handlers.Ready
    case UserList => Handlers.GetUsers
    case UserById => Handlers.GetUserById
    case CurrentUser => Handlers.Me
    case Registration => Handlers.Register
    case SignIn => Handlers.Login
    case CreateUser => Handlers.PostUser
    case ReplaceUser => Handlers.PutUser
    case ModifyUser => Handlers.PatchUser
    case RemoveUser => Handlers.DeleteUser
    case Docs => (env: Env, r: Request, w: World) => Respond(env.swagger(r), w)
  }

  /** The subrouter's middlewares, the first one installed outermost. */
  function Protect(h: Handler): Handler {
    Auth.Stage(Roles.AdminOnly(Roles.EditorOnly(h)))
  }

  function Mount(rt: Route): Handler {
    if rt.guarded then Protect(Endpoint(rt.target)) else Endpoint(rt.target)
  }

  /** The router: the first matching route with its path variables set; 405
      (a bare status) when only the method is wrong; 404 otherwise. */
  function Dispatch(env: Env, r: Request, w: World): (rep: Reply)
    ensures FirstMatch(Routes, r).None? && PathKnown(r.path) ==> rep.events == [WriteHeader(StatusMethodNotAllowed)]
    ensures FirstMatch(Routes, r).None? && !PathKnown(r.path) ==> WireStatus(rep.events) == StatusNotFound
    ensures FirstMatch(Routes, r).None? ==> rep.world == w && rep.logs == [] && !rep.panicked
  {
    match FirstMatch(Routes, r)
    case Some(i) => Mount(Routes[i])(env, r.(vars := PathVars(Routes[i].pattern, r.path).value), w)
    case None =>
      if PathKnown(r.path) then Respond([WriteHeader(StatusMethodNotAllowed)], w)
      else Reject("404 page not found", StatusNotFound, w)
  }

  const Router: Handler := (env: Env, r: Request, w: World) => Dispatch(env, r, w)

  /** Behind the subrouter's middlewares a handler is never reached: the
      answer is the authenticator's 401 or the gates' 403. */
  lemma ProtectRefuses(h: Handler, env: Env, r: Request, w: World)
    ensures var rep := Protect(h)(env, r, w);
      && (WireStatus(rep.events) == StatusUnauthorized || WireStatus(rep.events) == StatusForbidden)
      && rep.world == w && !rep.panicked
  {
    var gated := Roles.AdminOnly(Roles.EditorOnly(h));
    assert Protect(h)(env, r, w) == Auth.Serve(gated, env, r, w);
    match Auth.Check(env, r)
    case Failure(_) =>
    case Success((id, role)) =>
      Roles.StackedGatesUnsatisfiable(h, env, Auth.Forwarded(r, id, role), w);
  }

  /** A guarded route refuses every request, with 401 or 403, and never
      reaches its handler: the two role gates cannot both pass. */
  lemma GuardedRouteRefuses(env: Env, r: Request, w: World)
    requires FirstMatch(Routes, r).Some? && Routes[FirstMatch(Routes, r).value].guarded
    ensures var rep := Dispatch(env, r, w);
      && (WireStatus(rep.events) == StatusUnauthorized || WireStatus(rep.events) == StatusForbidden)
      && rep.world == w && !rep.panicked
  {
    var i := FirstMatch(Routes, r).value;
    var rt := Routes[i];
    var r' := r.(vars := PathVars(rt.pattern, r.path).value);
    var h := Endpoint(rt.target);
    assert Mount(rt) == Protect(h);
    assert Dispatch(env, r, w) == Protect(h)(env, r', w);
    ProtectRefuses(h, env, r', w);
  }

  /** The guarded routes are exactly the writes on /users and /users/{id}. */
  lemma GuardedRoutesAreWrites(r: Request)
    requires FirstMatch(Routes, r).Some?
    ensures Routes[FirstMatch(Routes, r).value].guarded <==>
      || (r.verb == MethodPost && r.path == "/users")
      || ((r.verb == MethodPut || r.verb == MethodPatch || r.verb == MethodDelete)
          && PathVars(IdUnder("/users/"), r.path).Some?)
  {
    var i := FirstMatch(Routes, r).value;
    assert Matches(Routes[i], r);
    if r.verb == MethodPost && r.path == "/users" {
      assert Matches(Routes[0], r);
    } else if r.verb == MethodPut && PathVars(IdUnder("/users/"), r.path).Some? {
      assert Matches(Routes[1], r);
    } else if r.verb == MethodPatch && PathVars(IdUnder("/users/"), r.path).Some? {
      assert Matches(Routes[2], r);
    } else if r.verb == MethodDelete && PathVars(IdUnder("/users/"), r.path).Some? {
      assert Matches(Routes[3], r);
    }
  }

  // -------------------------------------------------------------------
  // The middleware pipeline

  datatype StageName = RequestLogger | PanicRecovery | RequestLog | CrossOrigin | SecurityHeaders | RateLimit

  /** The order in which StartServer wraps the router: each stage wraps the
      handler built so far, so the last one is outermost. */
  const WrapOrder: seq<StageName> := [RequestLogger, PanicRecovery, RequestLog, CrossOrigin, SecurityHeaders, RateLimit]

  function Apply(s: StageName, base: Logger, h: Handler): Handler {
    match s
    case RequestLogger => WithLogger.Stage(base, h)
    case PanicRecovery => Recover.Stage(h)
    case RequestLog => MidLog.Stage(h)
    case CrossOrigin => Cors.Stage(h)
    case SecurityHeaders => DefaultHeaders.Stage(h)
    case RateLimit => RateLimiter.Stage(h)
  }

  /** `handler = stage(handler)` for each stage in turn. */
  function Assemble(order: seq<StageName>, base: Logger, h: Handler): Handler
    decreases |order|
  {
    if |order| == 0 then h else Assemble(order[1..], base, Apply(order[0], base, h))
  }

  /** The stages listed outermost first. */
  function Nest(outermostFirst: seq<StageName>, base: Logger, h: Handler): Handler
    decreases |outermostFirst|
  {
    if |outermostFirst| == 0 then h else Apply(outermostFirst[0], base, Nest(outermostFirst[1..], base, h))
  }

  function Reverse<T>(s: seq<T>): (r: seq<T>)
    ensures |r| == |s| && forall i :: 0 <= i < |s| ==> r[i] == s[|s| - 1 - i]
    decreases |s|
  {
    if |s| == 0 then [] else Reverse(s[1..]) + [s[0]]
  }

  lemma {:induction false} NestSnoc(xs: seq<StageName>, s: StageName, base: Logger, h: Handler)
    ensures Nest(xs + [s], base, h) == Nest(xs, base, Apply(s, base, h))
    decreases |xs|
  {
    if |xs| > 0 {
      assert (xs + [s])[1..] == xs[1..] + [s];
      NestSnoc(xs[1..], s, base, h);
    } else {
      assert [s][1..] == [];
    }
  }

  /** Wrapping stage by stage puts the last stage outermost. */
  lemma {:induction false} AssembleIsNest(order: seq<StageName>, base: Logger, h: Handler)
    ensures Assemble(order, base, h) == Nest(Reverse(order), base, h)
    decreases |order|
  {
    if |order| > 0 {
      AssembleIsNest(order[1..], base, Apply(order[0], base, h));
      NestSnoc(Reverse(order[1..]), order[0], base, h);
    }
  }

  /** The server's handler for the given base logger. */
  function Serving(base: Logger): Handler {
    Assemble(WrapOrder, base, Router)
  }

  /** The rate limiter sees every request first and the request logger last,
      just before the router. */
  lemma ServingShape(base: Logger)
    ensures Serving(base) ==
      RateLimiter.Stage(DefaultHeaders.Stage(Cors.Stage(MidLog.Stage(Recover.Stage(WithLogger.Stage(base, Router))))))
  {
    AssembleIsNest(WrapOrder, base, Router);
    assert Reverse(WrapOrder) == OutermostFirst;
    NestOutermostFirst(base);
  }

  /** The stages from the outside in. */
  const OutermostFirst: seq<StageName> := [RateLimit, SecurityHeaders, CrossOrigin, RequestLog, PanicRecovery, RequestLogger]

  lemma NestOutermostFirst(base: Logger)
    ensures Nest(OutermostFirst, base, Router) ==
      RateLimiter.Stage(DefaultHeaders.Stage(Cors.Stage(MidLog.Stage(Recover.Stage(WithLogger.Stage(base, Router))))))
  {
  }

  // -------------------------------------------------------------------
  // Whole requests

  /** The limiter that judges a request whose address splits. */
  function LimiterOf(env: Env, r: Request, w: World): Registry.Limiter
    requires env.splitHost(r.remoteAddr).Success?
  {
    Registry.GetLimiter(w.registry, env.splitHost(r.remoteAddr).value, env.now).0
  }

  /** The router's reply to an admitted request, as the inner stages see it. */
  function Routed(base: Logger, env: Env, r: Request, w: World): Reply
    requires env.splitHost(r.remoteAddr).Success?
  {
    var reg := Registry.GetLimiter(w.registry, env.splitHost(r.remoteAddr).value, env.now).1;
    Dispatch(env, WithLogger.Bind(base, r, env.newUuid), w.(registry := reg))
  }

  /** A refused request gets the bare 429 answer: no default headers, no
      completion record, and its one record goes to the no-op logger, since
      the request logger is bound further in. */
  lemma ThrottledRequest(base: Logger, env: Env, r: Request, w: World)
    requires r.ctx == map[]
    requires env.splitHost(r.remoteAddr).Success? && !env.allow(LimiterOf(env, r, w))
    ensures var rep := Serving(base)(env, r, w);
      && rep.events == RateLimiter.TooManyEvents()
      && WireStatus(rep.events) == StatusTooManyRequests
      && |rep.logs| == 1 && rep.logs[0].logger == Nop && rep.logs[0].msg == "too many requests"
      && rep.world.store == w.store
  {
    ServingShape(base);
  }

  /** The three stages inside the CORS stage, on an admitted request: the
      router's answer, a panic turned into 500, then the completion record
      with the logger of the request as MidLog receives it. */
  lemma InnerStages(base: Logger, env: Env, r: Request, w: World)
    ensures var rep := MidLog.Stage(Recover.Stage(WithLogger.Stage(base, Router)))(env, r, w);
      var inner := Dispatch(env, WithLogger.Bind(base, r, env.newUuid), w);
      && rep.world == inner.world && !rep.panicked
      && (!inner.panicked ==> rep.events == inner.events)
      && (inner.panicked ==> rep.events == inner.events + ErrorEvents(Recover.PanicMessage, StatusInternalServerError))
      && |rep.logs| > 0
      && rep.logs[|rep.logs| - 1] == MidLog.Completed(WithLogger.LoggerFromContext(r.ctx), MidLog.CapturedStatus(rep.events), r, env.elapsed)
  {
    var h1 := WithLogger.Stage(base, Router);
    var inner := Dispatch(env, WithLogger.Bind(base, r, env.newUuid), w);
    assert h1(env, r, w) == inner;
    var rec := Recover.Stage(h1)(env, r, w);
    assert rec == Recover.Serve(h1, env, r, w);
    assert MidLog.Stage(Recover.Stage(h1))(env, r, w) == MidLog.Serve(Recover.Stage(h1), env, r, w);
  }

  /** The three outer stages on an admitted request that is not a
      preflight: the default headers, then whatever is inside. */
  lemma OuterStages(h: Handler, env: Env, r: Request, w: World)
    requires env.splitHost(r.remoteAddr).Success? && env.allow(LimiterOf(env, r, w))
    requires !Cors.IsPreflight(r)
    ensures var w1 := w.(registry := Registry.GetLimiter(w.registry, env.splitHost(r.remoteAddr).value, env.now).1);
      RateLimiter.Stage(DefaultHeaders.Stage(Cors.Stage(h)))(env, r, w) == Prepend(DefaultHeaders.Events(), h(env, r, w1))
  {
    var w1 := w.(registry := Registry.GetLimiter(w.registry, env.splitHost(r.remoteAddr).value, env.now).1);
    var h5 := DefaultHeaders.Stage(Cors.Stage(h));
    assert RateLimiter.Stage(h5)(env, r, w) == h5(env, r, w1);
    assert Cors.Stage(h)(env, r, w1) == h(env, r, w1);
  }

  /** An admitted request that is not a preflight: the six default headers,
      then the router's answer (a panic turned into 500), and last the
      completion record, which goes to the no-op logger since the request
      logger is bound further in. */
  lemma AdmittedRequest(base: Logger, env: Env, r: Request, w: World)
    requires r.ctx == map[]
    requires env.splitHost(r.remoteAddr).Success? && env.allow(LimiterOf(env, r, w))
    requires !Cors.IsPreflight(r)
    ensures var rep := Serving(base)(env, r, w);
      var inner := Routed(base, env, r, w);
      var answer := if inner.panicked then inner.events + ErrorEvents(Recover.PanicMessage, StatusInternalServerError)
                    else inner.events;
      && rep.world == inner.world && !rep.panicked
      && rep.events == DefaultHeaders.Events() + answer
      && (!inner.panicked ==> WireStatus(rep.events) == WireStatus(inner.events))
      && |rep.logs| > 0
      && rep.logs[|rep.logs| - 1] == MidLog.Completed(Nop, MidLog.CapturedStatus(answer), r, env.elapsed)
  {
    ServingShape(base);
    var ip := env.splitHost(r.remoteAddr).value;
    var w1 := w.(registry := Registry.GetLimiter(w.registry, ip, env.now).1);
    var h3 := MidLog.Stage(Recover.Stage(WithLogger.Stage(base, Router)));
    OuterStages(h3, env, r, w);
    InnerStages(base, env, r, w1);
    var mid := h3(env, r, w1);
    var rep := Serving(base)(env, r, w);
    assert rep == Prepend(DefaultHeaders.Events(), mid);
    if !Routed(base, env, r, w).panicked {
      WireStatusAfterNoCommit(DefaultHeaders.Events(), mid.events);
    }
  }

  /** A preflight is answered with 204 after the default headers, before the
      completion log, which it never reaches. */
  lemma PreflightRequest(base: Logger, env: Env, r: Request, w: World)
    requires r.ctx == map[]
    requires env.splitHost(r.remoteAddr).Success? && env.allow(LimiterOf(env, r, w))
    requires Cors.IsPreflight(r)
    ensures var rep := Serving(base)(env, r, w);
      && rep.events == DefaultHeaders.Events() + [WriteHeader(StatusNoContent)]
      && WireStatus(rep.events) == StatusNoContent
      && rep.logs == [] && rep.world.store == w.store
  {
    ServingShape(base);
    PreflightStages(MidLog.Stage(Recover.Stage(WithLogger.Stage(base, Router))), env, r, w);
    WireStatusAfterNoCommit(DefaultHeaders.Events(), [WriteHeader(StatusNoContent)]);
  }

  /** The three outer stages on an admitted preflight: the default headers,
      then the CORS stage's bare 204; nothing inside is called. */
  lemma PreflightStages(h: Handler, env: Env, r: Request, w: World)
    requires env.splitHost(r.remoteAddr).Success? && env.allow(LimiterOf(env, r, w))
    requires Cors.IsPreflight(r)
    ensures var w1 := w.(registry := Registry.GetLimiter(w.registry, env.splitHost(r.remoteAddr).value, env.now).1);
      RateLimiter.Stage(DefaultHeaders.Stage(Cors.Stage(h)))(env, r, w) ==
        Prepend(DefaultHeaders.Events(), Respond([WriteHeader(StatusNoContent)], w1))
  {
    var w1 := w.(registry := Registry.GetLimiter(w.registry, env.splitHost(r.remoteAddr).value, env.now).1);
    var h5 := DefaultHeaders.Stage(Cors.Stage(h));
    assert RateLimiter.Stage(h5)(env, r, w) == h5(env, r, w1);
    assert Cors.Stage(h)(env, r, w1) == Respond([WriteHeader(StatusNoContent)], w1);
  }

  /** The router sends each write on /users or /users/{id} to a guarded
      route, which refuses it. */
  lemma WriteRouted(base: Logger, env: Env, r: Request, w: World)
    requires (r.verb == MethodPost && r.path == "/users")
      || ((r.verb == MethodPut || r.verb == MethodPatch || r.verb == MethodDelete)
          && PathVars(IdUnder("/users/"), r.path).Some?)
    ensures var inner := Dispatch(env, WithLogger.Bind(base, r, env.newUuid), w);
      && (WireStatus(inner.events) == StatusUnauthorized || WireStatus(inner.events) == StatusForbidden)
      && inner.world == w && !inner.panicked
  {
    var r' := WithLogger.Bind(base, r, env.newUuid);
    assert r'.verb == r.verb && r'.path == r.path;
    WriteDispatched(env, r', w);
  }

  /** A write on /users or /users/{id} matches one of the guarded routes. */
  lemma WriteDispatched(env: Env, r: Request, w: World)
    requires (r.verb == MethodPost && r.path == "/users")
      || ((r.verb == MethodPut || r.verb == MethodPatch || r.verb == MethodDelete)
          && PathVars(IdUnder("/users/"), r.path).Some?)
    ensures var rep := Dispatch(env, r, w);
      && (WireStatus(rep.events) == StatusUnauthorized || WireStatus(rep.events) == StatusForbidden)
      && rep.world == w && !rep.panicked
  {
    var i := if r.verb == MethodPost then 0 else if r.verb == MethodPut then 1 else if r.verb == MethodPatch then 2 else 3;
    assert Matches(Routes[i], r);
    RouteChosen(r, i);
    GuardedRouteRefuses(env, r, w);
  }

  /** Every write to the users table through the server is refused: POST
      /users and PUT, PATCH, DELETE on /users/{id} answer 401 or 403 and
      leave the table as it was. */
  lemma WritesRefused(base: Logger, env: Env, r: Request, w: World)
    requires r.ctx == map[]
    requires env.splitHost(r.remoteAddr).Success? && env.allow(LimiterOf(env, r, w))
    requires (r.verb == MethodPost && r.path == "/users")
      || ((r.verb == MethodPut || r.verb == MethodPatch || r.verb == MethodDelete)
          && PathVars(IdUnder("/users/"), r.path).Some?)
    ensures var rep := Serving(base)(env, r, w);
      && (WireStatus(rep.events) == StatusUnauthorized || WireStatus(rep.events) == StatusForbidden)
      && rep.world.store == w.store
  {
    var w1 := w.(registry := Registry.GetLimiter(w.registry, env.splitHost(r.remoteAddr).value, env.now).1);
    WriteRouted(base, env, r, w1);
    assert !Cors.IsPreflight(r);
    AdmittedRequest(base, env, r, w);
  }

  /** The router sends GET /me to the context lookup, which finds no id. */
  lemma MeRouted(base: Logger, env: Env, r: Request, w: World)
    requires r.ctx == map[] && r.verb == MethodGet && r.path == "/me"
    ensures var inner := Dispatch(env, WithLogger.Bind(base, r, env.newUuid), w);
      !inner.panicked && WireStatus(inner.events) == StatusInternalServerError && inner.world == w
  {
    var r' := WithLogger.Bind(base, r, env.newUuid);
    assert r'.ctx.Keys == {LoggerKey};
    MeDispatched(env, r', w);
  }

  /** /me is routed to its handler, which finds no user id in a context
      that lacks one. */
  lemma MeDispatched(env: Env, r: Request, w: World)
    requires r.verb == MethodGet && r.path == "/me" && Auth.UserIdKey !in r.ctx
    ensures var inner := Dispatch(env, r, w);
      !inner.panicked && WireStatus(inner.events) == StatusInternalServerError && inner.world == w
  {
    assert Matches(Routes[7], r);
    RouteChosen(r, 7);
    var r' := r.(vars := map[]);
    assert Mount(Routes[7]) == Handlers.Me;
    assert Dispatch(env, r, w) == Handlers.Me(env, r', w);
    assert !Auth.GetUserIdFromContext(r').1;
  }

  /** GET /me through the server always fails with 500: the authenticator
      that would put the user id in the context is not on its route. */
  lemma MeRequestFails(base: Logger, env: Env, r: Request, w: World)
    requires r.ctx == map[] && r.verb == MethodGet && r.path == "/me"
    requires env.splitHost(r.remoteAddr).Success? && env.allow(LimiterOf(env, r, w))
    ensures var rep := Serving(base)(env, r, w);
      WireStatus(rep.events) == StatusInternalServerError && rep.world.store == w.store
  {
    var w1 := w.(registry := Registry.GetLimiter(w.registry, env.splitHost(r.remoteAddr).value, env.now).1);
    MeRouted(base, env, r, w1);
    assert !Cors.IsPreflight(r);
    AdmittedRequest(base, env, r, w);
  }
}

=== FILE: service.dfy ===
/** internal/service/service.go: moving money between two users inside one
    database transaction.

    The transaction is a copy of the table that the withdraw and the deposit
    work on; committing publishes the copy, rolling back drops it. The three
    calls whose failure depends on the database server rather than on the
    data (Begin, Commit, Rollback) are parameters of the model. */
module Service {
  import opened Wrappers
  import opened Logs
  import opened Repository
  import Strings

  const Op: string := "users.service"

  /** What the transfer asked the database to do, in order. */
  datatype Step = Begin | Withdraw | Deposit | Commit | Rollback

  /** The database server's answers to the calls the data cannot decide:
      Begin, Commit, and the Rollback after a failed withdraw or deposit. */
  datatype Faults = Faults(begin: Option<StoreError>, commit: Option<StoreError>, rollback: Option<StoreError>)

  /** The outcome of TransferFunds: its error, the calls made, the table
      after it, and the records of the repository's and the service's
      loggers, in order. */
  datatype Transfer = Transfer(err: Option<StoreError>, steps: seq<Step>, store: Store, logs: seq<LogEntry>)

  /** `sql.ErrTxDone`: what Rollback answers once Commit has been called,
      whether or not the commit succeeded. */
  const ErrTxDone: StoreError := StoreError("sql: transaction has already been committed or rolled back", false)

  /** The service's record of a failed rollback. */
  function RollbackRecords(rollback: Option<StoreError>, log: Logger): (logs: seq<LogEntry>)
    ensures rollback.None? <==> logs == []
    ensures rollback.Some? ==>
      logs == [LogEntry(log, Error, "rollback transaction error",
                 [Field("error", Str(rollback.value.text)), Field("component", Str("service")), Field("event", Str("TransferFunds"))])]
  {
    match rollback
    case Some(rb) => [LogEntry(log, Error, "rollback transaction error",
                        [Field("error", Str(rb.text)), Field("component", Str("service")), Field("event", Str("TransferFunds"))])]
    case None => []
  }

  /** The deferred function: rolls back when the transfer is failing, and
      only logs a failed rollback, after whatever the repository logged. */
  function Finish(st: Store, err: StoreError, steps: seq<Step>, rollback: Option<StoreError>,
                  repoLogs: seq<LogEntry>, log: Logger): (t: Transfer)
    ensures t.err == Some(err) && t.store == st && t.steps == steps + [Rollback]
    ensures t.logs == repoLogs + RollbackRecords(rollback, log)
  {
    Transfer(Some(err), steps + [Rollback], st, repoLogs + RollbackRecords(rollback, log))
  }

  /** `fmt.Errorf("users.service.TransferFunds: <what>: %w", e)` */
  function Fail(what: string, e: StoreError): (f: StoreError)
    ensures f.noRows == e.noRows
    ensures Strings.HasPrefix(f.text, Op + ".TransferFunds: " + what + ": ")
  {
    Wrap(Op + ".TransferFunds: " + what, e)
  }

  /** The sender exists and can pay. */
  predicate CanWithdraw(st: Store, sender: int, amount: int) {
    sender in st.rows && st.rows[sender].balance >= amount
  }

  /** The data lets the transfer through: the sender can pay and the
      receiver exists. */
  predicate Feasible(st: Store, sender: int, receiver: int, amount: int) {
    CanWithdraw(st, sender, amount) && receiver in st.rows
  }

  /** The table after a committed transfer. */
  function Moved(st: Store, sender: int, receiver: int, amount: int): Store
    requires Feasible(st, sender, receiver, amount)
  {
    var tx1 := SetBalance(st, sender, st.rows[sender].balance - amount);
    SetBalance(tx1, receiver, tx1.rows[receiver].balance + amount)
  }

  /** TransferFunds(sender, receiver, amount) of a service whose repository
      logs to `repoLog` and which logs to `log` itself. */
  function TransferFunds(st: Store, sender: int, receiver: int, amount: int, faults: Faults,
                         repoLog: Logger, log: Logger): (t: Transfer)
    ensures faults.begin.Some? ==>
      t.steps == [Begin] && t.store == st && t.logs == [] && t.err == Some(Fail("begin transaction error", faults.begin.value))
    ensures t.err.None? <==> faults.begin.None? && faults.commit.None? && Feasible(st, sender, receiver, amount)
    ensures t.err.None? ==>
      && t.steps == [Begin, Withdraw, Deposit, Commit]
      && t.store == Moved(st, sender, receiver, amount)
      && t.logs == []
    ensures t.err.Some? ==> t.store == st
    ensures faults.begin.None? && t.err.Some? ==> |t.steps| >= 2 && t.steps[|t.steps| - 1] == Rollback
    // a refused withdraw: the repository's record, then the rollback's
    ensures faults.begin.None? && sender !in st.rows ==>
      t.logs == [LogEntry(repoLog, Error, "user not found",
                   [Field("error", Str(ErrNoRows.text)), Field("id", Num(sender)),
                    Field("component", Str("repository")), Field("event", Str("WithdrawBalance"))])]
                + RollbackRecords(faults.rollback, log)
    ensures faults.begin.None? && sender in st.rows && st.rows[sender].balance < amount ==>
      t.logs == [LogEntry(repoLog, Info, "user has no enough founds",
                   [Field("id", Num(sender)), Field("component", Str("repository")), Field("event", Str("WithdrawBalance"))])]
                + RollbackRecords(faults.rollback, log)
    // a refused deposit
    ensures faults.begin.None? && CanWithdraw(st, sender, amount) && receiver !in st.rows ==>
      t.logs == [LogEntry(repoLog, Error, "user not found",
                   [Field("error", Str(ErrNoRows.text)), Field("id", Num(receiver)),
                    Field("component", Str("repository")), Field("event", Str("DepositBalance"))])]
                + RollbackRecords(faults.rollback, log)
    // a failed commit: the deferred Rollback always answers ErrTxDone
    ensures faults.begin.None? && Feasible(st, sender, receiver, amount) && faults.commit.Some? ==>
      t.logs == RollbackRecords(Some(ErrTxDone), log)
  {
    if faults.begin.Some? then
      Transfer(Some(Fail("begin transaction error", faults.begin.value)), [Begin], st, [])
    else
      var wd := WithdrawBalance(repoLog, st, sender, amount);
      match wd.result
      case Failure(e) => Finish(st, Fail("withdraw error", e), [Begin, Withdraw], faults.rollback, wd.logs, log)
      case Success(_) =>
        var dp := DepositBalance(repoLog, wd.store, receiver, amount);
        match dp.result
        case Failure(e) => Finish(st, Fail("deposit error", e), [Begin, Withdraw, Deposit], faults.rollback, wd.logs + dp.logs, log)
        case Success(_) =>
          if faults.commit.Some? then
            Finish(st, Fail("canceled, transaction error ", faults.commit.value), [Begin, Withdraw, Deposit, Commit],
                   Some(ErrTxDone), wd.logs + dp.logs, log)
          else
            Transfer(None, [Begin, Withdraw, Deposit, Commit], dp.store, wd.logs + dp.logs)
  }

  /** The order of the steps: a failed withdraw stops before the deposit, a
      failed deposit before the commit. */
  lemma TransferStepOrder(st: Store, sender: int, receiver: int, amount: int, faults: Faults, repoLog: Logger, log: Logger)
    ensures var t := TransferFunds(st, sender, receiver, amount, faults, repoLog, log);
      && (faults.begin.None? && !CanWithdraw(st, sender, amount) ==> t.steps == [Begin, Withdraw, Rollback])
      && (faults.begin.None? && CanWithdraw(st, sender, amount) && !Feasible(st, sender, receiver, amount) ==>
            t.steps == [Begin, Withdraw, Deposit, Rollback])
      && (Commit in t.steps ==> t.steps[..3] == [Begin, Withdraw, Deposit] && Feasible(st, sender, receiver, amount))
  {
    var t := TransferFunds(st, sender, receiver, amount, faults, repoLog, log);
    if faults.begin.Some? {
      assert t.steps == [Begin];
    } else if !CanWithdraw(st, sender, amount) {
      assert t.steps == [Begin, Withdraw, Rollback];
    } else if !Feasible(st, sender, receiver, amount) {
      assert t.steps == [Begin, Withdraw, Deposit, Rollback];
    } else {
      assert t.steps[..3] == [Begin, Withdraw, Deposit];
    }
  }

  /** Rollback runs once, last, exactly when a started transfer fails. */
  lemma TransferRollbackLast(st: Store, sender: int, receiver: int, amount: int, faults: Faults, repoLog: Logger, log: Logger)
    ensures var t := TransferFunds(st, sender, receiver, amount, faults, repoLog, log);
      && (Rollback in t.steps <==> faults.begin.None? && t.err.Some?)
      && (forall i :: 0 <= i < |t.steps| - 1 ==> t.steps[i] != Rollback)
  {
    var t := TransferFunds(st, sender, receiver, amount, faults, repoLog, log);
    if faults.begin.Some? {
      assert t.steps == [Begin];
    } else if !CanWithdraw(st, sender, amount) {
      assert t.steps == [Begin, Withdraw, Rollback];
    } else if !Feasible(st, sender, receiver, amount) {
      assert t.steps == [Begin, Withdraw, Deposit, Rollback];
    } else if faults.commit.Some? {
      assert t.steps == [Begin, Withdraw, Deposit, Commit, Rollback];
    } else {
      assert t.steps == [Begin, Withdraw, Deposit, Commit];
    }
  }

  /** Each error names the step that failed and keeps the cause's chain. */
  lemma TransferErrorNamesStep(st: Store, sender: int, receiver: int, amount: int, faults: Faults, repoLog: Logger, log: Logger)
    requires faults.begin.None?
    ensures var t := TransferFunds(st, sender, receiver, amount, faults, repoLog, log);
      && (!CanWithdraw(st, sender, amount) ==>
            t.err == Some(Fail("withdraw error", WithdrawBalance(repoLog, st, sender, amount).result.error)))
      && (CanWithdraw(st, sender, amount) && !Feasible(st, sender, receiver, amount) ==>
            t.err == Some(Fail("deposit error", DepositBalance(repoLog, WithdrawBalance(repoLog, st, sender, amount).store, receiver, amount).result.error)))
      && (Feasible(st, sender, receiver, amount) && faults.commit.Some? ==>
            t.err == Some(Fail("canceled, transaction error ", faults.commit.value)))
  {
  }

  /** Money is neither created nor destroyed by a transfer, committed or not. */
  lemma {:induction false} TransferPreservesTotal(st: Store, sender: int, receiver: int, amount: int, faults: Faults, repoLog: Logger, log: Logger)
    requires Valid(st)
    ensures var t := TransferFunds(st, sender, receiver, amount, faults, repoLog, log);
      Valid(t.store) && TotalBalance(t.store) == TotalBalance(st)
  {
    var t := TransferFunds(st, sender, receiver, amount, faults, repoLog, log);
    if t.err.None? {
      var tx1 := SetBalance(st, sender, st.rows[sender].balance - amount);
      var b1 := st.rows[sender].balance - amount;
      BalanceSumSet(st.rows, sender, b1, 1, st.nextId);
      assert TotalBalance(tx1) == TotalBalance(st) - amount;
      var b2 := tx1.rows[receiver].balance + amount;
      BalanceSumSet(tx1.rows, receiver, b2, 1, tx1.nextId);
      assert TotalBalance(t.store) == TotalBalance(tx1) + amount;
    }
  }

  /** A committed transfer moves exactly `amount` from sender to receiver and
      touches no other row. */
  lemma CommittedTransferMovesAmount(st: Store, sender: int, receiver: int, amount: int, faults: Faults, repoLog: Logger, log: Logger)
    requires sender != receiver
    requires TransferFunds(st, sender, receiver, amount, faults, repoLog, log).err.None?
    ensures var t := TransferFunds(st, sender, receiver, amount, faults, repoLog, log);
      && sender in st.rows && receiver in st.rows
      && st.rows[sender].balance >= amount
      && t.store.rows.Keys == st.rows.Keys
      && t.store.rows[sender].balance == st.rows[sender].balance - amount
      && t.store.rows[receiver].balance == st.rows[receiver].balance + amount
      && (forall k :: k in st.rows && k != sender && k != receiver ==> t.store.rows[k] == st.rows[k])
  {
  }
}

=== FILE: strconv.dfy ===
/** Decimal conversion as done by Go's strconv.Atoi and strconv.Itoa (and by
    fmt's `%d`). `int` is 64 bits wide on the platforms the service targets. */
module Strconv {
  import opened Wrappers

  const MinInt64: int := -0x8000_0000_0000_0000
  const MaxInt64: int := 0x7FFF_FFFF_FFFF_FFFF

  /** The two failures strconv.Atoi distinguishes. */
  datatype NumError = ErrSyntax | ErrRange

  predicate IsDigit(c: char) {
    '0' <= c <= '9'
  }

  predicate AllDigits(s: string) {
    forall i :: 0 <= i < |s| ==> IsDigit(s[i])
  }

  function DigitValue(c: char): nat
    requires IsDigit(c)
  {
    c as int - '0' as int
  }

  function DigitChar(d: nat): (c: char)
    requires d < 10
    ensures IsDigit(c) && DigitValue(c) == d
  {
    ('0' as int + d) as char
  }

  /** The number a run of decimal digits denotes (most significant first). */
  function DigitsValue(s: string): nat
    requires AllDigits(s)
  {
    if |s| == 0 then 0 else 10 * DigitsValue(s[..|s| - 1]) + DigitValue(s[|s| - 1])
  }

  /** Shortest decimal spelling of a natural number. */
  function NatToDigits(n: nat): (s: string)
    ensures |s| > 0 && AllDigits(s) && DigitsValue(s) == n
    ensures |s| > 1 ==> s[0] != '0'
  {
    if n < 10 then [DigitChar(n)]
    else
      var prefix := NatToDigits(n / 10);
      var s := prefix + [DigitChar(n % 10)];
      assert s[..|s| - 1] == prefix;
      s
  }

  /** strconv.Itoa / fmt `%d`. */
  function Itoa(n: int): (s: string)
    ensures |s| > 0
  {
    if n < 0 then "-" + NatToDigits(-n) else NatToDigits(n)
  }

  /** strconv.Atoi: an optional '+' or '-', then at least one decimal digit,
      and the value must fit in 64 bits. */
  function Atoi(s: string): (r: Result<int, NumError>)
    ensures r.Success? ==> MinInt64 <= r.value <= MaxInt64
    ensures |s| == 0 ==> r == Failure(ErrSyntax)
    ensures r.Success? ==> forall i :: 0 < i < |s| ==> IsDigit(s[i])
    ensures r.Success? ==> IsDigit(s[0]) || s[0] == '+' || s[0] == '-'
  {
    if |s| == 0 then Failure(ErrSyntax)
    else
      var signed := s[0] == '+' || s[0] == '-';
      var digits := if signed then s[1..] else s;
      if |digits| == 0 || !AllDigits(digits) then Failure(ErrSyntax)
      else
        var v: int := if s[0] == '-' then 0 - DigitsValue(digits) as int else DigitsValue(digits);
        if v < MinInt64 || v > MaxInt64 then Failure(ErrRange) else Success(v)
  }

  /** Every 64-bit integer survives a trip through Itoa and back. */
  lemma AtoiItoa(n: int)
    requires MinInt64 <= n <= MaxInt64
    ensures Atoi(Itoa(n)) == Success(n)
  {
    var s := Itoa(n);
    if n < 0 {
      assert s[1..] == NatToDigits(-n);
    }
  }

  /** Atoi refuses a string holding any character other than a digit beyond
      its first position, for instance a path segment like "7a" or "1.5". */
  lemma AtoiRejectsNonDigit(s: string, i: int)
    requires 0 < i < |s| && !IsDigit(s[i])
    ensures Atoi(s).Failure?
  {
  }
}

=== FILE: strings.dfy ===
/** The few functions of Go's `strings` package that the core relies on. */
module Strings {

  /** strings.HasPrefix */
  predicate HasPrefix(s: string, prefix: string) {
    |prefix| <= |s| && s[..|prefix|] == prefix
  }

  /** strings.TrimPrefix: removes one leading occurrence of `prefix`, if any. */
  function TrimPrefix(s: string, prefix: string): (r: string)
    ensures HasPrefix(s, prefix) ==> prefix + r == s
    ensures !HasPrefix(s, prefix) ==> r == s
  {
    if HasPrefix(s, prefix) then s[|prefix|..] else s
  }

  /** A concatenation starts with its first part; cutting that part off
      leaves the second. */
  lemma PrefixSplit(a: string, b: string)
    ensures HasPrefix(a + b, a) && (a + b)[|a|..] == b
  {
    assert (a + b)[..|a|] == a;
  }

  /** strings.Contains */
  predicate Contains(s: string, sub: string)
    decreases |s|
  {
    HasPrefix(s, sub) || (|s| > 0 && Contains(s[1..], sub))
  }

  /** strings.Join */
  function Join(parts: seq<string>, sep: string): string
    decreases |parts|
  {
    if |parts| == 0 then ""
    else if |parts| == 1 then parts[0]
    else parts[0] + sep + Join(parts[1..], sep)
  }

  /** A string contains every piece it was concatenated from. */
  lemma {:induction false} ContainsPiece(a: string, sub: string, b: string)
    ensures Contains(a + sub + b, sub)
    decreases |a|
  {
    if |a| == 0 {
      assert a + sub + b == sub + b;
      assert (sub + b)[..|sub|] == sub;
    } else {
      assert (a + sub + b)[1..] == a[1..] + sub + b;
      ContainsPiece(a[1..], sub, b);
    }
  }

  /** A string never contains a longer one. */
  lemma {:induction false} ShorterNotContained(s: string, sub: string)
    requires |s| < |sub|
    ensures !Contains(s, sub)
    decreases |s|
  {
    if |s| > 0 {
      ShorterNotContained(s[1..], sub);
    }
  }
}

=== FILE: withlogger.dfy ===
/** internal/middleware/withlogger.go: binds a request-scoped logger into
    the request context. */
module WithLogger {
  import opened Logs
  import opened Http

  /** generateRequestID: the client's X-Request-ID when it sent a non-empty
      one, otherwise a freshly generated UUID. net/http keeps the header
      under its canonical name "X-Request-Id", which is where `Header.Get`
      looks. */
  function GenerateRequestId(r: Request, generated: Uuid): (id: string)
    ensures "X-Request-Id" in r.header && r.header["X-Request-Id"] != "" ==> id == r.header["X-Request-Id"]
    ensures !("X-Request-Id" in r.header && r.header["X-Request-Id"] != "") ==> id == generated
    ensures id != ""
  {
    RequestIdKey();
    var given := HeaderGet(r, "X-Request-ID");
    if given != "" then given else generated
  }

  /** LoggerFromContext: the stored logger, or the no-op logger; never nil. */
  function LoggerFromContext(ctx: Context): (l: Logger)
    ensures LoggerKey in ctx && ctx[LoggerKey].LoggerVal? ==> l == ctx[LoggerKey].logger
    ensures !(LoggerKey in ctx && ctx[LoggerKey].LoggerVal?) ==> l == Nop
  {
    if LoggerKey in ctx && ctx[LoggerKey].LoggerVal? then ctx[LoggerKey].logger else Nop
  }

  /** The four fields the request logger carries. The client address is the
      raw RemoteAddr, port included. */
  function RequestFields(r: Request, id: string): seq<Field> {
    [ Field("trace.id", Str(id)),
      Field("http.method", Str(r.verb)),
      Field("url.path", Str(r.path)),
      Field("client.address", Str(r.remoteAddr)) ]
  }

  /** The request as WithLogger forwards it. */
  function Bind(base: Logger, r: Request, generated: Uuid): (r': Request)
    ensures r'.(ctx := r.ctx) == r
    ensures r'.ctx.Keys == r.ctx.Keys + {LoggerKey}
    ensures forall k :: k in r.ctx && k != LoggerKey ==> r'.ctx[k] == r.ctx[k]
  {
    var logger := With(base, RequestFields(r, GenerateRequestId(r, generated)));
    WithContext(r, r.ctx[LoggerKey := LoggerVal(logger)])
  }

  /** WithLogger(base)(next): calls next once, with the same writer and the
      bound request. */
  function Serve(base: Logger, next: Handler, env: Env, r: Request, w: World): (rep: Reply)
    ensures rep == next(env, Bind(base, r, env.newUuid), w)
  {
    next(env, Bind(base, r, env.newUuid), w)
  }

  function Stage(base: Logger, next: Handler): Handler {
    (env, r, w) => Serve(base, next, env, r, w)
  }

  /** Downstream, LoggerFromContext yields exactly the bound logger: the base
      logger extended with the trace id, method, path and client address. */
  lemma ForwardedLogger(base: Logger, r: Request, generated: Uuid)
    ensures var l := LoggerFromContext(Bind(base, r, generated).ctx);
      && l.With? && l.parent == base && |l.fields| == 4
      && l.fields[0] == Field("trace.id", Str(GenerateRequestId(r, generated)))
      && l.fields[1] == Field("http.method", Str(r.verb))
      && l.fields[2] == Field("url.path", Str(r.path))
      && l.fields[3] == Field("client.address", Str(r.remoteAddr))
  {
  }
}

=== FILE: wrappers.dfy ===
/** Failure-carrying results used wherever the Go code returns `(value, error)`
    or `(value, ok)`. */
module Wrappers {

  datatype Option<+T> = None | Some(value: T) {
    function GetOr(default: T): T {
      match this
      case Some(v) => v
      case None => default
    }
  }

  datatype Result<+T, +E> = Success(value: T) | Failure(error: E) {
    function ToOption(): Option<T> {
      match this
      case Success(v) => Some(v)
      case Failure(_) => None
    }
  }
}
